=== FILE: README.md ===
# Network Pulse API — a Dafny model of its core

Network Pulse is a Django REST API in which people publish entries (projects,
news, sessions) and tag, bookmark and moderate them, and in which each person
has a profile. This project models the part of it that holds the decisions:

- The replay guard in front of form posts. It checks a CSRF token, a form
  nonce, a logged-in user and the session's nonce, in that order, and
  invalidates the nonce on a mismatch.
- The other one-shot session tokens: the OAuth `state` and the reCAPTCHA
  token.
- The entry operations: toggling a bookmark, the featured flag and the
  moderation state; bulk bookmarking; the list filters; posting an entry.
  Saving an entry also builds its ordered creator list.
- The tag table, which never stores a comma, and the migration helpers that
  merge tags differing only in letter case and then lower-case every name.
- Identity rules: staff and Mozilla e-mail domains, staff promotion, the
  user managers, and the social-login adapter.
- Profile serialisation: trimming the extended-information fields, entry
  counts, ordering, name search, query gating, pagination, and the choice of
  serializer by API version.
- Small helpers: API version resolution, the year validator, URL pattern
  builders, the temporary checkbox UUID, the image size limit, the legacy
  JSON migration, the GitHub event CSV merge, and the newsletter signup.

The database is abstract state:

- The bookmark relation is a set of (profile, entry) pairs.
- Entries are a map from id to a row with `featured`, a moderation state,
  a publisher and an ordered creator list.
- Tags are a map from id to name, with a relation from entries to tag ids.
- The session is a finite map written in place.

Views that change state are methods on classes (`Session`, `Database`,
`TagStore`, `Dict`, the user and profile records). Decisions with no state
are functions. Python values whose type matters (form fields, JSON bodies,
session entries) are a tagged union with Python's own `==`, `is` and
truthiness. So `0 == False` holds while `0 is False` does not, which is what
lets a numeric nonce through an invalidated session.

Everything the code reaches outside itself is a parameter or an oracle:
random values, the current year, the OAuth exchange, the reCAPTCHA and SQS
answers, GitHub pages, URL validation, `is_safe_url`, `urlencode`, base64
decoding and date parsing.

## Model

| member | source | states |
|---|---|---|
| Python.EqualIsEquivalence | pulseapi/entries/views.py:145 | Python's `==` on form, JSON and session values is reflexive, symmetric and transitive |
| Python.ZeroEqualsFalse | pulseapi/entries/views.py:137-145 | `0 == False` and `1 == True` hold although `0 is False` and `1 is True` do not |
| Python.EqualOnStrings | app/pulseapi/views.py:159 | a string equals exactly the same string and never a number, a boolean or None |
| Python.Dict.constructor | pulseapi/profiles/serializers/profiles.py:31-40 | a mutable dictionary starts with the given items |
| Strings.Split | pulseapi/entries/views.py:552 | at least one piece, two once the separator occurs, and no piece holds it |
| Strings.Strip | pulseapi/tags/models.py:49-50 | no longer than the input and free of whitespace at both ends |
| Strings.IndexOf | pulseapi/utility/userpermissions.py:15-17 | the position of the first occurrence |
| Strings.JoinSplit | pulseapi/entries/views.py:552 | joining the pieces of `s.split(sep)` with `sep` gives `s` back |
| Strings.SplitJoin | pulseapi/entries/views.py:552 | splitting a join of separator-free pieces gives the pieces back |
| Strings.StripIsTrimmedSlice | pulseapi/tags/models.py:49-50 | `strip()` returns a slice of the input and cuts only whitespace from either end |
| Strings.StripIdempotent | pulseapi/tags/models.py:49-50 | stripping twice strips nothing more |
| Strings.LowerIdempotent | pulseapi/tags/helpers.py:65-67 | lowering twice lowers nothing more |
| Strings.ParseIntText | pulseapi/entries/forms.py:40 | `int(str(n)) == n` for every integer |
| Strings.ParseEachValues | pulseapi/entries/views.py:465 | `int()` over the pieces succeeds iff every piece parses, and then yields their values in order |
| Store.StatesNamed | pulseapi/entries/views.py:452 | exactly the moderation states with that name |
| Store.BookmarkersOf | pulseapi/entries/serializers.py:126-130 | exactly the profiles that bookmarked the entry |
| Store.Database.constructor | pulseapi/entries/views.py:46-70 | no entries and no bookmarks yet, with the given states and profiles |
| Store.StateByName | pulseapi/entries/views.py:452 | `ModerationState.objects.get(name=…)`: the single row with that name; none is DoesNotExist, several is MultipleObjectsReturned |
| Store.CreatedBy | pulseapi/profiles/serializers/profiles.py:146 | exactly the entries that list the profile among their creators |
| Store.PublishedBy | pulseapi/profiles/serializers/profiles.py:147-149 | exactly the entries the user published |
| Store.FavoritedBy | pulseapi/profiles/serializers/profiles.py:150 | exactly the entries the profile bookmarked |
| Store.AtMostAllEntries | pulseapi/profiles/serializers/profiles.py:145-151 | a set of entry ids drawn from the table is no larger than the table |
| Web.Session.constructor | pulseapi/users/views.py:55-68 | a session holding the given entries |
| Web.NewStateValue | app/pulseapi/views.py:31-36 | the session's `state` becomes the fresh random value; nothing else changes |
| Web.NewNonceValue | pulseapi/users/views.py:63-68 | the session's `nonce` becomes the fresh random value; nothing else changes (the first API layout repeats the rule in app/pulseapi/views.py:39-44) |
| PostGuard.GetOrFalse | pulseapi/entries/views.py:126-130 | `fields.get(key, False)`: the field's value when present, the `False` singleton otherwise |
| PostGuard.Verdict | pulseapi/entries/views.py:117-150 | `True` exactly when all four checks pass; otherwise the message of the first failing check; KeyError when the session holds no nonce |
| PostGuard.FirstFailureAnswers | pulseapi/entries/views.py:132-148 | the checks run in the fixed order CSRF, nonce, login, nonce match, and the first failure names the answer |
| PostGuard.Check | pulseapi/entries/views.py:117-150 | returns the verdict; only a nonce mismatch writes the session, and it writes `False` to its nonce |
| PostGuard.InvalidatedNonceRejectsStrings | pulseapi/entries/views.py:145-148 | once the session's nonce is `False`, no string nonce passes |
| PostGuard.MismatchIsFinal | pulseapi/entries/views.py:145-148 | after a mismatch has invalidated the session, every later string nonce is refused, the original one included |
| PostGuard.ZeroNoncePassesInvalidatedSession | pulseapi/entries/views.py:137-145 | a JSON nonce `0` passes an invalidated session, because `0 is False` fails and `0 == False` holds |
| EntriesViews.Toggle | pulseapi/entries/views.py:61-67 | the pair is removed if present and added otherwise; nothing else changes |
| EntriesViews.ToggleTwice | pulseapi/entries/views.py:55-69 | toggling the same bookmark twice restores the bookmark set |
| EntriesViews.ToggleMovesCount | pulseapi/entries/views.py:61-67 | a toggle moves the entry's bookmark count by exactly one, up or down |
| EntriesViews.ToggleBookmark | pulseapi/entries/views.py:46-70 | an authenticated user's bookmark of an existing entry is toggled (204); a missing entry is 404; an anonymous user gets 403 and the bookmarks are unchanged |
| EntriesViews.ToggleBookmarkTwice | pulseapi/entries/views.py:55-69 | two toggles by the same user leave the bookmark relation as it was |
| EntriesViews.ToggleFeatured | pulseapi/entries/views.py:74-89 | with `entries.change_entry` the flag of an existing entry is negated; a missing entry is 404; without the permission 403 and nothing changes |
| EntriesViews.ToggleModeration | pulseapi/entries/views.py:93-114 | with the permission, the entry's state becomes the given one; a missing entry, then a missing state, is 404; without it 403 and nothing changes |
| EntriesViews.BookmarkedQuery | pulseapi/entries/views.py:233-240 | the entries the requester's profile bookmarked; none for an anonymous user |
| EntriesViews.ToggleFlipsListing | pulseapi/entries/views.py:233-240 | after a toggle an entry is listed among the user's bookmarks exactly when it was not before |
| EntriesViews.PairsStep | pulseapi/entries/views.py:270-283 | one more id adds at most its own bookmark |
| EntriesViews.AddBookmark | pulseapi/entries/views.py:270-283 | an existing entry is bookmarked unless it already is; a missing entry is skipped |
| EntriesViews.BookmarkEach | pulseapi/entries/views.py:285-287 | each comma-separated id of an existing entry is bookmarked once; missing entries are skipped; a non-integer piece raises ValueError after the earlier pieces took effect |
| EntriesViews.BulkBookmarkIdempotent | pulseapi/entries/views.py:270-289 | a second run with the same ids adds nothing |
| EntriesViews.BulkBookmark | pulseapi/entries/views.py:259-294 | only a verdict of exactly `True` goes on: it invalidates the nonce and bookmarks the parsed ids; a refusing verdict is 403 and a guard KeyError escapes, both with the bookmarks unchanged, and the session keeps its nonce except after a resubmission verdict, which invalidates it |
| EntriesViews.ParseIds | pulseapi/entries/views.py:461-468 | all or nothing: the ids when every piece is an integer, no filter otherwise |
| EntriesViews.ParseIdsValues | pulseapi/entries/views.py:463-468 | the filter applies iff every piece parses, and its ids are the pieces' values in order |
| EntriesViews.ListQuery | pulseapi/entries/views.py:433-494 | a moderation filter applies only for a logged-in superuser or moderator (an unknown state escapes); otherwise an entry is listed iff it is stored and passes every filter asked for: the moderation state, the parsed `ids`, and a creator named by custom or user name |
| EntriesViews.UnparsableIdsIgnored | pulseapi/entries/views.py:461-468 | an `ids` parameter that does not parse as a comma list of integers lists exactly what the query without it lists |
| EntriesViews.FlatSplitHasNoCommas | pulseapi/entries/views.py:547-555 | no tag that comes out of the splitting holds a comma |
| EntriesViews.FlatSplitKeepsPlainTags | pulseapi/entries/views.py:550-554 | tags without commas come out unchanged |
| EntriesViews.JoinAppend | pulseapi/entries/views.py:552 | joining two non-empty lists is joining each with the separator between them |
| EntriesViews.FlatSplitKeepsText | pulseapi/entries/views.py:547-555 | splitting loses no text: the comma-joined tags read the same before and after |
| EntriesViews.SplitTagList | pulseapi/entries/views.py:547-555 | the loop builds exactly the flattened comma split of the tags, in order |
| EntriesViews.ModerationFor | pulseapi/entries/views.py:567-574 | `Approved` for a staff address and `Pending` otherwise; a missing or repeated state row escapes; an anonymous poster raises AttributeError |
| EntriesViews.VerdictIsTruthy | pulseapi/entries/views.py:517-519 | every answer of `post_validate` is truthy, so the entry post's 400 branch is unreachable |
| EntriesViews.ReplayStillPasses | pulseapi/entries/views.py:513-519 | after invalidation a resubmitted string nonce is refused by the guard, yet the entry post still goes on |
| EntriesViews.PostEntry | pulseapi/entries/views.py:513-594 | unless the guard raises, the nonce is invalidated whatever the verdict; a thumbnail that is not an object raises TypeError and undecodable base64 a ValueError, with nothing saved; otherwise a thumbnail object with a name and base64 becomes a file of the decoded bytes, a missing member is ignored, and the tags are comma-split; a valid post saves, under a fresh id, an entry published by the poster, not featured, in the state ModerationFor chooses; an invalid one is 400; otherwise no entry changes |
| EntrySerializers.CreatorListOrder | pulseapi/entries/serializers.py:137-154 | the related creators keep their order and come first; the poster's creator is present iff asked for or given, and never twice |
| EntrySerializers.Create | pulseapi/entries/serializers.py:132-156 | a new entry under a fresh id whose creator list is CreatorList; no other entry changes |
| EntrySerializers.IsBookmarkedByOwnProfile | pulseapi/entries/serializers.py:49-62 | for an authenticated request user: true iff one of that user's profiles bookmarked the entry |
| EntrySerializers.NoRequestNeverBookmarked | pulseapi/entries/serializers.py:54-62 | with a context holding no request, as the entry views build it, the answer is false for everyone |
| EntrySerializers.BookmarkCountField | pulseapi/entries/serializers.py:126-130 | zero exactly when no profile bookmarked the entry |
| EntrySerializers.TagNamed | pulseapi/entries/serializers.py:22 | the tag spelt exactly so, when there is one |
| EntrySerializers.TagFromSlug | pulseapi/entries/serializers.py:19-30 | a tag named exactly the slug is returned with the table unchanged; otherwise a tag save runs, whose first stripped term names the returned tag; a validation error propagates and, `get_or_create` creating inside an atomic block, leaves every tag name as it was |
| EntrySerializers.NamedTagIsItsFirstTerm | pulseapi/entries/serializers.py:22 | a stored name is its own first comma term, stripped |
| EntryForms.EntryAdminForm.constructor | pulseapi/entries/forms.py:21-30 | a saved entry's initial creators and bookmark count; neither for a new entry; creators disabled without `entries.change_creators`; bookmark count disabled and optional |
| EntryForms.WithCreators | pulseapi/entries/forms.py:36-41 | only the entry's creator list changes |
| EntryForms.AddCreator | pulseapi/entries/forms.py:41 | the profile becomes the entry's last creator |
| EntryForms.RecordCreators | pulseapi/entries/forms.py:38-41 | the records made extend those already there; a failure is a ValueError (an id `int()` refuses) or an IntegrityError (a repeated profile) |
| EntryForms.RecordCreatorsUnique | pulseapi/creators/models.py:40 | an entry lists a profile at most once (`unique_together` on entry and profile): the records never list a profile twice when the ones already there do not |
| EntryForms.SaveCreators | pulseapi/entries/forms.py:32-41 | earlier creator records are deleted, then one record per cleaned id in order; the first id `int()` refuses (ValueError) or that repeats an earlier one (IntegrityError) raises, leaving the records of the ids before it |
| EntryForms.RecordCreatorsSucceed | pulseapi/entries/forms.py:38-41 | the save returns exactly when every id parses and no id repeats, and the creators are then the parsed ids in order |
| EntryForms.RecordCreatorsFailure | pulseapi/entries/forms.py:38-41 | among ids that all parse a failure is an IntegrityError; among ids that never repeat it is a ValueError |
| EntryForms.SavedCreatorsInOrder | pulseapi/entries/forms.py:36-41 | when every id parses and no two are equal, the save returns and the creators are their values, one each, in the order given |
| EntryForms.SavedPksRoundTrip | pulseapi/entries/forms.py:25-41 | distinct profile pks shown as decimal text are saved back as those very pks, in order; a repeated pk raises IntegrityError |
| Tags.NormalAfterWrite | pulseapi/tags/models.py:38-50 | a stripped, comma-free name within 150 characters keeps the table's names normal |
| Tags.UniqueAfterWrite | pulseapi/tags/models.py:24 | writing a name no other tag has keeps names unique |
| Tags.CleanAll | pulseapi/tags/models.py:42-43 | the stripped form of every further term, in order |
| Tags.CleanAllAt | pulseapi/tags/models.py:42-43 | the k-th cleaned term is the k-th term stripped |
| Tags.NewTagsAt | pulseapi/tags/models.py:42-43 | the j-th created tag is stored under the j-th fresh id |
| Tags.NewTagsRange | pulseapi/tags/models.py:42-43 | the created ids are exactly the next consecutive ids |
| Tags.NewTagsStep | pulseapi/tags/models.py:42-43 | creating one more term adds one tag under the next id |
| Tags.NewTagsKeep | pulseapi/tags/models.py:42-43 | creating tags keeps every older tag |
| Tags.CreatedStored | pulseapi/tags/models.py:42-46 | the created terms survive the final write of the tag itself |
| Tags.FurtherTermsStored | pulseapi/tags/models.py:40-43 | every further term's stripped name is stored |
| Tags.CommaSaveFacts | pulseapi/tags/models.py:38-46 | after a comma save: older tags are kept, new ids are fresh, every further term is stored |
| Tags.TagStore.constructor | pulseapi/tags/models.py:19-25 | an empty, valid table |
| Tags.TagStore.FullClean | pulseapi/tags/models.py:45-50 | accepts iff the name is non-empty, has at most 150 characters and its stripped form is no other tag's; yields the stripped name |
| Tags.TagStore.Write | pulseapi/tags/models.py:45-46 | the write succeeds iff `full_clean` does; it stores the stripped name under the tag's id or a fresh one; a failure changes nothing |
| Tags.TagStore.CreateTerm | pulseapi/tags/models.py:43 | `Tag.objects.create` of a comma-free term: a fresh tag holding the stripped term |
| Tags.TagStore.CreateTerms | pulseapi/tags/models.py:42-43 | each further term becomes a fresh tag in order; the first failure stops after the tags before it |
| Tags.TagStore.Save | pulseapi/tags/models.py:33-46 | stores the first comma term stripped and every further term as a tag; a comma-free name is cleaned and written as it is; other tags are kept |
| Tags.TagStore.SaveTerms | pulseapi/tags/models.py:39-46 | a name with commas: the further terms are created first, then the first term is cleaned and written; the ids issued are counted exactly |
| Tags.TagStore.EntryCount | pulseapi/tags/models.py:27-28 | the number of entries using the tag; zero iff no entry uses it |
| Tags.TagStore.Str | pulseapi/tags/models.py:52-53 | `str(tag)` is the tag's name |
| TagHelpers.Rebound | pulseapi/tags/helpers.py:36-47 | an entry's tags after the merge: the duplicate replaced by the master |
| TagHelpers.MergeKeepsLowerNames | pulseapi/tags/helpers.py:36-47 | merging a tag into a case variant changes no entry's set of lower-cased tag names |
| TagHelpers.MergeInto | pulseapi/tags/helpers.py:36-47 | every entry tagged with the duplicate gains the master; the duplicate is deleted from the table and every entry |
| TagHelpers.Absorb | pulseapi/tags/helpers.py:31-47 | one duplicate is merged into the master and its folded name recorded |
| TagHelpers.AbsorbVariants | pulseapi/tags/helpers.py:27-47 | every remaining case variant of the master not spelt like it is merged into it |
| TagHelpers.CollapseGroup | pulseapi/tags/helpers.py:16-47 | one outer turn for a tag whose folded name is new: its group collapses into it |
| TagHelpers.SkipKeepsCollapsed | pulseapi/tags/helpers.py:23-24 | a tag whose folded name is already recorded has no remaining variant, so skipping it keeps the invariant |
| TagHelpers.CollapsedAtEnd | pulseapi/tags/helpers.py:14-47 | when the walk ends, no two tags are case variants and every folded name survives |
| TagHelpers.CollapsedAfterGroup | pulseapi/tags/helpers.py:16-47 | after a group merges into its master, the walk's invariant holds one position further |
| TagHelpers.CollapseCase | pulseapi/tags/helpers.py:5-47 | afterwards no two tags are equal ignoring case; the first tag of each group survives; every folded name survives; each entry's lower-cased tag names are unchanged |
| TagHelpers.LoweredNameFree | pulseapi/tags/helpers.py:65-67 | a lowered name clashes with no tag that folds differently |
| TagHelpers.CaseDistinctByFold | pulseapi/tags/helpers.py:61-67 | folding names one tag at a time keeps them distinct ignoring case |
| TagHelpers.VisitedAll | pulseapi/tags/helpers.py:65 | a visit of every tag that met no empty name met none at all |
| TagHelpers.LowerOne | pulseapi/tags/helpers.py:66-67 | the tag is renamed to its lower-case name and saved; only an empty name fails |
| TagHelpers.LowerEach | pulseapi/tags/helpers.py:65-67 | every name keeps its case-folded form; it succeeds iff no name is empty, and then every tag holds its lower-case name |
| TagHelpers.SameFoldSameLowerNames | pulseapi/tags/helpers.py:65-67 | names that fold alike give every entry the same lower-cased tag names |
| TagHelpers.SameFoldSameVariants | pulseapi/tags/helpers.py:65-67 | names that fold alike have the same case variants |
| TagHelpers.EmptyNameKept | pulseapi/tags/helpers.py:61-62 | the empty name is its own only case variant, so collapsing keeps it |
| TagHelpers.LowercaseAll | pulseapi/tags/helpers.py:50-67 | after `collapse_case`, every remaining name becomes its lower-case form; no duplicates arise; it fails iff some tag has an empty name |
| UserPermissions.DomainBetweenFirstTwoAts | pulseapi/utility/userpermissions.py:15-17 | `email.split('@')[1]` is the text between the first `@` and the next one, or the end |
| UserPermissions.StaffAddressIgnoresLocalPart | pulseapi/utility/userpermissions.py:7-22 | an address is judged by its domain alone |
| UserPermissions.WithGroup | pulseapi/utility/userpermissions.py:35-39 | the group is added only if it exists |
| UserPermissions.AssignGroupPolicy | pulseapi/utility/userpermissions.py:31-39 | the user joins the group if it exists; a missing group changes no membership |
| UserPermissions.SetUserPermissions | pulseapi/utility/userpermissions.py:42-55 | a non-staff user with a non-empty staff address becomes staff and joins `staff`; any other user is unchanged |
| UserPermissions.PromotionIsIdempotent | pulseapi/utility/userpermissions.py:49 | a second run finds the flag set and does nothing |
| IsMoz.IsMoz | utility/is_moz.py:1-23 | False for None; IndexError without `@`; otherwise true iff the domain is exactly one of the three Mozilla domains |
| IsMoz.DomainDecides | utility/is_moz.py:14-23 | for a well-formed address, the answer is membership of its domain among the three |
| IsMoz.SubdomainsAndCaseRejected | utility/is_moz.py:14-23 | a subdomain, or another letter case, of a Mozilla domain is not a Mozilla address |
| UserModels.FullName | pulseapi/users/models.py:69-70 | the name, then the email in parentheses |
| UserModels.EmailUser.constructor | pulseapi/users/models.py:20-23 | a user with the given email and name, not staff, not superuser, in no group |
| UserModels.EmailUser.GetFullName | pulseapi/users/models.py:69-70 | `name + " (" + email + ")"` |
| UserModels.EmailUser.GetShortName | pulseapi/users/models.py:72-73 | the email |
| UserModels.EmailUser.ToString | pulseapi/users/models.py:78-85 | `toString` and `__str__` answer the email |
| UserModels.EmailUser.HasPerm | pulseapi/users/models.py:87-88 | every permission is granted |
| UserModels.EmailUser.HasModulePerms | pulseapi/users/models.py:90-91 | every module permission is granted |
| UserModels.CreateUser | pulseapi/users/models.py:10-26 | ValueError for an empty name, checked first, then for an empty email; an address already stored raises IntegrityError on save (the email column is unique); it succeeds exactly otherwise, with the generated password when none is given and a user holding exactly the given email and name |
| UserModels.CreateSuperuser | pulseapi/users/models.py:28-37 | the errors of `create_user` (ValueError exactly for an empty name or email, IntegrityError for a stored address); otherwise a user with the given email and name, staff and superuser, in no group |
| LegacyUserModels.EmailUser.constructor | pulseapi/models.py:16-19 | a user with the given email and name, not staff |
| LegacyUserModels.EmailUser.GetFullName | pulseapi/models.py:54-55 | `name + " (" + email + ")"` |
| LegacyUserModels.EmailUser.GetShortName | pulseapi/models.py:57-58 | the email |
| LegacyUserModels.EmailUser.ToString | pulseapi/models.py:63-70 | `toString` and `__str__` answer the email |
| LegacyUserModels.EmailUser.Clean | pulseapi/models.py:60-61 | `clean` is declared without `self`, so calling it raises TypeError |
| LegacyUserModels.EmailUser.HasPerm | pulseapi/models.py:72-73 | every permission is granted |
| LegacyUserModels.EmailUser.HasModulePerms | pulseapi/models.py:75-76 | every module permission is granted |
| LegacyUserModels.CreateUser | pulseapi/models.py:6-22 | ValueError for an empty name, then an empty email; IntegrityError for an address already stored; otherwise a user with the given email and name, and the generated password when none is given |
| LegacyUserModels.CreateSuperuser | pulseapi/models.py:24-32 | the errors of `create_user`; otherwise a user with the given email and name and `is_staff` set |
| LegacyViews.Index | app/pulseapi/views.py:47-60 | a fresh state and nonce go into the session; the flow's state and the page's nonce are the session's |
| LegacyViews.FormValue | app/pulseapi/views.py:143-144 | a form field is text, the `False` singleton when absent |
| LegacyViews.ValidatePost | app/pulseapi/views.py:137-164 | the shared guard over the form fields only: the verdict, and on a mismatch an invalidated nonce |
| LegacyViews.FormPostsCannotReplay | app/pulseapi/views.py:143-162 | once the nonce is invalidated no form post passes, since form fields are text and text never equals `False` |
| LegacyViews.PostTest | app/pulseapi/views.py:167-187 | only a verdict of exactly `True` renders the submissions page, after invalidating the nonce; a missing `name` or `url` is KeyError; any other verdict is 404 with the message |
| LegacyViews.PostTestResubmissionFails | app/pulseapi/views.py:174-187 | after an accepted post the same fields get the resubmission message |
| LegacyViews.Accounts.constructor | app/pulseapi/views.py:111-127 | an empty user table keyed by email |
| LegacyViews.Callback | app/pulseapi/views.py:74-135 | 404 without a session state; an `error` fails the login; a code without, or with a different, `state` is refused before any exchange; neither error nor code is 404; otherwise the user is renamed or created, then logged in, and redirected to `/` |
| UsersViews.Nonce | pulseapi/users/views.py:74-86 | 403 for an anonymous requester and the session is unchanged; otherwise a fresh nonce is stored and that same value returned |
| UsersViews.IssuedNoncePasses | pulseapi/users/views.py:83-86 | a freshly issued nonce, sent back by its logged-in user with a CSRF token, passes the guard |
| UsersViews.UserStatus | pulseapi/users/views.py:92-128 | `moderator` iff in the `moderator` group or superuser, so never for the anonymous user; the personal fields are `False` unless logged in |
| UsersViews.StartAuth | pulseapi/users/views.py:146-163 | the session state is `original_url` when given, else a fresh value; the flow's state is always the session's |
| UsersViews.FinalRedirect | pulseapi/users/views.py:179-206 | the target is `state` when it validates as a URL, `/` otherwise; then `&` or `?`, then `loggedin=` and the flag |
| UsersViews.FinalRedirectQuery | pulseapi/users/views.py:199-204 | for a target without a query, the URL splits at `?` into the target and exactly `loggedin=True` or `loggedin=False` |
| UsersViews.Accounts.constructor | pulseapi/users/views.py:256-270 | an empty user table keyed by email |
| UsersViews.RenameOrCreate | pulseapi/users/views.py:256-270 | the user stored under the email gets the provider's name; an unknown email creates a user, subject to the manager's checks |
| UsersViews.Callback | pulseapi/users/views.py:212-280 | the same check order as the first layout; then, unless `ALLOW_UNIVERSAL_LOGIN` is set (to any value, `"False"` included, since the view only compares it with `None`), a non-staff address gets `loggedin=False` and no user is touched; otherwise rename or create, log in, `loggedin=True` |
| Versioning.Dict | pulseapi/settings.py:294 | `dict(pairs)`: every key of the pairs is present and holds the value of one of its pairs |
| Versioning.ApiVersionsValue | pulseapi/settings.py:286-294 | `API_VERSIONS` maps `version_1`, `version_2`, `version_3` to `v1`, `v2`, `v3` |
| Versioning.ConfiguredVersions | pulseapi/settings.py:286-305 | the allowed versions are v1, v2 and v3, and the default is v1 |
| Versioning.DetermineVersion | pulseapi/versioning.py:6-27 | an absent or None version is the default; the answer is always an allowed version; an allowed one comes back unchanged; anything else is NotFound |
| Versioning.LatestIsAllowed | pulseapi/users/views.py:20 | `LATEST_API_VERSION` is the last listed version, v3, and resolves to itself |
| Recaptcha.VerifyRecaptcha | pulseapi/users/utils.py:16-36 | true iff the request succeeds and `success` is exactly `True`; a failed request or error status is false; an unreadable body raises |
| Recaptcha.OnlyTrueVerifies | pulseapi/users/utils.py:33 | `success` of `1` or `"true"` does not verify; only the boolean does |
| Recaptcha.ClientToken | pulseapi/users/utils.py:93 | `request.GET.get('token', None)` |
| Recaptcha.LoginContext | pulseapi/users/utils.py:42-73 | with reCAPTCHA on, the page renders iff the session holds a non-None token equal to the client's; no token is PermissionDenied untouched; otherwise the token is cleared whatever the outcome; with it off, the original context unchanged |
| Recaptcha.TokenAuthorisesOneRender | pulseapi/users/utils.py:58-62 | after one request no query renders the login page again until a new token is recorded |
| Recaptcha.RecordedTokenAdmitsItsClient | pulseapi/users/utils.py:63-71 | a recorded token admits exactly the client that sends that token back |
| Recaptcha.LoginRedirectUrl | pulseapi/users/utils.py:87-89 | the login URL, with the request's query string when it has one |
| Recaptcha.LoginRedirect | pulseapi/users/utils.py:91-109 | with reCAPTCHA on: no token or failed verification is 403 and the session is untouched; a verified token is stored before the redirect; with it off, an immediate redirect |
| Recaptcha.RedirectedClientRendersOnce | pulseapi/users/utils.py:42-109 | after a successful redirect the login page renders for that client once, and then no more |
| SocialAdapter.TextOr | pulseapi/users/adapter.py:93-94 | `data.get(key) or ''` |
| SocialAdapter.PopulatedName | pulseapi/users/adapter.py:91-96 | never empty: the provider's name when non-empty; else `first last` stripped; else `Unnamed Pulse user` |
| SocialAdapter.FallbackNameIsStripped | pulseapi/users/adapter.py:95-96 | a fallback name has no surrounding blanks, and blank parts give the placeholder |
| SocialAdapter.BlankStripsToEmpty | pulseapi/users/adapter.py:95 | a string of blanks strips to nothing |
| SocialAdapter.PopulateUser | pulseapi/users/adapter.py:88-101 | the name is PopulatedName; `is_staff` is raised only for a Google login with a staff address, otherwise kept |
| SocialAdapter.Profiles.constructor | pulseapi/users/adapter.py:111-119 | no profiles yet |
| SocialAdapter.SaveUser | pulseapi/users/adapter.py:103-121 | a user with a profile keeps it and nothing changes; otherwise a new inactive profile is created and attached |
| SocialAdapter.LinkedProviders | pulseapi/users/adapter.py:144-146 | the providers of the user's linked social accounts, none when it has none |
| SocialAdapter.Decide | pulseapi/users/adapter.py:123-184 | nothing for an empty or unknown email, a non-login process or a failed lookup; else no accounts is a migration, the same provider proceeds, any other is the connection prompt |
| SocialAdapter.LinkedProviderProceeds | pulseapi/users/adapter.py:153-156 | a login through an already-linked provider is never interrupted |
| SocialAdapter.LoginRequest.constructor | pulseapi/users/adapter.py:152 | no migration is recorded yet |
| SocialAdapter.PreSocialLogin | pulseapi/users/adapter.py:123-184 | a migration is recorded on the request; a second provider raises an immediate redirect to the prompt; every other case changes nothing |
| SocialAdapter.SocialLogin.constructor | pulseapi/users/adapter.py:186-190 | the login's user as given |
| SocialAdapter.IsAutoSignupAllowed | pulseapi/users/adapter.py:186-193 | a recorded migration binds the login to that user and allows signup; otherwise the default answer and the login is untouched |
| SocialAdapter.EmailConfirmationUrl | pulseapi/users/adapter.py:49-73 | the base URL unchanged unless a non-empty, safe `next` is present, which is then written into its query |
| ProfileSerializers.RemoveKey | pulseapi/profiles/serializers/profiles.py:10-14 | the key is deleted if present; a missing key is a silent no-op (repeated in pulseapi/profiles/serializers/userprofile/serializer.py:10-14) |
| ProfileSerializers.Trimmed | pulseapi/profiles/serializers/profiles.py:31-40 | the flag key is gone; the four extended keys are gone when the flag is off; every other key stays with its value |
| ProfileSerializers.TrimIdempotent | pulseapi/profiles/serializers/profiles.py:31-40 | trimming a trimmed dictionary removes nothing more |
| ProfileSerializers.TrimExtendedInformation | pulseapi/profiles/serializers/profiles.py:31-40 | mutates and returns the same dictionary, which becomes Trimmed of its old contents (repeated in pulseapi/profiles/serializers/userprofile/serializer.py:97-107) |
| ProfileSerializers.BasicRepresentation | pulseapi/profiles/serializers/profiles.py:22-27 | exactly `id`, `name` and `is_active` |
| ProfileSerializers.ProfileRow.constructor | pulseapi/profiles/serializers/profiles.py:160-165 | a profile row with its flag and columns |
| ProfileSerializers.ToRepresentation | pulseapi/profiles/serializers/profiles.py:153-158 | the serialized output trimmed for the profile (the detail serializer at lines 48-53 and pulseapi/profiles/serializers/userprofile/serializer.py:109-114 do the same) |
| ProfileSerializers.Update | pulseapi/profiles/serializers/profiles.py:160-165 | the validated data is trimmed in place, then written; the flag never changes (repeated in pulseapi/profiles/serializers/userprofile/serializer.py:116-121) |
| ProfileSerializers.UpdateCannotWriteDisabledFields | pulseapi/profiles/serializers/profiles.py:160-165 | while the flag is off, no extended column changes, whatever is sent |
| ProfileSerializers.UpdateWritesEnabledFields | pulseapi/profiles/serializers/profiles.py:160-165 | while the flag is on, every sent field except the flag is written |
| ProfileSerializers.EntryCount | pulseapi/profiles/serializers/profiles.py:142-151 | created, published (0 without a user) and favorited counts (repeated in pulseapi/profiles/serializers/userprofile/serializer.py:86-95) |
| ProfileSerializers.EntryCountsAtMostEntries | pulseapi/profiles/serializers/profiles.py:142-151 | no count exceeds the number of entries |
| ProfileSerializers.MyProfile | pulseapi/profiles/serializers/profiles.py:188-190 | the context user equals the profile's user; with no user in the context, a profile without a user matches |
| LegacyProfileSerializers.ProfileSerializer.constructor | pulseapi/profiles/serializers.py:46-56 | with an instance, the flag field goes, and the extended fields too when the flag is off; without one, every field stays |
| LegacyProfileSerializers.FieldsFor | pulseapi/profiles/serializers.py:48-56 | the fields kept for a profile: never the flag, never the extended fields while it is off, every other declared one |
| LegacyProfileSerializers.PruningAgreesWithTrimming | pulseapi/profiles/serializers.py:48-56 | pruning fields up front keeps exactly the keys that trimming the output would |
| LegacyProfileSerializers.LegacyUpdate | pulseapi/profiles/serializers.py:104-111 | the flag key, and the extended keys while it is off, are dropped from the validated data before the write |
| LegacyProfileSerializers.PublishedEntries | pulseapi/profiles/serializers.py:134-141 | the user's published entries; none for a profile without a user |
| LegacyProfileSerializers.CreatedEntries | pulseapi/profiles/serializers.py:145-147 | the profile's created entries that are approved, and only those |
| LegacyProfileSerializers.RequestOwnsProfile | pulseapi/profiles/serializers.py:151-152 | true iff the request user is authenticated and is the profile's user; no request is AttributeError |
| ProfileEntries.OrderingFor | pulseapi/profiles/serializers/userprofile/entries.py:26-36 | no ordering for an empty parameter; without a prefix the parameter verbatim; with one, the prefix goes after a leading `-` |
| ProfileEntries.PublishedFor | pulseapi/profiles/serializers/userprofile/entries.py:87-93 | the user's published entries; none without a user |
| ProfileEntries.ToRepresentation | pulseapi/profiles/serializers/userprofile/entries.py:38-115 | with nothing requested, exactly `entry_count`; otherwise each of `created`, `published`, `favorited` is present iff requested, with its entries |
| ProfileEntries.EntryCountBounds | pulseapi/profiles/serializers/userprofile/entries.py:52-60 | the count of distinct related entries is at least the size of each of the three lists and, once bookmarks point at entries, at most the entry table |
| ProfileViews.VersionConstants | pulseapi/settings.py:286-294 | the version names the views compare with are `v1` and `v2` |
| ProfileViews.StartsAreContains | pulseapi/profiles/views/profiles.py:146-150 | a name that starts with the value contains it |
| ProfileViews.Select | pulseapi/profiles/views/profiles.py:147-150 | a filter keeps exactly the matching profiles, in order, without repeats |
| ProfileViews.FilterName | pulseapi/profiles/views/profiles.py:145-151 | exactly the profiles whose custom or user name contains the value ignoring case; "startswith" matches come first; no repeats (pulseapi/profiles/views/userprofile/list.py:53-59 repeats it) |
| ProfileViews.Qs | pulseapi/profiles/views/profiles.py:158-184 | empty without a request or query params; otherwise the filtered set iff `search` or a declared field is present, empty otherwise |
| ProfileViews.ListQueryset | pulseapi/profiles/views/profiles.py:243-265 | every profile with `is_active` in the query; only the active ones otherwise |
| ProfileViews.PageSize | pulseapi/profiles/views/profiles.py:202-205 | between 1 and 50: a positive `page_size` capped at 50, else 30 |
| ProfileViews.NumPages | pulseapi/profiles/views/profiles.py:202-205 | at least one page, and just enough pages for the items |
| ProfileViews.PageItems | pulseapi/profiles/views/profiles.py:202-205 | a page holds at most the page size |
| ProfileViews.EveryItemOnItsPage | pulseapi/profiles/views/profiles.py:202-205 | the item at index i is on page i / size + 1, which exists |
| ProfileViews.PageNumber | pulseapi/profiles/views/profiles.py:202-205 | page 1 when absent, the last page for `last`, a valid page number or NotFound |
| ProfileViews.Paginate | pulseapi/profiles/views/profiles.py:202-205 | at most 50 items, or NotFound |
| ProfileViews.PaginateQueryset | pulseapi/profiles/views/profiles.py:267-279 | v1 and v2 are never paginated; other versions get a page of at most 50; no request reaches the paginator's `request.query_params` and raises AttributeError |
| ProfileViews.ListSerializerClass | pulseapi/profiles/views/profiles.py:281-303 | no request gives list; then v1 with entries; then `basic`; then v2 public; else list |
| ProfileViews.PublicSerializerClass | pulseapi/profiles/views/profiles.py:95-99 | with entries iff v1, public otherwise |
| ProfileViews.OwnProfile | pulseapi/profiles/views/profiles.py:37-110 | anonymous is PermissionDenied, no profile is NotFound; a profile returned is always owned by the requester |
| ProfileViews.PutBody.constructor | pulseapi/profiles/views/profiles.py:77-78 | a PUT body holding the given thumbnail |
| ProfileViews.UnpackThumbnail | pulseapi/profiles/views/profiles.py:66-89 | a thumbnail object with a non-empty name and base64 becomes a file of the decoded bytes, or raises a ValueError when the text is not base64; a truthy thumbnail that is not an object raises AttributeError; an absent or falsy thumbnail, or an object missing either member, is left as sent |
| LegacyProfileViews.LegacyQs | pulseapi/profiles/views/userprofile/list.py:66-88 | empty without a request or query params; otherwise the filtered set iff a declared field is present (`search` does not count) |
| LegacyProfileViews.LegacySerializerClass | pulseapi/profiles/views/userprofile/list.py:133-141 | v1 with entries; else `basic`; else public; no request raises AttributeError |
| LegacyProfileViews.SerializerChoicesAgreeUpToVersion2 | pulseapi/profiles/views/userprofile/list.py:133-141 | for v1 and v2 both list views choose alike; elsewhere they part ways |
| ProfileLookups.GetQuery | pulseapi/profiles/lookups.py:12-20 | the profiles whose names contain `q` ignoring case, "startswith" matches first, no repeats |
| ProfileLookups.FormatItemDisplay | pulseapi/profiles/lookups.py:22-23 | the text wrapped in `<span class="profile">` and `</span>` |
| ProfileLookups.CanAdd | pulseapi/profiles/lookups.py:25-26 | the user holds `profiles.add_userprofile`, so only logged-in users |
| Validators.NewYearValidator | pulseapi/utility/validators.py:20-27 | ValueError iff `min_year` is after the current year; defaults 2000 and 10 |
| Validators.Check | pulseapi/utility/validators.py:29-38 | no error iff `min_year <= value <= current year + max_offset`, both bounds inclusive; the error carries the code and both bounds |
| Validators.DefaultValidatorBounds | pulseapi/utility/validators.py:20-38 | from 2000 on, the default validator accepts exactly 2000 to current year + 10 |
| Validators.EqIsEquivalence | pulseapi/utility/validators.py:40-47 | `__eq__` is reflexive, symmetric and transitive; equal validators judge alike; another class is never equal |
| UrlUtils.VersionedUrl | pulseapi/utility/urlutils.py:4-10 | the pattern followed by the version group |
| UrlUtils.ApiUrl | pulseapi/utility/urlutils.py:13-17 | `^api/pulse/` followed by the pattern |
| UrlUtils.VersionedApiUrl | pulseapi/utility/urlutils.py:20-25 | `^api/pulse/`, the version group, then the pattern |
| UrlUtils.VersionedApiUrlComposes | pulseapi/utility/urlutils.py:4-25 | `versioned_api_url(p) == versioned_url(api_url()) + p`, and `api_url()` is the bare prefix |
| FormFields.ValueFromDatadict | pulseapi/utility/form_fields.py:9-25 | None iff the box is absent; a parsable UUID is kept; any other value is a fresh random (version 4) UUID |
| FormFields.UncheckedIgnoresRandomness | pulseapi/utility/form_fields.py:9-25 | the random draw matters only for a value that is not a UUID |
| FormFields.TemporaryFieldArguments | pulseapi/utility/form_fields.py:32-34 | `required` is always False; every other argument passes through |
| ImageValidation.EnforceImageSizeLimit | pulseapi/utility/image_validation.py:4-7 | ValidationError iff the upload is truthy and over 512 KiB; otherwise the data comes back unchanged |
| ImageValidation.CleanThumbnail | pulseapi/profiles/forms.py:6-12 | an accepted thumbnail comes back unchanged; only a truthy one over the limit is refused |
| ImageValidation.ThumbnailCheckIsSizeLimit | pulseapi/profiles/forms.py:6-12 | the admin form's check is the same rule as the image validator |
| ImageValidation.LimitIsInclusive | pulseapi/utility/image_validation.py:5 | 524288 bytes pass and 524289 do not |
| Migrate.Texts | migrate.py:11 | the strings of a list of strings |
| Migrate.Stringify | migrate.py:8-12 | a list of strings joined with `", "`; any other value unchanged; a list holding a non-string is TypeError |
| Migrate.StringifyIdempotent | migrate.py:8-12 | stringifying twice changes nothing more; a one-string list becomes that string |
| Migrate.Arrayify | migrate.py:14-21 | a non-empty string becomes `[s]`; an empty string or list becomes `[]`; a list stays; other values are TypeError |
| Migrate.ArrayifyIdempotent | migrate.py:14-21 | arrayifying twice changes nothing more |
| Migrate.Column | migrate.py:9-15 | `entry[key]`, KeyError when absent |
| Migrate.Notes | migrate.py:42 | `connection + " Origin: " + origin` for strings |
| Migrate.Head | migrate.py:25-33 | `created`, `featured` (true iff the source `== True`, so `1` counts), `title` stringified, `creators` arrayified, `content_url`; KeyError or TypeError otherwise |
| Migrate.Body | migrate.py:35-38 | `description`, `interest`, `get_involved_url`, `get_involved` |
| Migrate.Tail | migrate.py:39-42 | `tags`, `issues`, `thumbnail_url`, `internal_notes`, exactly when the columns are present and convertible; a network connection that is not text raises TypeError before `Origin` is read, so a row without `Origin` always fails |
| Migrate.MassageEntry | migrate.py:24-42 | an output record iff every column is present and well typed; `featured` iff the column equals True; the timestamp and the three URLs copied verbatim; title, description, interest and get-involved text the stringified columns; tags, creators and issues the split lists; the notes the network connection joined to the origin |
| Migrate.MigrateRows | migrate.py:23-44 | one record per input, in order; the first failure's error otherwise |
| Migrate.MigrateAll | migrate.py:23-44 | every entry migrated in order iff each is migratable |
| Contributions.ExtractEvent | pulseapi/utility/contributions_data.py:33-45 | `action` from the payload or `""`; id, type, contributor and repo copied; an unparsable time is ValueError |
| Contributions.ExtractData | pulseapi/utility/contributions_data.py:29-47 | one event per input event, in order |
| Contributions.EventRow | pulseapi/utility/contributions_data.py:59 | the six columns of a CSV row, in order |
| Contributions.RequestedPages | pulseapi/utility/contributions_data.py:53-54 | ten pages per repository, numbered 1 to 10 |
| Contributions.EveryPageRequested | pulseapi/utility/contributions_data.py:53-54 | page p of repository i is request `10*i + p - 1` |
| Contributions.CreateEventsRows | pulseapi/utility/contributions_data.py:50-60 | the rows of the pages requested in order; all pages 1-10 of every repository are requested when none fails |
| Contributions.TextOrder | pulseapi/utility/contributions_data.py:84 | Python's `<` on strings is a strict total order |
| Contributions.RowOrder | pulseapi/utility/contributions_data.py:84 | Python's `<` on rows of strings is a strict total order |
| Contributions.Insert | pulseapi/utility/contributions_data.py:84 | inserting into a sorted, duplicate-free list keeps it so and adds exactly the row |
| Contributions.SortedDistinct | pulseapi/utility/contributions_data.py:84 | strictly sorted, with exactly the members of the input |
| Contributions.MergeEvents | pulseapi/utility/contributions_data.py:71-84 | the sorted union: no duplicates, no row lost from either file |
| Contributions.SortedIsUnique | pulseapi/utility/contributions_data.py:84 | two strictly sorted lists with the same members are equal |
| Contributions.MergeProperties | pulseapi/utility/contributions_data.py:76-84 | the merge is commutative, and merging the same new rows again changes nothing |
| Newsletter.MissingParameter | pulseapi/utility/newsletters/signup.py:58-63 | 400 iff `email` or `source` is missing, `email` checked first |
| Newsletter.SignupMessage | pulseapi/utility/newsletters/signup.py:65-81 | `email`, `source_url` from `source`, `lang` `en`, `format` `html`, `newsletters` `mozilla-foundation`, event `newsletter_signup_data` |
| Newsletter.SendMessage | pulseapi/utility/newsletters/signup.py:13-29 | the proxy always answers `MessageId: True`; a real client answers as it does |
| Newsletter.SendToSqs | pulseapi/utility/newsletters/signup.py:86-112 | 201 without a queue URL; a raise is 500; 201 iff a truthy `MessageId`, else 500 |
| Newsletter.SignupSubmission | pulseapi/utility/newsletters/signup.py:56-83 | the parameter checks, then the message sent to the queue |
| Newsletter.ProxySignupSucceeds | pulseapi/utility/newsletters/signup.py:20-35 | with the proxy client, a well-formed signup is 201 |
| Newsletter.NoQueueIgnoresClient | pulseapi/utility/newsletters/signup.py:90-92 | without a queue URL the client is never consulted |

## Left out

- The ORM is abstract sets and maps. Query construction, `distinct`, `prefetch_related` and the many-to-many semantics of the search filter are not modelled. Neither is SQL collation: case-insensitive matching is ASCII lower-casing.
- TagHelpers.LowerOne, TagHelpers.CollapseCase, TagHelpers.LowercaseAll: Python's `str.lower()` in pulseapi/tags/helpers.py (lines 23, 43 and 66) is ASCII lower-casing here; Unicode case mappings, including those that change a string's length, are not modelled.
- Result ordering is not modelled: `order_by`, the default `-id` ordering of the profile list, and tags ordered by name. Entry listings are sets. Profile listings keep the order they are given in.
- The OAuth flow, token exchange and userinfo call are not modelled. The provider's name and email are parameters.
- The reCAPTCHA HTTP POST is not modelled; its outcome is a parameter.
- The SQS client is an oracle: the proxy, or a real client with a given outcome. JSON encoding of the message and the timestamp clock are left out.
- GitHub page requests are an oracle that returns a page's rows or fails.
- File I/O is left out: the JSON read and write in migrate.py and the CSV reading and writing in contributions_data.py.
- Library functions are parameters: `URLValidator`, `is_safe_url`, `urlparse`/`urlencode`, base64 decoding, `datetime.strptime` and its rendering, `uuid.UUID` parsing, and the display name of a provider.
- Random values are parameters: passwords, states, nonces and `uuid4`. Password hashing is left out.
- Django's `login()` session effects and `logout` are left out. The `force_logout` views only call `logout`.
- `reverse()` URLs are taken as allauth's default routes under `/accounts/`.
- The serializer's `is_valid()` is a parameter of the entry post. Field validation of the entry serializer is left out.
- EntriesViews.PostEntry: `tags` is taken as a list of strings. A string `tags`, which the loop walks one character at a time, and other kinds of value are not modelled. A thumbnail `name` that is not text is not modelled either.
- Bookmark timestamps, and the ordering of bookmarks by them, are left out.
- `int()` accepts only ASCII digits here, with an optional sign and surrounding whitespace. Underscore separators and non-ASCII digits are not modelled.
- Python `str.strip()` removes only ASCII whitespace here.
- The `search` filter's matching (SearchFilter over names, affiliation, bios and location) is not modelled. ProfileViews.Qs and LegacyProfileViews.LegacyQs take the filtered set as a parameter.
- The per-field filters (`ids`, `profile_type`, `program_type`, `program_year`) are not modelled. Only their presence in the query decides the gate.
- `filter_limit` (`queryset.limit`) is not modelled.
- `Entry.objects.public()` returns every entry here. `is_approved` is a given set of entries.
- UserModels.CreateUser, UserModels.CreateSuperuser, LegacyUserModels.CreateUser, LegacyUserModels.CreateSuperuser: column lengths are not modelled. A name or email longer than its column is refused by the database when the user is saved; the model creates the user.
- `has_perm` is Web.HasPerm: a signed-in requester holding the permission. The installed user model, `users.EmailUser` (pulseapi/settings.py:180), answers True for every permission (pulseapi/users/models.py:87-88). So in the deployed system every signed-in user passes the permission checks of pulseapi/entries/views.py (lines 80, 102 and 449) and of pulseapi/entries/forms.py:29. The model keeps the general rule; the deployed case is the one where the requester's `perms` holds every permission.
- Entry creators are one ordered list of profile ids. The source holds two generations of that relation: the entry serializer writes `Creator` and `OrderedCreatorRecord` rows (pulseapi/entries/serializers.py:10 and 143-154), while the admin form writes `EntryCreator` rows keyed by profile (pulseapi/entries/forms.py:26 and 41). Both are modelled as the entry's `creators`. The separate `Creator` table, and creators without a profile, are not modelled.
- PostGuard.MismatchIsFinal, LegacyViews.PostTestResubmissionFails, LegacyViews.FormPostsCannotReplay, Recaptcha.TokenAuthorisesOneRender: the session is a map the server keeps. The deployed sessions are signed cookies (pulseapi/settings.py:83) that the client sends back. These lemmas hold for a client that returns the latest cookie; a client that replays an older cookie brings the older nonce or token back, which the model does not capture.
- app/pulseapi/views.py is Python 2 code: the `print msg` at line 85 is a Python 2 statement. The legacy views are modelled as written, as if that module were loaded by a Python 2 interpreter; the print itself is left out.
- EntrySerializers.TagFromSlug: the slug is text. A JSON slug of another type, which `to_internal_value` can turn into an `invalid` error through its TypeError/ValueError branch (pulseapi/entries/serializers.py:29-30), is not modelled; nor is the `does_not_exist` branch, which `get_or_create` never reaches.
- JSON numbers with fractions and JSON objects are not part of the migrate model's values.
- The `remove_key` variant with a bare `except` is modelled like the one that catches KeyError. On a dictionary, `del` can raise nothing else.
- DEBUG logging and prints are left out.
- The admin JavaScript rebind guard is browser UI and is left out.
- The scheduler in clock.py runs jobs concurrently; it is left out.
- The entry list's pagination (48 per page, `page_size` up to 1000) is not modelled. Only the profile list's pagination is.

=== FILE: contributions.dfy ===
/**
 * GitHub contribution activity: the events of each repository's event feed
 * reduced to the columns kept, written as CSV rows, and merged into the
 * stored CSV as a sorted union of rows. The HTTP requests and the CSV files
 * are not part of this model.
 */
module Contributions {

  import opened Python
  import opened Strings

  /** The repositories whose feeds are read. */
  const Repos: seq<string> := ["mozilla/foundation.mozilla.org", "mozilla/network-pulse-api"]
  /** The feed pages read per repository: 1 to 10. */
  const PagesPerRepo := 10

  /** One event of a feed, as far as the reduction reads it. */
  datatype RawEvent = RawEvent(id: string, eventType: string, createdAt: string, payload: map<string, string>,
                               actorLogin: string, repoName: string)

  /** `GithubEvent`, its creation time of some time type `T`. */
  datatype GithubEvent<T> = GithubEvent(id: string, eventType: string, action: string, createdAt: T,
                                        contributor: string, repo: string)

  /**
   * One event of `extract_data`: the creation time through `strptime`
   * (`parseTime`; a time it cannot read is a ValueError), the payload's
   * action or `""` when it has none, and the identity, type, actor login and
   * repository name copied.
   */
  function ExtractEvent<T(==)>(e: RawEvent, parseTime: string -> Option<T>): (r: Result<GithubEvent<T>>)
    ensures r.Ok? <==> parseTime(e.createdAt).Some?
    ensures r.Ok? ==> r.value.createdAt == parseTime(e.createdAt).value
    ensures r.Ok? ==> r.value.action == (if "action" in e.payload then e.payload["action"] else "")
    ensures r.Ok? ==> ((r.value.id, r.value.eventType, r.value.contributor, r.value.repo) ==
      (e.id, e.eventType, e.actorLogin, e.repoName))
  {
    match parseTime(e.createdAt)
    case None => Raise(ValueError("time data does not match format"))
    case Some(time) =>
      var action := if "action" in e.payload then e.payload["action"] else "";
      Ok(GithubEvent(e.id, e.eventType, action, time, e.actorLogin, e.repoName))
  }

  /** The events reduced so far: one per input event, in order. */
  predicate ExtractedPrefix<T(==)>(events: seq<RawEvent>, parseTime: string -> Option<T>, out: seq<GithubEvent<T>>, n: nat) {
    n <= |events| && |out| == n
    && forall k :: 0 <= k < n ==> ExtractEvent(events[k], parseTime).Ok? && out[k] == ExtractEvent(events[k], parseTime).value
  }

  /**
   * `extract_data`: one reduced event per event of the feed, in the feed's
   * order; the first time that cannot be read stops it with a ValueError.
   */
  method ExtractData<T(==)>(events: seq<RawEvent>, parseTime: string -> Option<T>) returns (r: Result<seq<GithubEvent<T>>>)
    ensures r.Ok? <==> forall k :: 0 <= k < |events| ==> parseTime(events[k].createdAt).Some?
    ensures r.Ok? ==> (|r.value| == |events|
      && forall k :: 0 <= k < |events| ==> r.value[k] == ExtractEvent(events[k], parseTime).value)
    ensures r.Raise? ==> r.error.ValueError?
  {
    var result: seq<GithubEvent<T>> := [];
    for i := 0 to |events|
      invariant ExtractedPrefix(events, parseTime, result, i)
    {
      var event := ExtractEvent(events[i], parseTime);
      if event.Raise? {
        return Raise(event.error);
      }
      result := result + [event.value];
    }
    return Ok(result);
  }

  /** A CSV row. */
  type Row = seq<string>

  /** The row written for an event; `render` is how the CSV writer prints a time. */
  function EventRow<T>(e: GithubEvent<T>, render: T -> string): (row: Row)
    ensures |row| == 6 && row[0] == e.id && row[1] == render(e.createdAt) && row[3] == e.action
  {
    [e.id, render(e.createdAt), e.eventType, e.action, e.contributor, e.repo]
  }

  /** The feed pages `create_events_csv` asks for: pages 1 to 10 of every repository, repository by repository. */
  function RequestedPages(repos: seq<string>): (pages: seq<(string, int)>)
    ensures |pages| == PagesPerRepo * |repos|
    ensures forall k :: 0 <= k < |pages| ==> pages[k].0 in repos && 1 <= pages[k].1 <= PagesPerRepo
  {
    seq(PagesPerRepo * |repos|, k requires 0 <= k < PagesPerRepo * |repos| => (repos[k / PagesPerRepo], k % PagesPerRepo + 1))
  }

  /** Every page from 1 to 10 of every repository is asked for, at the position of its repository. */
  lemma EveryPageRequested(repos: seq<string>, i: nat, page: int)
    requires i < |repos| && 1 <= page <= PagesPerRepo
    ensures PagesPerRepo * i + page - 1 < |RequestedPages(repos)|
    ensures RequestedPages(repos)[PagesPerRepo * i + page - 1] == (repos[i], page)
  {
    var k := PagesPerRepo * i + page - 1;
    assert k / PagesPerRepo == i && k % PagesPerRepo == page - 1;
  }

  /**
   * The rows of the requested pages, in request order, where `pageRows` is
   * what one page yields (its fetch and `extract_data`); the first page
   * that fails stops the collection.
   */
  function Collect(requests: seq<(string, int)>, pageRows: (string, int) -> Result<seq<Row>>): Result<seq<Row>> {
    if |requests| == 0 then Ok([])
    else
      match Collect(requests[..|requests| - 1], pageRows)
      case Raise(e) => Raise(e)
      case Ok(rows) =>
        match pageRows(requests[|requests| - 1].0, requests[|requests| - 1].1)
        case Raise(e) => Raise(e)
        case Ok(more) => Ok(rows + more)
  }

  /**
   * The loops of `create_events_csv`: for every repository and page 1 to 10,
   * the page's rows are appended. The pages asked for are, in order, the
   * requested pages up to the first that fails, and the rows are those the
   * pages yield.
   */
  method CreateEventsRows(repos: seq<string>, pageRows: (string, int) -> Result<seq<Row>>)
    returns (r: Result<seq<Row>>, requested: seq<(string, int)>)
    ensures requested <= RequestedPages(repos)
    ensures r == Collect(requested, pageRows)
    ensures r.Ok? ==> requested == RequestedPages(repos)
  {
    var rows: seq<Row> := [];
    requested := [];
    var i := 0;
    while i < |repos|
      invariant 0 <= i <= |repos|
      invariant requested == RequestedPages(repos)[..PagesPerRepo * i]
      invariant Collect(requested, pageRows) == Ok(rows)
    {
      var page := 1;
      while page <= PagesPerRepo
        invariant 1 <= page <= PagesPerRepo + 1
        invariant requested == RequestedPages(repos)[..PagesPerRepo * i + page - 1]
        invariant Collect(requested, pageRows) == Ok(rows)
      {
        EveryPageRequested(repos, i, page);
        var extracted := pageRows(repos[i], page);
        assert (requested + [(repos[i], page)])[..|requested|] == requested;
        requested := requested + [(repos[i], page)];
        if extracted.Raise? {
          return Raise(extracted.error), requested;
        }
        rows := rows + extracted.value;
        page := page + 1;
      }
      i := i + 1;
    }
    return Ok(rows), requested;
  }

  /** Python's `<` on strings: code point by code point, a proper prefix first. */
  predicate TextBefore(a: string, b: string) {
    if |a| == 0 then |b| > 0
    else if |b| == 0 then false
    else a[0] < b[0] || (a[0] == b[0] && TextBefore(a[1..], b[1..]))
  }

  /** `TextBefore` is a strict total order. */
  lemma {:induction false} TextOrder(a: string, b: string, c: string)
    ensures !TextBefore(a, a)
    ensures a != b ==> TextBefore(a, b) || TextBefore(b, a)
    ensures TextBefore(a, b) ==> !TextBefore(b, a)
    ensures TextBefore(a, b) && TextBefore(b, c) ==> TextBefore(a, c)
  {
    if |a| > 0 && |b| > 0 && |c| > 0 {
      TextOrder(a[1..], b[1..], c[1..]);
      if a[0] == b[0] && a != b {
        assert a == [a[0]] + a[1..] && b == [b[0]] + b[1..];
      }
    } else if |a| > 0 && |b| > 0 {
      TextOrder(a[1..], b[1..], a[1..]);
      if a[0] == b[0] && a != b {
        assert a == [a[0]] + a[1..] && b == [b[0]] + b[1..];
      }
    } else if |a| > 0 {
      TextOrder(a[1..], a[1..], a[1..]);
    }
  }

  /** Python's `<` on tuples of strings: cell by cell, a proper prefix first. */
  predicate RowBefore(a: Row, b: Row) {
    if |a| == 0 then |b| > 0
    else if |b| == 0 then false
    else TextBefore(a[0], b[0]) || (a[0] == b[0] && RowBefore(a[1..], b[1..]))
  }

  /** `RowBefore` is a strict total order. */
  lemma {:induction false} RowOrder(a: Row, b: Row, c: Row)
    ensures !RowBefore(a, a)
    ensures a != b ==> RowBefore(a, b) || RowBefore(b, a)
    ensures RowBefore(a, b) ==> !RowBefore(b, a)
    ensures RowBefore(a, b) && RowBefore(b, c) ==> RowBefore(a, c)
  {
    if |a| > 0 && |b| > 0 && |c| > 0 {
      TextOrder(a[0], b[0], c[0]);
      TextOrder(b[0], c[0], a[0]);
      TextOrder(a[0], c[0], b[0]);
      RowOrder(a[1..], b[1..], c[1..]);
      if a[0] == b[0] && a != b {
        assert a == [a[0]] + a[1..] && b == [b[0]] + b[1..];
      }
    } else if |a| > 0 && |b| > 0 {
      TextOrder(a[0], b[0], a[0]);
      RowOrder(a[1..], b[1..], a[1..]);
      if a[0] == b[0] && a != b {
        assert a == [a[0]] + a[1..] && b == [b[0]] + b[1..];
      }
    } else if |a| > 0 {
      TextOrder(a[0], a[0], a[0]);
      RowOrder(a[1..], a[1..], a[1..]);
    }
  }

  /** Every row comes strictly before every later one: sorted, and so without repeats. */
  predicate StrictlySorted(rows: seq<Row>) {
    forall i, j :: 0 <= i < j < |rows| ==> RowBefore(rows[i], rows[j])
  }

  /** `row` put in its place in a sorted list, unless the list holds it already. */
  function Insert(row: Row, rows: seq<Row>): (r: seq<Row>)
    requires StrictlySorted(rows)
    ensures StrictlySorted(r)
    ensures forall x :: x in r <==> x == row || x in rows
  {
    if |rows| == 0 then [row]
    else if row == rows[0] then rows
    else if RowBefore(row, rows[0]) then
      assert forall j :: 0 < j < |rows| ==> RowBefore(row, rows[j]) by {
        forall j | 0 < j < |rows| ensures RowBefore(row, rows[j]) {
          RowOrder(row, rows[0], rows[j]);
        }
      }
      [row] + rows
    else
      RowOrder(row, rows[0], row);
      var rest := Insert(row, rows[1..]);
      assert forall x :: x in rest ==> RowBefore(rows[0], x) by {
        forall x | x in rest ensures RowBefore(rows[0], x) {
          if x != row {
            var j :| 1 <= j < |rows| && rows[j] == x;
          }
        }
      }
      [rows[0]] + rest
  }

  /** The sorted list of the distinct rows of `rows`. */
  function SortedDistinct(rows: seq<Row>): (r: seq<Row>)
    ensures StrictlySorted(r)
    ensures forall x :: x in r <==> x in rows
  {
    if |rows| == 0 then []
    else
      var init := rows[..|rows| - 1];
      assert rows == init + [rows[|rows| - 1]];
      Insert(rows[|rows| - 1], SortedDistinct(init))
  }

  /**
   * The rows `update_events_csv` writes: `sorted(set(new) | set(previous))`,
   * the sorted list of the rows of either file, each once; no row of
   * either file is lost.
   */
  function MergeEvents(previous: seq<Row>, newEvents: seq<Row>): (merged: seq<Row>)
    ensures StrictlySorted(merged)
    ensures forall x :: x in merged <==> x in previous || x in newEvents
  {
    SortedDistinct(newEvents + previous)
  }

  /**
   * Two sorted lists without repeats that hold the same rows are equal, so
   * the merge is the only list with its two properties: it is what
   * `sorted` of the union gives.
   */
  lemma {:induction false} SortedIsUnique(a: seq<Row>, b: seq<Row>)
    requires StrictlySorted(a) && StrictlySorted(b)
    requires forall x :: x in a <==> x in b
    ensures a == b
  {
    if |a| > 0 {
      assert a[0] in a;
    }
    if |b| > 0 {
      assert b[0] in b;
    }
    if |a| > 0 && |b| > 0 {
      var i :| 0 <= i < |b| && b[i] == a[0];
      var j :| 0 <= j < |a| && a[j] == b[0];
      RowOrder(a[0], b[0], a[0]);
      assert i == 0 || j == 0;
      forall x | x in a[1..] ensures x in b[1..] {
        var k :| 0 <= k < |a| - 1 && a[1..][k] == x;
        assert RowBefore(a[0], a[k + 1]);
        RowOrder(x, x, x);
        assert x in b;
      }
      forall x | x in b[1..] ensures x in a[1..] {
        var k :| 0 <= k < |b| - 1 && b[1..][k] == x;
        assert RowBefore(b[0], b[k + 1]);
        RowOrder(x, x, x);
        assert x in a;
      }
      SortedIsUnique(a[1..], b[1..]);
      assert a == [a[0]] + a[1..] && b == [b[0]] + b[1..];
    }
  }

  /** Merging is commutative and a second merge of the same file adds nothing. */
  lemma MergeProperties(previous: seq<Row>, newEvents: seq<Row>)
    ensures MergeEvents(previous, newEvents) == MergeEvents(newEvents, previous)
    ensures MergeEvents(MergeEvents(previous, newEvents), newEvents) == MergeEvents(previous, newEvents)
  {
    SortedIsUnique(MergeEvents(previous, newEvents), MergeEvents(newEvents, previous));
    var once := MergeEvents(previous, newEvents);
    SortedIsUnique(MergeEvents(once, newEvents), once);
  }
}

=== FILE: entries_views.dfy ===
/**
 * The entry views: toggling a bookmark, the featured flag and the moderation
 * state of one entry; listing and bulk-creating the requester's bookmarks;
 * the entry list's query filters; and posting a new entry.
 */
module EntriesViews {

  import opened Python
  import opened Strings
  import opened Web
  import opened Store
  import opened PostGuard
  import opened UserPermissions
  import opened EntrySerializers

  const ChangeEntry := "entries.change_entry"

  /** `x` removed from `s` if present, added otherwise. */
  function Toggle(s: set<(ProfileId, EntryId)>, x: (ProfileId, EntryId)): (r: set<(ProfileId, EntryId)>)
    ensures x in r <==> x !in s
    ensures forall y :: y != x ==> (y in r <==> y in s)
  {
    if x in s then s - {x} else s + {x}
  }

  /** Toggling is an involution: toggling the same element twice restores the set. */
  lemma ToggleTwice(s: set<(ProfileId, EntryId)>, x: (ProfileId, EntryId))
    ensures Toggle(Toggle(s, x), x) == s
  {
  }

  /** A bookmark toggle moves the entry's bookmark count by exactly one, up or down. */
  lemma ToggleMovesCount(bookmarks: set<(ProfileId, EntryId)>, p: ProfileId, e: EntryId)
    ensures (p, e) in bookmarks ==> BookmarkCount(Toggle(bookmarks, (p, e)), e) + 1 == BookmarkCount(bookmarks, e)
    ensures (p, e) !in bookmarks ==> BookmarkCount(Toggle(bookmarks, (p, e)), e) == BookmarkCount(bookmarks, e) + 1
  {
    var before := BookmarkersOf(bookmarks, e);
    var after := BookmarkersOf(Toggle(bookmarks, (p, e)), e);
    if (p, e) in bookmarks {
      assert after == before - {p};
    } else {
      assert after == before + {p};
    }
  }

  /**
   * `toggle_bookmark`: for a logged-in user, delete the user's bookmark of the
   * entry if there is one and create it otherwise; anonymous users get 403.
   */
  method ToggleBookmark(db: Database, user: Requester, entry: EntryId) returns (resp: Response)
    requires db.Valid()
    modifies db`bookmarks
    ensures db.Valid()
    ensures !user.authenticated ==> resp == Response(403, "Anonymous bookmarks cannot be saved.") && db.bookmarks == old(db.bookmarks)
    ensures user.authenticated && entry !in db.entries ==> resp.status == 404 && db.bookmarks == old(db.bookmarks)
    ensures user.authenticated && entry in db.entries ==>
      resp == Response(204, "Toggled bookmark.") && db.bookmarks == Toggle(old(db.bookmarks), (user.profile, entry))
  {
    if !user.authenticated {
      return Response(403, "Anonymous bookmarks cannot be saved.");
    }
    if entry !in db.entries {
      return Response(404, "Not found.");
    }
    if (user.profile, entry) in db.bookmarks {
      db.bookmarks := db.bookmarks - {(user.profile, entry)};
    } else {
      db.bookmarks := db.bookmarks + {(user.profile, entry)};
    }
    return Response(204, "Toggled bookmark.");
  }

  /** Two bookmark toggles by the same user on the same entry leave the bookmarks as they were. */
  method ToggleBookmarkTwice(db: Database, user: Requester, entry: EntryId)
    requires db.Valid()
    modifies db`bookmarks
    ensures db.bookmarks == old(db.bookmarks)
  {
    var first := ToggleBookmark(db, user, entry);
    var second := ToggleBookmark(db, user, entry);
    if user.authenticated && entry in db.entries {
      ToggleTwice(old(db.bookmarks), (user.profile, entry));
    }
  }

  /** `toggle_featured`: with `entries.change_entry`, negate the entry's featured flag; otherwise 403. */
  method ToggleFeatured(db: Database, user: Requester, entry: EntryId) returns (resp: Response)
    requires db.Valid()
    modifies db`entries
    ensures db.Valid()
    ensures !HasPerm(user, ChangeEntry) ==> resp.status == 403 && db.entries == old(db.entries)
    ensures HasPerm(user, ChangeEntry) && entry !in old(db.entries) ==> resp.status == 404 && db.entries == old(db.entries)
    ensures HasPerm(user, ChangeEntry) && entry in old(db.entries) ==>
      resp.status == 204 && db.entries == old(db.entries)[entry := old(db.entries)[entry].(featured := !old(db.entries)[entry].featured)]
  {
    if !HasPerm(user, ChangeEntry) {
      return Response(403, "You don't have permission to change entry featured status.");
    }
    if entry !in db.entries {
      return Response(404, "Not found.");
    }
    db.entries := db.entries[entry := db.entries[entry].(featured := !db.entries[entry].featured)];
    return Response(204, "Toggled featured status.");
  }

  /** A moderation state row with id `id` exists. */
  predicate StateExists(states: seq<ModerationState>, id: StateId) {
    exists k :: 0 <= k < |states| && states[k].id == id
  }

  /**
   * `toggle_moderation`: with `entries.change_entry`, set the entry's
   * moderation state; a missing entry, then a missing state, is 404.
   */
  method ToggleModeration(db: Database, user: Requester, entry: EntryId, state: StateId) returns (resp: Response)
    requires db.Valid()
    modifies db`entries
    ensures db.Valid()
    ensures resp.status == 204 <==> HasPerm(user, ChangeEntry) && entry in old(db.entries) && StateExists(db.states, state)
    ensures !HasPerm(user, ChangeEntry) ==> resp.status == 403
    ensures HasPerm(user, ChangeEntry) && !(entry in old(db.entries) && StateExists(db.states, state)) ==> resp.status == 404
    ensures resp.status == 204 ==> db.entries == old(db.entries)[entry := old(db.entries)[entry].(moderation := state)]
    ensures resp.status != 204 ==> db.entries == old(db.entries)
  {
    if !HasPerm(user, ChangeEntry) {
      return Response(403, "You do not have permission to change entry moderation states.");
    }
    if entry !in db.entries {
      return Response(404, "Not found.");
    }
    var k := 0;
    while k < |db.states| && db.states[k].id != state
      invariant 0 <= k <= |db.states|
      invariant forall j :: 0 <= j < k ==> db.states[j].id != state
    {
      k := k + 1;
    }
    if k == |db.states| {
      return Response(404, "Not found.");
    }
    db.entries := db.entries[entry := db.entries[entry].(moderation := state)];
    return Response(204, "Updated moderation state.");
  }

  /** `BookmarkedEntries.get_queryset`: the entries the requester's profile bookmarked; none for an anonymous user. */
  function BookmarkedQuery(bookmarks: set<(ProfileId, EntryId)>, user: Requester): (r: set<EntryId>)
    ensures forall e :: e in r <==> user.authenticated && (user.profile, e) in bookmarks
  {
    if !user.authenticated then {} else set b | b in bookmarks && b.0 == user.profile :: b.1
  }

  /** After a toggle, an entry is listed among the user's bookmarks exactly when it was not before. */
  lemma ToggleFlipsListing(bookmarks: set<(ProfileId, EntryId)>, user: Requester, e: EntryId)
    requires user.authenticated
    ensures e in BookmarkedQuery(Toggle(bookmarks, (user.profile, e)), user) <==> e !in BookmarkedQuery(bookmarks, user)
  {
  }

  /** The form fields `post_validate` reads: the parsed body when it is non-empty, the form post otherwise. */
  function FormFields(data: map<string, PyVal>, post: map<string, PyVal>): map<string, PyVal> {
    if data != map[] then data else post
  }

  /** The CSRF token and the nonce as `post_validate` reads them, defaulting to `False`. */
  function Csrf(data: map<string, PyVal>, post: map<string, PyVal>): PyVal {
    GetOrFalse(FormFields(data, post), "csrfmiddlewaretoken")
  }

  function Nonce(data: map<string, PyVal>, post: map<string, PyVal>): PyVal {
    GetOrFalse(FormFields(data, post), "nonce")
  }

  /** `post_validate` raises: the session never received a nonce. */
  predicate GuardRaises(data: map<string, PyVal>, post: map<string, PyVal>, user: Requester, session: map<string, PyVal>) {
    Verdict(Csrf(data, post), Nonce(data, post), user.authenticated, session).Raise?
  }

  /** `post_validate` answers a message rather than `True`. */
  predicate GuardRefuses(data: map<string, PyVal>, post: map<string, PyVal>, user: Requester, session: map<string, PyVal>) {
    var v := Verdict(Csrf(data, post), Nonce(data, post), user.authenticated, session);
    v.Ok? && v != Ok(PyBool(true))
  }

  /** The bookmarks of profile `p` for those of `ids` that name an existing entry. */
  ghost function Pairs(p: ProfileId, ids: seq<int>, entries: map<EntryId, Entry>): set<(ProfileId, EntryId)> {
    set id | id in ids && id in entries :: (p, id)
  }

  /** One more id adds at most its own bookmark. */
  lemma PairsStep(p: ProfileId, ids: seq<int>, id: int, entries: map<EntryId, Entry>)
    ensures Pairs(p, ids + [id], entries) == Pairs(p, ids, entries) + (if id in entries then {(p, id)} else {})
  {
    if id in entries {
      assert (p, id) in Pairs(p, ids + [id], entries);
    }
  }

  /** One id of the loop: an existing entry is bookmarked unless it already is; a missing one is skipped. */
  method AddBookmark(db: Database, p: ProfileId, id: int)
    requires db.Valid()
    modifies db`bookmarks
    ensures db.Valid()
    ensures db.bookmarks == old(db.bookmarks) + (if id in db.entries then {(p, id)} else {})
  {
    if id in db.entries && (p, id) !in db.bookmarks {
      db.bookmarks := db.bookmarks + {(p, id)};
    }
  }

  /**
   * The loop of `BookmarkedEntries.post`: each piece is looked up as an entry
   * id (`Entry.objects.get(id=piece)` converts it with `int`, whose ValueError
   * escapes); a missing entry is skipped and an existing bookmark is kept.
   */
  method BookmarkEach(db: Database, p: ProfileId, pieces: seq<string>) returns (r: Result<()>)
    requires db.Valid()
    modifies db`bookmarks
    ensures db.Valid()
    ensures db.bookmarks == old(db.bookmarks) + Pairs(p, LeadingInts(ParseEach(pieces)), db.entries)
    ensures r.Ok? <==> AllInts(ParseEach(pieces))
    ensures r.Raise? ==> r.error.ValueError?
  {
    ghost var parsed := ParseEach(pieces);
    ghost var ids: seq<int> := [];
    var k := 0;
    while k < |pieces|
      invariant 0 <= k <= |pieces|
      invariant ReadSoFar(parsed, k, ids)
      invariant db.Valid()
      invariant db.bookmarks == old(db.bookmarks) + Pairs(p, ids, db.entries)
    {
      var id := ParseInt(pieces[k]);
      LeadingStep(parsed, k, ids, id);
      assert id.Some? ==> ReadSoFar(parsed, k + 1, ids + [id.value]);
      if id.None? {
        return Raise(ValueError("invalid literal for int()"));
      }
      PairsStep(p, ids, id.value, db.entries);
      AddBookmark(db, p, id.value);
      ids := ids + [id.value];
      k := k + 1;
      assert ReadSoFar(parsed, k, ids);
    }
    assert parsed[k..] == [];
    r := Ok(());
  }

  /** Bulk bookmarking is idempotent: a second run with the same ids adds nothing. */
  lemma BulkBookmarkIdempotent(bookmarks: set<(ProfileId, EntryId)>, p: ProfileId, pieces: seq<string>,
                               entries: map<EntryId, Entry>)
    ensures var once := bookmarks + Pairs(p, LeadingInts(ParseEach(pieces)), entries);
            once + Pairs(p, LeadingInts(ParseEach(pieces)), entries) == once
  {
  }

  /**
   * `BookmarkedEntries.post`: only a guard verdict of exactly `True` goes on.
   * The nonce is then invalidated and, when `ids` is given, each of its
   * comma-separated ids is bookmarked for the requester's profile.
   */
  method BulkBookmark(db: Database, session: Session, user: Requester,
                      data: map<string, PyVal>, post: map<string, PyVal>, ids: Option<string>)
    returns (r: Result<Response>)
    requires db.Valid()
    modifies db`bookmarks, session
    ensures db.Valid()
    ensures GuardRaises(data, post, user, old(session.data)) ==> r == Raise(KeyError) && db.bookmarks == old(db.bookmarks)
    ensures GuardRefuses(data, post, user, old(session.data)) ==>
      r == Ok(Response(403, "post validation failed")) && db.bookmarks == old(db.bookmarks)
    ensures GuardRaises(data, post, user, old(session.data)) || GuardRefuses(data, post, user, old(session.data)) ==>
      session.data == if Verdict(Csrf(data, post), Nonce(data, post), user.authenticated, old(session.data)) == Ok(PyStr(Resubmitted))
        then old(session.data)["nonce" := PyBool(false)] else old(session.data)
    ensures Passes(Csrf(data, post), Nonce(data, post), user.authenticated, old(session.data)) ==>
      session.data == old(session.data)["nonce" := PyBool(false)]
    ensures Passes(Csrf(data, post), Nonce(data, post), user.authenticated, old(session.data)) && ids.None? ==>
      r == Ok(Response(204, "Entries bookmarked.")) && db.bookmarks == old(db.bookmarks)
    ensures Passes(Csrf(data, post), Nonce(data, post), user.authenticated, old(session.data)) && ids.Some? ==>
      var pieces := Split(ids.value, ',');
      db.bookmarks == old(db.bookmarks) + Pairs(user.profile, LeadingInts(ParseEach(pieces)), db.entries)
      && (r.Ok? <==> AllInts(ParseEach(pieces)))
      && (r.Ok? ==> r.value == Response(204, "Entries bookmarked."))
      && (r.Raise? ==> r.error.ValueError?)
  {
    var verdict := Check(session, Csrf(data, post), Nonce(data, post), user.authenticated);
    if verdict.Raise? {
      return Raise(verdict.error);
    }
    if !IsTrue(verdict.value) {
      return Ok(Response(403, "post validation failed"));
    }
    session.data := session.data["nonce" := PyBool(false)];
    if ids.Some? && user.authenticated {
      var done := BookmarkEach(db, user.profile, Split(ids.value, ','));
      if done.Raise? {
        return Raise(done.error);
      }
    }
    return Ok(Response(204, "Entries bookmarked."));
  }

  /**
   * The `ids` filter, all or nothing: the ids when every comma-separated
   * piece is an integer, nothing (the filter is skipped) otherwise.
   */
  function ParseIds(pieces: seq<string>): (r: Option<seq<int>>)
    ensures r.Some? <==> AllInts(ParseEach(pieces))
    ensures r.Some? ==> r.value == LeadingInts(ParseEach(pieces))
  {
    var parsed := ParseEach(pieces);
    if AllInts(parsed) then Some(LeadingInts(parsed)) else None
  }

  /** The ids filter in terms of the pieces: every piece parses, and the ids are their values in order. */
  lemma ParseIdsValues(pieces: seq<string>)
    ensures ParseIds(pieces).Some? <==> forall k :: 0 <= k < |pieces| ==> ParseInt(pieces[k]).Some?
    ensures ParseIds(pieces).Some? ==> (|ParseIds(pieces).value| == |pieces|
      && forall k :: 0 <= k < |pieces| ==> ParseIds(pieces).value[k] == ParseInt(pieces[k]).value)
  {
    ParseEachValues(pieces);
  }

  /** The entries some of whose creators is known by one of `names` (custom name or user name). */
  predicate ByCreators(e: Entry, profiles: map<ProfileId, ProfileNames>, names: seq<string>) {
    exists k :: 0 <= k < |e.creators| && e.creators[k] in profiles
      && ((profiles[e.creators[k]].customName.Some? && profiles[e.creators[k]].customName.value in names)
          || (profiles[e.creators[k]].userName.Some? && profiles[e.creators[k]].userName.value in names))
  }

  /** The `moderationstate` filter is asked for by a user allowed to use it. */
  predicate ModerationFilter(user: Requester, params: map<string, string>) {
    "moderationstate" in params && (IsSuperuser(user) || HasPerm(user, ChangeEntry))
  }

  /**
   * Entry `e` meets every filter the query asks for: the moderation state
   * when that filter applies, the ids when every piece of them parses, and
   * the creators.
   */
  predicate ListedBy(db: Database, user: Requester, params: map<string, string>, e: EntryId)
    reads db
    requires e in db.entries
  {
    && (ModerationFilter(user, params) ==>
         StateByName(db.states, params["moderationstate"]).Ok?
         && db.entries[e].moderation == StateByName(db.states, params["moderationstate"]).value)
    && ("ids" in params && ParseIds(Split(params["ids"], ',')).Some? ==> e in ParseIds(Split(params["ids"], ',')).value)
    && ("creators" in params ==> ByCreators(db.entries[e], db.profiles, Split(params["creators"], ',')))
  }

  /**
   * `EntriesListView.get_queryset`. A `moderationstate` filter applies only for
   * a superuser or a holder of `entries.change_entry`; the state is looked up
   * by name, and a missing one escapes as DoesNotExist. Otherwise every entry
   * is listed. Then the `ids` filter (all or nothing) and the `creators` filter.
   */
  function ListQuery(db: Database, user: Requester, params: map<string, string>): (r: Result<set<EntryId>>)
    reads db
    ensures r.Raise? ==> ModerationFilter(user, params)
    ensures r.Ok? ==> r.value <= db.entries.Keys
    ensures r.Ok? && "ids" in params && ParseIds(Split(params["ids"], ',')).Some? ==>
      forall e :: e in r.value ==> e in ParseIds(Split(params["ids"], ',')).value
    ensures r.Ok? && "creators" in params ==>
      forall e :: e in r.value ==> ByCreators(db.entries[e], db.profiles, Split(params["creators"], ','))
    ensures r.Ok? && ModerationFilter(user, params) ==>
      StateByName(db.states, params["moderationstate"]).Ok? &&
      forall e :: e in r.value ==> db.entries[e].moderation == StateByName(db.states, params["moderationstate"]).value
    ensures r.Ok? && !ModerationFilter(user, params) && "ids" !in params && "creators" !in params ==>
      r.value == db.entries.Keys
    ensures r.Ok? ==> forall e :: e in r.value <==> e in db.entries && ListedBy(db, user, params, e)
  {
    var base :=
      if ModerationFilter(user, params) then
        var state := StateByName(db.states, params["moderationstate"]);
        if state.Raise? then Raise(state.error)
        else Ok(set e | e in db.entries && db.entries[e].moderation == state.value)
      else Ok(db.entries.Keys);
    if base.Raise? then base
    else
      var byIds :=
        if "ids" in params && ParseIds(Split(params["ids"], ',')).Some? then
          var ids := ParseIds(Split(params["ids"], ',')).value;
          set e | e in base.value && e in ids
        else base.value;
      if "creators" in params then
        Ok(set e | e in byIds && e in db.entries && ByCreators(db.entries[e], db.profiles, Split(params["creators"], ',')))
      else Ok(byIds)
  }

  /**
   * An `ids` value with a piece that is not an integer is ignored entirely:
   * the listing is the one the query gives without it.
   */
  lemma UnparsableIdsIgnored(db: Database, user: Requester, params: map<string, string>)
    requires "ids" in params && ParseIds(Split(params["ids"], ',')).None?
    ensures ListQuery(db, user, params) == ListQuery(db, user, params - {"ids"})
  {
    var rest := params - {"ids"};
    assert ModerationFilter(user, params) == ModerationFilter(user, rest);
    var r1 := ListQuery(db, user, params);
    var r2 := ListQuery(db, user, rest);
    if r1.Ok? && r2.Ok? {
      forall e | e in db.entries
        ensures ListedBy(db, user, params, e) == ListedBy(db, user, rest, e)
      {
      }
      assert r1.value == r2.value;
    }
  }

  /** The tags after comma splitting: each tag replaced by its comma-separated pieces, in order. */
  function FlatSplit(tags: seq<string>): seq<string> {
    if |tags| == 0 then [] else FlatSplit(tags[..|tags| - 1]) + Split(tags[|tags| - 1], ',')
  }

  /** No tag that comes out of the splitting holds a comma. */
  lemma {:induction false} FlatSplitHasNoCommas(tags: seq<string>)
    ensures forall k :: 0 <= k < |FlatSplit(tags)| ==> ',' !in FlatSplit(tags)[k]
  {
    if |tags| > 0 {
      FlatSplitHasNoCommas(tags[..|tags| - 1]);
    }
  }

  /** Tags without commas come out unchanged. */
  lemma {:induction false} FlatSplitKeepsPlainTags(tags: seq<string>)
    requires forall k :: 0 <= k < |tags| ==> ',' !in tags[k]
    ensures FlatSplit(tags) == tags
  {
    if |tags| > 0 {
      FlatSplitKeepsPlainTags(tags[..|tags| - 1]);
      SplitWithoutSeparator(tags[|tags| - 1], ',');
      assert tags == tags[..|tags| - 1] + [tags[|tags| - 1]];
    }
  }

  /** Joining two non-empty lists is joining each and the separator between them. */
  lemma {:induction false} JoinAppend(a: seq<string>, b: seq<string>, sep: string)
    requires |a| > 0 && |b| > 0
    ensures Join(a + b, sep) == Join(a, sep) + sep + Join(b, sep)
  {
    if |a| > 1 {
      JoinAppend(a[1..], b, sep);
      assert (a + b)[1..] == a[1..] + b;
    } else {
      assert (a + b)[1..] == b;
    }
  }

  /** Splitting loses no text: the comma-joined tags read the same before and after. */
  lemma {:induction false} FlatSplitKeepsText(tags: seq<string>)
    requires |tags| > 0
    ensures |FlatSplit(tags)| > 0
    ensures Join(FlatSplit(tags), ",") == Join(tags, ",")
  {
    var last := tags[|tags| - 1];
    JoinSplit(last, ',');
    if |tags| == 1 {
      assert tags[..0] == [];
      assert FlatSplit(tags) == Split(last, ',');
      assert Join(tags, ",") == last;
    } else {
      var init := tags[..|tags| - 1];
      FlatSplitKeepsText(init);
      JoinAppend(FlatSplit(init), Split(last, ','), ",");
      JoinAppend(init, [last], ",");
      assert tags == init + [last];
    }
  }

  /** The loop of `EntriesListView.post` that builds `filtered_tags`. */
  method SplitTagList(tags: seq<string>) returns (filtered: seq<string>)
    ensures filtered == FlatSplit(tags)
  {
    filtered := [];
    var k := 0;
    while k < |tags|
      invariant 0 <= k <= |tags|
      invariant filtered == FlatSplit(tags[..k])
    {
      assert tags[..k + 1][..k] == tags[..k];
      var tag := tags[k];
      if ',' in tag {
        filtered := filtered + Split(tag, ',');
      } else {
        SplitWithoutSeparator(tag, ',');
        filtered := filtered + [tag];
      }
      k := k + 1;
    }
    assert tags[..k] == tags;
  }

  /**
   * The moderation state of a new entry: `Pending` is looked up first (a
   * missing or repeated row escapes), then, for a staff address, `Approved`.
   * An anonymous poster has no email: AttributeError.
   */
  function ModerationFor(states: seq<ModerationState>, user: Requester, staffDomains: seq<string>): (r: Result<StateId>)
    ensures StateByName(states, "Pending").Raise? ==> r == StateByName(states, "Pending")
    ensures StateByName(states, "Pending").Ok? && !user.authenticated ==> r == Raise(AttributeError)
    ensures r.Ok? && IsStaffAddress(Some(user.email), staffDomains) ==> StateByName(states, "Approved") == r
    ensures r.Ok? && !IsStaffAddress(Some(user.email), staffDomains) ==> StateByName(states, "Pending") == r
    ensures r.Ok? <==> (StateByName(states, "Pending").Ok? && user.authenticated
                        && (IsStaffAddress(Some(user.email), staffDomains) ==> StateByName(states, "Approved").Ok?))
  {
    var pending := StateByName(states, "Pending");
    if pending.Raise? then pending
    else if !user.authenticated then Raise(AttributeError)
    else if IsStaffAddress(Some(user.email), staffDomains) then StateByName(states, "Approved")
    else pending
  }

  /** What the entry post answers: the new entry's id, or a status with a message. */
  datatype PostOutcome = Submitted(id: EntryId) | Rejected(status: int, body: string)

  /** Every answer of `post_validate` is truthy: `True` or a non-empty message. */
  lemma VerdictIsTruthy(csrf: PyVal, nonce: PyVal, authenticated: bool, session: map<string, PyVal>)
    requires Verdict(csrf, nonce, authenticated, session).Ok?
    ensures Truthy(Verdict(csrf, nonce, authenticated, session).value)
  {
  }

  /**
   * So the entry post goes on after a replay: once the nonce is invalidated a
   * resubmitted string nonce is refused by the guard, yet the refusal is a
   * truthy message and the entry is still created.
   */
  lemma ReplayStillPasses(csrf: PyVal, s: string, session: map<string, PyVal>)
    requires !IsFalse(csrf) && "nonce" in session && IsFalse(session["nonce"])
    ensures Verdict(csrf, PyStr(s), true, session) != Ok(PyBool(true))
    ensures Truthy(Verdict(csrf, PyStr(s), true, session).value)
  {
    InvalidatedNonceRejectsStrings(csrf, PyStr(s).s, true, session);
  }

  /**
   * The `thumbnail` member of an entry post: absent, a JSON object (its `name`
   * and `base64` members, each possibly missing or empty), or any other value
   * (null, a string, a number, a list, an uploaded file).
   */
  datatype PostedThumbnail =
    | Absent
    | Object(name: Option<string>, encoded: Option<string>)
    | NotAnObject

  /** An object whose `name` and `base64` are both present and truthy: it is converted to a file. */
  predicate Unpacks(t: PostedThumbnail) {
    t.Object? && Given(t.name) && Given(t.encoded)
  }

  /**
   * The thumbnail step raises nothing: a missing member is a `KeyError` the
   * view swallows, but subscripting anything but an object is a `TypeError`,
   * and text that is not base64 a `ValueError`.
   */
  predicate ThumbnailPasses(t: PostedThumbnail, decode: string -> Option<seq<int>>) {
    !t.NotAnObject? && (Unpacks(t) ==> decode(t.encoded.value).Some?)
  }

  /**
   * `EntriesListView.post`. The guard's verdict is tested for truthiness only,
   * so every answer goes on: the nonce is invalidated, a thumbnail object is
   * converted to a file (`file`, with `decode` the base64 codec), comma-holding
   * tags are split (`handed` is the tag list passed to the serializer), and
   * when the serializer accepts the data (`valid`) the entry is saved with the
   * poster as publisher, `featured` false and the state ModerationFor chooses.
   */
  method PostEntry(db: Database, session: Session, user: Requester,
                   data: map<string, PyVal>, post: map<string, PyVal>,
                   thumbnail: PostedThumbnail, decode: string -> Option<seq<int>>,
                   tags: Option<seq<string>>, valid: bool,
                   related: seq<CreatorId>, byCreator: bool, selfCreator: CreatorId, staffDomains: seq<string>)
    returns (r: Result<PostOutcome>, file: Option<(string, seq<int>)>, handed: Option<seq<string>>)
    requires db.Valid()
    modifies db`entries, db`nextEntryId, session
    ensures db.Valid()
    ensures GuardRaises(data, post, user, old(session.data)) ==>
      r == Raise(KeyError) && db.entries == old(db.entries) && session.data == old(session.data)
    ensures !GuardRaises(data, post, user, old(session.data)) ==>
      session.data == old(session.data)["nonce" := PyBool(false)]
    ensures !GuardRaises(data, post, user, old(session.data)) && thumbnail.NotAnObject? ==>
      r == Raise(TypeError) && handed.None?
    ensures (!GuardRaises(data, post, user, old(session.data)) && Unpacks(thumbnail)
             && decode(thumbnail.encoded.value).None?) ==>
      r.Raise? && r.error.ValueError? && handed.None?
    ensures !GuardRaises(data, post, user, old(session.data)) && ThumbnailPasses(thumbnail, decode) ==>
      && handed == (if tags.Some? then Some(FlatSplit(tags.value)) else None)
      && file == (if Unpacks(thumbnail) then Some((thumbnail.name.value, decode(thumbnail.encoded.value).value)) else None)
    ensures r.Ok? && r.value.Submitted? <==>
      (!GuardRaises(data, post, user, old(session.data)) && ThumbnailPasses(thumbnail, decode)
       && valid && ModerationFor(db.states, user, staffDomains).Ok?)
    ensures r.Ok? && r.value.Submitted? ==>
      r.value.id == old(db.nextEntryId) && r.value.id !in old(db.entries)
      && db.entries == old(db.entries)[r.value.id := Entry(false, ModerationFor(db.states, user, staffDomains).value,
                                                           user.id, CreatorList(related, byCreator, selfCreator))]
    ensures !(r.Ok? && r.value.Submitted?) ==> db.entries == old(db.entries)
    ensures (!GuardRaises(data, post, user, old(session.data)) && ThumbnailPasses(thumbnail, decode) && !valid) ==>
      r.Ok? && r.value.Rejected? && r.value.status == 400
  {
    file, handed := None, None;
    var verdict := Check(session, Csrf(data, post), Nonce(data, post), user.authenticated);
    if verdict.Raise? {
      return Raise(verdict.error), None, None;
    }
    VerdictIsTruthy(Csrf(data, post), Nonce(data, post), user.authenticated, old(session.data));
    if !Truthy(verdict.value) {
      assert false;
    }
    session.data := session.data["nonce" := PyBool(false)];
    if thumbnail.NotAnObject? {
      return Raise(TypeError), None, None;
    }
    if Unpacks(thumbnail) {
      var bytes := decode(thumbnail.encoded.value);
      if bytes.None? {
        return Raise(ValueError("Incorrect padding")), None, None;
      }
      file := Some((thumbnail.name.value, bytes.value));
    }
    if tags.Some? {
      var filtered := SplitTagList(tags.value);
      handed := Some(filtered);
    }
    if !valid {
      return Ok(Rejected(400, "serializer errors")), file, handed;
    }
    var state := ModerationFor(db.states, user, staffDomains);
    if state.Raise? {
      return Raise(state.error), file, handed;
    }
    var id := Create(db, false, state.value, user.id, related, byCreator, selfCreator);
    return Ok(Submitted(id)), file, handed;
  }
}

=== FILE: entry_forms.dfy ===
/**
 * The admin form for entries: the initial values it shows for an existing
 * entry, which of its fields can be edited, and how saving it rewrites the
 * entry's ordered creator list.
 */
module EntryForms {

  import opened Python
  import opened Strings
  import opened Web
  import opened Store

  const ChangeCreators := "entries.change_creators"

  /** `EntryAdminForm` once built: the initial values it fills in and its field flags. */
  class EntryAdminForm {
    var initialCreators: Option<seq<ProfileId>>
    var initialBookmarkCount: Option<nat>
    var creatorsDisabled: bool
    /** `bookmark_count` is shown only: it is disabled and never required. */
    const bookmarkCountDisabled := true
    const bookmarkCountRequired := false

    /**
     * `__init__`. For an entry already saved (`instance` holds its pk) the
     * initial creators are its creator profiles in order and the initial
     * bookmark count its number of bookmarks; a new entry gets neither. The
     * creators field is disabled for a user without `entries.change_creators`.
     */
    constructor (db: Database, instance: Option<EntryId>, user: Requester)
      requires instance.Some? ==> instance.value in db.entries
      ensures instance.Some? ==>
        initialCreators == Some(db.entries[instance.value].creators)
        && initialBookmarkCount == Some(BookmarkCount(db.bookmarks, instance.value))
      ensures instance.None? ==> initialCreators.None? && initialBookmarkCount.None?
      ensures creatorsDisabled <==> !HasPerm(user, ChangeCreators)
    {
      if instance.Some? {
        initialCreators := Some(db.entries[instance.value].creators);
        initialBookmarkCount := Some(BookmarkCount(db.bookmarks, instance.value));
      } else {
        initialCreators := None;
        initialBookmarkCount := None;
      }
      creatorsDisabled := !HasPerm(user, ChangeCreators);
    }
  }

  /** The entries with the creator list of `entry` replaced by `creators`. */
  function WithCreators(entries: map<EntryId, Entry>, entry: EntryId, creators: seq<ProfileId>): (r: map<EntryId, Entry>)
    requires entry in entries
    ensures r.Keys == entries.Keys && r[entry].creators == creators
    ensures forall e :: e in entries && e != entry ==> r[e] == entries[e]
  {
    entries[entry := entries[entry].(creators := creators)]
  }

  /**
   * `EntryCreator.objects.create(entry=entry, profile_id=p)`: `p` becomes the
   * entry's last creator (`before` and `sofar` describe the list so far).
   */
  method AddCreator(db: Database, entry: EntryId, p: ProfileId, ghost before: map<EntryId, Entry>, ghost sofar: seq<ProfileId>)
    requires db.Valid() && entry in before && db.entries == WithCreators(before, entry, sofar)
    modifies db`entries
    ensures db.Valid()
    ensures db.entries == WithCreators(before, entry, sofar + [p])
  {
    db.entries := db.entries[entry := db.entries[entry].(creators := db.entries[entry].creators + [p])];
  }

  /** The creators `_save_m2m` leaves on the entry, and whether it returned or raised. */
  datatype CreatorSave = CreatorSave(creators: seq<ProfileId>, outcome: Result<()>)

  /**
   * The creator records made from the cleaned ids, each as `int()` read it
   * (`None` where it raised), after the records `sofar`: one per id, in
   * order, up to the first id that `int()` refuses (ValueError) or that the
   * entry already has (IntegrityError: an entry lists a profile at most once).
   */
  function RecordCreators(parsed: seq<Option<int>>, sofar: seq<ProfileId>): (r: CreatorSave)
    ensures sofar <= r.creators
    ensures r.outcome.Raise? ==> r.outcome.error.ValueError? || r.outcome.error == IntegrityError
    decreases |parsed|
  {
    if parsed == [] then CreatorSave(sofar, Ok(()))
    else match parsed[0]
      case None => CreatorSave(sofar, Raise(ValueError("invalid literal for int()")))
      case Some(id) =>
        if id in sofar then CreatorSave(sofar, Raise(IntegrityError))
        else RecordCreators(parsed[1..], sofar + [id])
  }

  /**
   * `_save_m2m`: every creator record of the entry is deleted, then one is
   * created per cleaned id, in order, each id converted with `int`. The
   * database refuses a second record for the same profile. Whatever raises
   * escapes once the records of the ids before it exist.
   */
  method SaveCreators(db: Database, entry: EntryId, cleaned: seq<string>) returns (r: Result<()>)
    requires db.Valid() && entry in db.entries
    modifies db`entries
    ensures db.Valid()
    ensures db.entries == WithCreators(old(db.entries), entry, RecordCreators(ParseEach(cleaned), []).creators)
    ensures r == RecordCreators(ParseEach(cleaned), []).outcome
  {
    db.entries := WithCreators(db.entries, entry, []);
    ghost var parsed := ParseEach(cleaned);
    ghost var ids: seq<ProfileId> := [];
    var k := 0;
    while k < |cleaned|
      invariant 0 <= k <= |cleaned|
      invariant db.Valid()
      invariant db.entries == WithCreators(old(db.entries), entry, ids)
      invariant RecordCreators(parsed[k..], ids) == RecordCreators(parsed, [])
    {
      assert parsed[k..][1..] == parsed[k + 1..];
      var id := ParseInt(cleaned[k]);
      assert parsed[k..][0] == id;
      if id.None? {
        return Raise(ValueError("invalid literal for int()"));
      }
      if id.value in db.entries[entry].creators {
        return Raise(IntegrityError);
      }
      AddCreator(db, entry, id.value, old(db.entries), ids);
      ids := ids + [id.value];
      k := k + 1;
    }
    assert parsed[k..] == [];
    r := Ok(());
  }

  /** A fresh id keeps a list free of repeats; an id it already holds never does. */
  lemma AppendId(sofar: seq<ProfileId>, id: ProfileId, tail: seq<ProfileId>)
    requires NoDuplicates(sofar)
    ensures id !in sofar ==> NoDuplicates(sofar + [id])
    ensures id in sofar ==> !NoDuplicates(sofar + ([id] + tail))
  {
    if id in sofar {
      var i :| 0 <= i < |sofar| && sofar[i] == id;
      var s := sofar + ([id] + tail);
      assert s[i] == s[|sofar|];
    }
  }

  /** The records never hold a profile twice when the ones already there do not. */
  lemma {:induction false} RecordCreatorsUnique(parsed: seq<Option<int>>, sofar: seq<ProfileId>)
    requires NoDuplicates(sofar)
    ensures NoDuplicates(RecordCreators(parsed, sofar).creators)
    decreases |parsed|
  {
    if parsed != [] && parsed[0].Some? && parsed[0].value !in sofar {
      AppendId(sofar, parsed[0].value, []);
      RecordCreatorsUnique(parsed[1..], sofar + [parsed[0].value]);
    }
  }

  /**
   * The records succeed exactly when every id parses and none repeats, and
   * then the creators are the parsed values in order.
   */
  lemma {:induction false} RecordCreatorsSucceed(parsed: seq<Option<int>>, sofar: seq<ProfileId>)
    requires NoDuplicates(sofar)
    ensures RecordCreators(parsed, sofar).outcome.Ok? <==>
      AllInts(parsed) && NoDuplicates(sofar + LeadingInts(parsed))
    ensures RecordCreators(parsed, sofar).outcome.Ok? ==>
      RecordCreators(parsed, sofar).outcome == Ok(()) && RecordCreators(parsed, sofar).creators == sofar + LeadingInts(parsed)
    decreases |parsed|
  {
    if parsed == [] {
      assert sofar + LeadingInts(parsed) == sofar;
    } else if parsed[0].Some? {
      var id := parsed[0].value;
      var tail := LeadingInts(parsed[1..]);
      AppendId(sofar, id, tail);
      if id !in sofar {
        assert sofar + LeadingInts(parsed) == (sofar + [id]) + tail;
        RecordCreatorsSucceed(parsed[1..], sofar + [id]);
      }
    }
  }

  /**
   * Why the records fail: among ids that all parse, a failure is a repeated
   * id (IntegrityError); among ids that never repeat, an unparsable one
   * (ValueError).
   */
  lemma {:induction false} RecordCreatorsFailure(parsed: seq<Option<int>>, sofar: seq<ProfileId>)
    requires NoDuplicates(sofar)
    ensures RecordCreators(parsed, sofar).outcome.Raise? && AllInts(parsed) ==>
      RecordCreators(parsed, sofar).outcome.error == IntegrityError
    ensures RecordCreators(parsed, sofar).outcome.Raise? && NoDuplicates(sofar + LeadingInts(parsed)) ==>
      RecordCreators(parsed, sofar).outcome.error.ValueError?
    decreases |parsed|
  {
    if parsed != [] && parsed[0].Some? {
      var id := parsed[0].value;
      var tail := LeadingInts(parsed[1..]);
      AppendId(sofar, id, tail);
      if id !in sofar {
        assert sofar + LeadingInts(parsed) == (sofar + [id]) + tail;
        RecordCreatorsFailure(parsed[1..], sofar + [id]);
      }
    }
  }

  /**
   * Saved creators are exactly the submitted ones: when every cleaned id
   * parses and no two are equal, the save returns and the entry's creators
   * are their values, one each, in the order given.
   */
  lemma SavedCreatorsInOrder(cleaned: seq<string>)
    requires forall k :: 0 <= k < |cleaned| ==> ParseInt(cleaned[k]).Some?
    requires forall i, j :: 0 <= i < j < |cleaned| ==> ParseInt(cleaned[i]).value != ParseInt(cleaned[j]).value
    ensures RecordCreators(ParseEach(cleaned), []).outcome == Ok(())
    ensures |RecordCreators(ParseEach(cleaned), []).creators| == |cleaned|
    ensures forall k :: 0 <= k < |cleaned| ==> RecordCreators(ParseEach(cleaned), []).creators[k] == ParseInt(cleaned[k]).value
  {
    var parsed := ParseEach(cleaned);
    var ids := LeadingInts(parsed);
    ParseEachValues(cleaned);
    assert NoDuplicates(ids) by {
      forall i, j | 0 <= i < j < |ids|
        ensures ids[i] != ids[j]
      {
        assert ids[i] == ParseInt(cleaned[i]).value && ids[j] == ParseInt(cleaned[j]).value;
      }
    }
    var none: seq<ProfileId> := [];
    assert none + ids == ids;
    RecordCreatorsSucceed(parsed, none);
  }

  /**
   * Profile pks submitted as decimal text are saved back as those very pks,
   * in order, when none repeats; a repeated pk is refused by the database.
   */
  lemma SavedPksRoundTrip(pks: seq<ProfileId>)
    ensures var parsed := ParseEach(seq(|pks|, k requires 0 <= k < |pks| => IntText(pks[k])));
      && (NoDuplicates(pks) ==> RecordCreators(parsed, []) == CreatorSave(pks, Ok(())))
      && (!NoDuplicates(pks) ==> RecordCreators(parsed, []).outcome == Raise(IntegrityError))
  {
    var parsed := ParseEach(seq(|pks|, k requires 0 <= k < |pks| => IntText(pks[k])));
    ParseEachTexts(pks);
    var none: seq<ProfileId> := [];
    assert none + LeadingInts(parsed) == pks;
    if NoDuplicates(pks) {
      RecordCreatorsSucceed(parsed, none);
    } else {
      RecordCreatorsSucceed(parsed, none);
      RecordCreatorsFailure(parsed, none);
    }
  }
}

=== FILE: entry_serializers.dfy ===
/**
 * The entry serializer's own logic: creating an entry together with its
 * ordered creator records, the `is_bookmarked` and `bookmark_count` fields,
 * and the tag field that creates the tags it does not find.
 */
module EntrySerializers {

  import opened Python
  import opened Strings
  import opened Web
  import opened Store
  import opened Tags

  /** A creator, identified by its id; a creator given by name only is a fresh id. */
  type CreatorId = int

  /**
   * The creators an entry is saved with: the related creators in the order
   * given, followed by the poster's own creator when `published_by_creator`
   * is set and that creator is not listed already.
   */
  function CreatorList(related: seq<CreatorId>, byCreator: bool, self: CreatorId): seq<CreatorId> {
    if byCreator && self !in related then related + [self] else related
  }

  /**
   * The related creators keep their order and come first; the poster's own
   * creator is then present exactly when it was asked for or given, and it
   * is never added twice.
   */
  lemma CreatorListOrder(related: seq<CreatorId>, byCreator: bool, self: CreatorId)
    ensures |related| <= |CreatorList(related, byCreator, self)| <= |related| + 1
    ensures CreatorList(related, byCreator, self)[..|related|] == related
    ensures forall c :: c in CreatorList(related, byCreator, self) <==> c in related || (byCreator && c == self)
    ensures NoDuplicates(related) ==> NoDuplicates(CreatorList(related, byCreator, self))
  {
  }

  /**
   * `EntrySerializer.create`: `related_creators` is popped from the validated
   * data, the entry is created from the rest, and then one ordered creator
   * record is created per creator, in order. `selfCreator` is the creator
   * that `Creator.objects.get_or_create(profile=profile)` returns.
   */
  method Create(db: Database, featured: bool, state: StateId, publisher: UserId,
                related: seq<CreatorId>, byCreator: bool, selfCreator: CreatorId)
    returns (id: EntryId)
    requires db.Valid()
    modifies db`entries, db`nextEntryId
    ensures db.Valid()
    ensures id == old(db.nextEntryId) && id !in old(db.entries)
    ensures db.entries == old(db.entries)[id := Entry(featured, state, publisher, CreatorList(related, byCreator, selfCreator))]
  {
    var creators := related;
    if byCreator && selfCreator !in creators {
      creators := creators + [selfCreator];
    }
    id := db.nextEntryId;
    db.nextEntryId := db.nextEntryId + 1;
    db.entries := db.entries[id := Entry(featured, state, publisher, [])];
    var k := 0;
    while k < |creators|
      invariant 0 <= k <= |creators|
      invariant db.Valid() && db.nextEntryId == id + 1
      invariant db.entries == old(db.entries)[id := Entry(featured, state, publisher, creators[..k])]
    {
      assert creators[..k + 1] == creators[..k] + [creators[k]];
      db.entries := db.entries[id := db.entries[id].(creators := db.entries[id].creators + [creators[k]])];
      k := k + 1;
    }
    assert creators[..k] == creators;
  }

  /**
   * `get_is_bookmarked`: the user is taken from `context['request']` when the
   * context has a request (`requestUser`); without one, or for an anonymous
   * user, the answer is False. `owners` maps each profile to its user.
   */
  predicate IsBookmarked(requestUser: Option<Requester>, bookmarks: set<(ProfileId, EntryId)>,
                         owners: map<ProfileId, UserId>, e: EntryId)
  {
    requestUser.Some? && requestUser.value.authenticated
    && exists b :: b in bookmarks && b.1 == e && b.0 in owners && owners[b.0] == requestUser.value.id
  }

  /** An authenticated user's answer is True exactly when one of that user's profiles bookmarked the entry. */
  lemma IsBookmarkedByOwnProfile(user: Requester, bookmarks: set<(ProfileId, EntryId)>,
                                 owners: map<ProfileId, UserId>, e: EntryId)
    requires user.authenticated
    ensures IsBookmarked(Some(user), bookmarks, owners, e) <==>
      exists p :: p in BookmarkersOf(bookmarks, e) && p in owners && owners[p] == user.id
  {
    if IsBookmarked(Some(user), bookmarks, owners, e) {
      var b :| b in bookmarks && b.1 == e && b.0 in owners && owners[b.0] == user.id;
      assert b.0 in BookmarkersOf(bookmarks, e);
    }
    if exists p :: p in BookmarkersOf(bookmarks, e) && p in owners && owners[p] == user.id {
      var p :| p in BookmarkersOf(bookmarks, e) && p in owners && owners[p] == user.id;
      assert (p, e) in bookmarks;
    }
  }

  /**
   * The entry views build the serializer context as `{'user': user}`, with no
   * request in it, so their serializers answer False for everyone.
   */
  lemma NoRequestNeverBookmarked(bookmarks: set<(ProfileId, EntryId)>, owners: map<ProfileId, UserId>, e: EntryId)
    ensures !IsBookmarked(None, bookmarks, owners, e)
  {
  }

  /** `get_bookmark_count`: the number of profiles that bookmarked the entry. */
  function BookmarkCountField(bookmarks: set<(ProfileId, EntryId)>, e: EntryId): (r: nat)
    ensures r == 0 <==> forall p :: (p, e) !in bookmarks
  {
    assert (forall p :: (p, e) !in bookmarks) ==> BookmarkersOf(bookmarks, e) == {};
    BookmarkCount(bookmarks, e)
  }

  /** `Tag.objects.get(name=name)`: the tag called exactly `name`, when there is one (names are unique). */
  function TagNamed(names: map<TagId, string>, name: string): (r: Option<TagId>)
    requires UniqueNames(names)
    ensures r.Some? ==> r.value in names && names[r.value] == name
    ensures r.None? ==> forall t :: t in names ==> names[t] != name
  {
    if exists t :: t in names && names[t] == name then
      var t :| t in names && names[t] == name;
      Some(t)
    else None
  }

  /**
   * `CreatableSlugRelatedField.to_internal_value` on the tag field:
   * `get_or_create(name=data)`. The tag spelt exactly `data` is returned;
   * otherwise a new tag is saved, which splits, strips and validates the
   * name like every tag save, and whose validation error propagates. The
   * creation runs in an atomic block, so a failing save leaves no new tag
   * behind; the id sequence is not rolled back.
   */
  method TagFromSlug(store: TagStore, data: string) returns (r: Result<TagId>)
    requires store.Valid()
    modifies store`names, store`nextId
    ensures store.Valid()
    ensures TagNamed(old(store.names), data).Some? ==>
      r == Ok(TagNamed(old(store.names), data).value) && store.names == old(store.names)
    ensures forall t :: t in old(store.names) ==> t in store.names && store.names[t] == old(store.names)[t]
    ensures r.Ok? ==> r.value in store.names && store.names[r.value] == Strip(Split(data, ',')[0])
    ensures r.Raise? ==> r.error.ValidationError? && store.names == old(store.names)
  {
    var found := TagNamed(store.names, data);
    if found.Some? {
      NamedTagIsItsFirstTerm(store.names, found.value, data);
      return Ok(found.value);
    }
    var before := store.names;
    r := store.Save(None, data);
    if r.Raise? {
      store.names := before;
    }
  }

  /** A stored name holds no comma and no surrounding whitespace, so it is its own first term, stripped. */
  lemma NamedTagIsItsFirstTerm(names: map<TagId, string>, t: TagId, data: string)
    requires NormalNames(names) && t in names && names[t] == data
    ensures Strip(Split(data, ',')[0]) == data
  {
    SplitWithoutSeparator(data, ',');
    StrippedIsFixed(data);
  }
}

=== FILE: form_fields.dfy ===
/**
 * The temporary checkbox: a checked box carries a UUID that identifies it
 * across saves; an unchecked box carries nothing.
 */
module FormFields {

  import opened Python

  /** A UUID as its 128-bit value. */
  type Uuid = n: nat | n < 0x1_0000_0000_0000_0000_0000_0000_0000_0000

  /**
   * A random UUID in the sense of section 4.4 of RFC 4122: version 4 in
   * the four bits above bit 76, and the variant bits `10` at bits 63-62.
   */
  predicate IsRandomUuid(u: Uuid) {
    (u / 0x1_0000_0000_0000_0000_000) % 16 == 4 && (u / 0x4000_0000_0000_0000) % 4 == 2
  }

  /**
   * `TemporaryCheckboxInput.value_from_datadict`: no value under `name` is
   * None; a value that `uuid.UUID` parses (`parse`) is that UUID, so a
   * checked box that was not changed keeps its identifier; any other value
   * is a newly drawn random UUID (`drawn`, what `uuid4` returned).
   */
  function ValueFromDatadict(data: map<string, string>, name: string, parse: string -> Option<Uuid>, drawn: Uuid)
    : (r: Option<Uuid>)
    requires IsRandomUuid(drawn)
    ensures r.None? <==> name !in data
    ensures r.Some? && parse(data[name]).Some? ==> r.value == parse(data[name]).value
    ensures r.Some? && parse(data[name]).None? ==> r.value == drawn && IsRandomUuid(r.value)
  {
    if name !in data then None
    else match parse(data[name])
      case Some(u) => Some(u)
      case None => Some(drawn)
  }

  /** An unchecked box stays empty whatever UUID would have been drawn. */
  lemma UncheckedIgnoresRandomness(data: map<string, string>, name: string, parse: string -> Option<Uuid>, f1: Uuid, f2: Uuid)
    requires IsRandomUuid(f1) && IsRandomUuid(f2)
    ensures name !in data ==> ValueFromDatadict(data, name, parse, f1) == ValueFromDatadict(data, name, parse, f2) == None
    ensures name in data && parse(data[name]).Some? ==>
      ValueFromDatadict(data, name, parse, f1) == ValueFromDatadict(data, name, parse, f2)
  {
  }

  /**
   * `TemporaryField.__init__`: the keyword arguments passed on to the UUID
   * field, with `required` forced to False and every other argument kept.
   */
  function TemporaryFieldArguments(kwargs: map<string, PyVal>): (k: map<string, PyVal>)
    ensures "required" in k && k["required"] == PyBool(false)
    ensures k.Keys == kwargs.Keys + {"required"}
    ensures forall a :: a in kwargs && a != "required" ==> k[a] == kwargs[a]
  {
    kwargs["required" := PyBool(false)]
  }
}

=== FILE: image_validation.dfy ===
/** The 512 KiB limit on uploaded images. */
module ImageValidation {

  import opened Python

  const MaxImageSize := 512 * 1024

  /** An uploaded file field: empty, or a file with a name and a size in bytes. */
  datatype Upload = NoFile | File(name: string, size: nat)

  /** A file field is truthy when it names a file. */
  predicate Truthy(data: Upload) {
    data.File? && data.name != []
  }

  /**
   * `enforce_image_size_limit`: a file over 512 KiB is a ValidationError
   * (raised without a code); anything else, an empty field included, is
   * handed back unchanged.
   */
  function EnforceImageSizeLimit(data: Upload): (r: Result<Upload>)
    ensures r.Raise? <==> Truthy(data) && data.size > MaxImageSize
    ensures r.Raise? ==> r.error == ValidationError("")
    ensures r.Ok? ==> r.value == data
  {
    if Truthy(data) && data.size > 512 * 1024 then Raise(ValidationError("")) else Ok(data)
  }

  /**
   * `ProfileAdminForm.clean_thumbnail`: an empty thumbnail is kept; a
   * thumbnail over 512 KiB is a ValidationError; any other is kept.
   */
  function CleanThumbnail(data: Upload): (r: Result<Upload>)
    ensures r.Ok? ==> r.value == data
    ensures r.Raise? ==> Truthy(data) && data.size > MaxImageSize
  {
    if !Truthy(data) then Ok(data)
    else if data.size > 512 * 1024 then Raise(ValidationError(""))
    else Ok(data)
  }

  /** The admin form's thumbnail check and the shared image check always agree. */
  lemma ThumbnailCheckIsSizeLimit(data: Upload)
    ensures CleanThumbnail(data) == EnforceImageSizeLimit(data)
  {
  }

  /** A file of exactly 512 KiB passes; one byte more does not. */
  lemma LimitIsInclusive(name: string)
    requires name != []
    ensures EnforceImageSizeLimit(File(name, 524288)).Ok?
    ensures EnforceImageSizeLimit(File(name, 524289)).Raise?
  {
  }
}

=== FILE: is_moz.dfy ===
/** The older Mozilla-address test: an exact, case-sensitive match on three domains. */
module IsMoz {

  import opened Python
  import opened Strings

  const MozillaDomains: set<string> := {"mozilla.com", "mozillafoundation.org", "mozilla.org"}

  /**
   * `is_moz(email)`: False for `None`; otherwise the text between the first
   * and second `@` must be one of the three Mozilla domains exactly. An
   * address without `@` has no second piece, which is an IndexError.
   */
  function IsMoz(email: Option<string>): (r: Result<bool>)
    ensures email.None? ==> r == Ok(false)
    ensures email.Some? ==> (r.Raise? <==> '@' !in email.value)
    ensures r.Raise? ==> r.error == IndexError
    ensures r == Ok(true) <==> email.Some? && '@' in email.value && Split(email.value, '@')[1] in MozillaDomains
  {
    if email.None? then Ok(false)
    else
      var parts := Split(email.value, '@');
      if |parts| < 2 then Raise(IndexError)
      else
        var domain := parts[1];
        if domain == "mozilla.com" then Ok(true)
        else if domain == "mozillafoundation.org" then Ok(true)
        else if domain == "mozilla.org" then Ok(true)
        else Ok(false)
  }

  /** For a well-formed address, the answer is exactly membership of its domain among the three. */
  lemma DomainDecides(local: string, domain: string)
    requires '@' !in local && '@' !in domain
    ensures IsMoz(Some(local + "@" + domain)) == Ok(domain in MozillaDomains)
  {
    SplitPair(local, domain, '@');
  }

  /** A subdomain of a Mozilla domain is not a Mozilla address, nor is a different letter case. */
  lemma SubdomainsAndCaseRejected(local: string, domain: string)
    requires '@' !in local
    requires domain == "foundation.mozilla.org" || domain == "Mozilla.com"
    ensures IsMoz(Some(local + "@" + domain)) == Ok(false)
  {
    DomainDecides(local, domain);
  }
}

=== FILE: legacy_profile_serializers.dfy ===
/**
 * The earlier profile serializer: it prunes the extended-information
 * fields from its own field set when it is built for a profile, instead of
 * trimming the serialized output, and lists a profile's published and
 * created entries.
 */
module LegacyProfileSerializers {

  import opened Python
  import opened Web
  import opened Store
  import opened ProfileSerializers

  /**
   * The serializer's field set. A profile (`instance`, its flag) prunes the
   * flag field, and the four extended fields when the flag is off; without
   * an instance every declared field stays.
   */
  class ProfileSerializer {
    var fields: set<string>

    constructor (instance: Option<bool>, declared: set<string>)
      requires ExtendedKeys + {FlagKey} <= declared
      ensures instance.None? ==> fields == declared
      ensures instance == Some(true) ==> fields == declared - {FlagKey}
      ensures instance == Some(false) ==> fields == declared - ExtendedKeys - {FlagKey}
    {
      fields := declared;
      if instance.Some? {
        if !instance.value {
          fields := fields - ExtendedKeys;
        }
        fields := fields - {FlagKey};
      }
    }
  }

  /**
   * The field set a profile's serializer keeps, as a function of the
   * profile's flag: every declared field except the flag, and except the
   * extended fields when the flag is off.
   */
  function FieldsFor(flag: bool, declared: set<string>): (fields: set<string>)
    ensures FlagKey !in fields && fields <= declared
    ensures !flag ==> fields !! ExtendedKeys
    ensures forall f :: f in declared && f != FlagKey && (flag || f !in ExtendedKeys) ==> f in fields
  {
    if flag then declared - {FlagKey} else declared - ExtendedKeys - {FlagKey}
  }

  /**
   * Pruning the fields up front and trimming the output afterwards agree:
   * the fields kept for a profile are exactly the keys its trimmed output
   * keeps, for any output that has one key per declared field.
   */
  lemma PruningAgreesWithTrimming(flag: bool, output: map<string, PyVal>)
    ensures FieldsFor(flag, output.Keys) == Trimmed(Some(flag), output).Keys
  {
  }

  /**
   * `update` of this serializer: the same removal from the validated data
   * (the flag keys, and the extended keys while the flag is off), done with
   * a `remove_key` that swallows every exception, then the write.
   */
  method LegacyUpdate(instance: ProfileRow, validated: Dict) returns (r: ProfileRow)
    modifies instance, validated
    ensures r == instance
    ensures validated.items == Trimmed(Some(old(instance.extended)), old(validated.items))
    ensures instance.extended == old(instance.extended)
    ensures instance.columns == old(instance.columns) + validated.items
  {
    if !instance.extended {
      RemoveKey(validated, "user_bio_long");
      RemoveKey(validated, "program_type");
      RemoveKey(validated, "program_year");
      RemoveKey(validated, "affiliation");
      assert validated.items == old(validated.items) - ExtendedKeys;
    }
    RemoveKey(validated, FlagKey);
    instance.columns := instance.columns + validated.items;
    return instance;
  }

  /**
   * `get_published_entries`: the entries the profile's user published, none
   * for a profile without a user.
   */
  function PublishedEntries(entries: map<EntryId, Entry>, profileUser: Option<UserId>): (r: set<EntryId>)
    ensures profileUser.None? ==> r == {}
    ensures profileUser.Some? ==> r == PublishedBy(entries, profileUser.value)
  {
    if profileUser.Some? then PublishedBy(entries, profileUser.value) else {}
  }

  /**
   * `get_created_entries`: the entries the profile is a creator of, keeping
   * only the approved ones (`approved`: the entries whose moderation state
   * is Approved).
   */
  function CreatedEntries(entries: map<EntryId, Entry>, profile: ProfileId, approved: set<EntryId>): (r: set<EntryId>)
    ensures r <= approved
    ensures forall e :: e in r <==> e in CreatedBy(entries, profile) && e in approved
  {
    CreatedBy(entries, profile) * approved
  }

  /**
   * `get_my_profile` of this serializer reads the request's user: an
   * anonymous requester owns no profile; a missing request has no user
   * (AttributeError).
   */
  function RequestOwnsProfile(request: Option<Requester>, profileUser: Option<UserId>): (r: Result<bool>)
    ensures request.None? ==> r == Raise(AttributeError)
    ensures request.Some? ==> r.Ok? && (r.value <==> request.value.authenticated && profileUser == Some(request.value.id))
  {
    match request
    case None => Raise(AttributeError)
    case Some(user) => Ok(user.authenticated && profileUser == Some(user.id))
  }
}

=== FILE: legacy_profile_views.dfy ===
/**
 * The earlier profile list view: the same name search and query gating,
 * except that `search` does not switch filtering on, and a serializer choice
 * that reads the request's query even when there is no request.
 */
module LegacyProfileViews {

  import opened Python
  import opened Web
  import ProfileViews

  /**
   * `ProfileCustomFilter.qs` of this view: no request, or no query
   * parameters, lists nothing; otherwise the filtered profiles are listed
   * exactly when some declared filter field appears in the query.
   */
  method LegacyQs(hasRequest: bool, queries: Option<map<string, string>>, filtered: seq<ProfileId>) returns (qs: seq<ProfileId>)
    ensures !hasRequest || queries.None? ==> qs == []
    ensures hasRequest && queries.Some? ==>
      qs == (if ProfileViews.HasFilterField(queries.value) then filtered else [])
  {
    qs := [];
    if !hasRequest || queries.None? {
      return;
    }
    var q := queries.value;
    var i := 0;
    while i < |ProfileViews.FilterFields|
      invariant 0 <= i <= |ProfileViews.FilterFields|
      invariant qs == (if exists k :: 0 <= k < i && ProfileViews.FilterFields[k] in q then filtered else [])
    {
      if ProfileViews.FilterFields[i] in q {
        qs := filtered;
      }
      i := i + 1;
    }
  }

  /** The request as `get_serializer_class` reads it: its API version and query keys. */
  datatype ListRequest = ListRequest(version: string, query: map<string, string>)

  /**
   * `UserProfileListAPIView.get_serializer_class` of this view: v1 gives the
   * serializer with entries; otherwise `basic` gives the basic one and
   * anything else the public one. Without a request the `basic` test has no
   * query parameters to read (AttributeError).
   */
  function LegacySerializerClass(request: Option<ListRequest>): (r: Result<ProfileViews.SerializerClass>)
    ensures request.None? ==> r == Raise(AttributeError)
    ensures request.Some? ==> r.Ok? && r.value != ProfileViews.ListSerializer
    ensures request.Some? && request.value.version == ProfileViews.Version1 ==> r == Ok(ProfileViews.PublicWithEntriesSerializer)
    ensures request.Some? && request.value.version != ProfileViews.Version1 ==>
      r == Ok(if "basic" in request.value.query then ProfileViews.BasicSerializer else ProfileViews.PublicSerializer)
  {
    match request
    case None => Raise(AttributeError)
    case Some(req) =>
      if req.version == ProfileViews.Version1 then Ok(ProfileViews.PublicWithEntriesSerializer)
      else if "basic" in req.query then Ok(ProfileViews.BasicSerializer)
      else Ok(ProfileViews.PublicSerializer)
  }

  /**
   * For a request of version 2 or below, the two views choose the same
   * serializer; they differ only for later versions, where this view keeps
   * the public serializer.
   */
  lemma SerializerChoicesAgreeUpToVersion2(req: ListRequest)
    ensures req.version == ProfileViews.Version1 || req.version == ProfileViews.Version2 ==>
      LegacySerializerClass(Some(req)) == Ok(ProfileViews.ListSerializerClass(true, req.version, req.query))
    ensures req.version != ProfileViews.Version1 && req.version != ProfileViews.Version2 && "basic" !in req.query ==>
      LegacySerializerClass(Some(req)) == Ok(ProfileViews.PublicSerializer)
      && ProfileViews.ListSerializerClass(true, req.version, req.query) == ProfileViews.ListSerializer
  {
  }
}

=== FILE: legacy_user_models.dfy ===
/**
 * The older user model of the first API layout: the same manager and
 * getters, without the permissions mixin, so a superuser is only staff.
 */
module LegacyUserModels {

  import opened Python
  import UserModels

  class EmailUser {
    var email: string
    var name: string
    /** The password handed to `set_password`; hashing is not modelled. */
    var password: string
    var isStaff: bool

    constructor (email0: string, name0: string, password0: string)
      ensures email == email0 && name == name0 && password == password0 && !isStaff
    {
      email := email0;
      name := name0;
      password := password0;
      isStaff := false;
    }

    function GetFullName(): (r: string)
      reads this
      ensures r == UserModels.FullName(name, email)
    {
      UserModels.FullName(name, email)
    }

    function GetShortName(): (r: string)
      reads this
      ensures r == email
    {
      email
    }

    function ToString(): (r: string)
      reads this
      ensures r == GetShortName()
    {
      email
    }

    /**
     * `clean` is declared without `self`, so calling it on a user passes one
     * argument too many and raises TypeError.
     */
    function Clean(): (r: Result<()>)
      ensures r == Raise(TypeError)
    {
      Raise(TypeError)
    }

    predicate HasPerm(perm: string)
      reads this
      ensures HasPerm(perm)
    {
      true
    }

    predicate HasModulePerms(appLabel: string)
      reads this
      ensures HasModulePerms(appLabel)
    {
      true
    }
  }

  /**
   * `create_user` of the first layout: the same checks as the current
   * manager, and the same IntegrityError for an address already `stored`.
   */
  method CreateUser(name: string, email: string, password: Option<string>, generated: string, stored: set<string>)
    returns (r: Result<EmailUser>)
    ensures name == [] ==> r == Raise(ValueError("Users must have a name"))
    ensures name != [] && email == [] ==> r == Raise(ValueError("Users must have an email address"))
    ensures name != [] && email != [] && email in stored ==> r == Raise(IntegrityError)
    ensures r.Ok? <==> name != [] && email != [] && email !in stored
    ensures r.Ok? ==> fresh(r.value) && r.value.email == email && r.value.name == name && !r.value.isStaff
    ensures r.Ok? ==> r.value.password == (if password.None? || password.value == [] then generated else password.value)
  {
    if name == [] {
      return Raise(ValueError("Users must have a name"));
    }
    if email == [] {
      return Raise(ValueError("Users must have an email address"));
    }
    var pw := if password.None? || password.value == [] then generated else password.value;
    if email in stored {
      // `user.save()`: the email column is unique
      return Raise(IntegrityError);
    }
    var user := new EmailUser(email, name, pw);
    return Ok(user);
  }

  /** `create_superuser` here only raises the staff flag: there is no superuser flag to set. */
  method CreateSuperuser(name: string, email: string, password: Option<string>, generated: string, stored: set<string>)
    returns (r: Result<EmailUser>)
    ensures r.Ok? <==> name != [] && email != [] && email !in stored
    ensures r.Raise? ==> (r.error.ValueError? <==> name == [] || email == [])
    ensures r.Raise? ==> r.error.ValueError? || r.error == IntegrityError
    ensures r.Ok? ==> fresh(r.value) && r.value.email == email && r.value.name == name && r.value.isStaff
  {
    r := CreateUser(name, email, password, generated, stored);
    if r.Ok? {
      r.value.isStaff := true;
    }
  }
}

=== FILE: legacy_views.dfy ===
/**
 * The views of the first API layout: the sign-in page that seeds the
 * session's OAuth state and form nonce, the OAuth callback, and the test
 * form post behind the replay guard. Here the guard reads its token and
 * nonce from the form fields only, which are always text.
 */
module LegacyViews {

  import opened Python
  import opened Web
  import opened PostGuard
  import LegacyUserModels

  const NoSessionState :=
    "ERROR: No state key found in request.session!\nAre you making doubly sure your initial domain and callback domain are the same domain?"
  const MissingState := "Questionable login: missing state value in callback."
  const IncorrectState := "Questionable login: incorrect state value in callback."
  const NeitherErrorNorCode := "callback happened without an error or code query argument: wtf"

  /**
   * `index`: a fresh state and a fresh nonce go into the session; the OAuth
   * flow's `state` parameter and the page's nonce are copied from it, so
   * both agree with what the session now holds.
   */
  method Index(session: Session, freshState: string, freshNonce: string) returns (flowState: PyVal, pageNonce: PyVal)
    modifies session
    ensures session.data == old(session.data)["state" := PyStr(freshState)]["nonce" := PyStr(freshNonce)]
    ensures flowState == PyStr(freshState) && pageNonce == PyStr(freshNonce)
    ensures flowState == session.data["state"] && pageNonce == session.data["nonce"]
  {
    NewStateValue(session, freshState);
    NewNonceValue(session, freshNonce);
    flowState := session.data["state"];
    pageNonce := session.data["nonce"];
  }

  /** `request.POST.get(key, False)`: a form field is text, `False` when absent. */
  function FormValue(post: map<string, string>, key: string): (v: PyVal)
    ensures key in post ==> v == PyStr(post[key])
    ensures key !in post ==> IsFalse(v)
  {
    if key in post then PyStr(post[key]) else PyBool(false)
  }

  /** `post_validate` of this layout: the shared guard over the form fields only. */
  method ValidatePost(session: Session, user: Requester, post: map<string, string>) returns (r: Result<PyVal>)
    modifies session
    ensures r == Verdict(FormValue(post, "csrfmiddlewaretoken"), FormValue(post, "nonce"), user.authenticated, old(session.data))
    ensures session.data ==
      if r == Ok(PyStr(Resubmitted)) then old(session.data)["nonce" := PyBool(false)] else old(session.data)
  {
    r := Check(session, FormValue(post, "csrfmiddlewaretoken"), FormValue(post, "nonce"), user.authenticated);
  }

  /**
   * A form post can never pass once the nonce is invalidated: its nonce is
   * either absent or text, and text never equals `False`. (A JSON body could
   * carry the number 0, which does; form fields cannot.)
   */
  lemma FormPostsCannotReplay(post: map<string, string>, authenticated: bool, session: map<string, PyVal>)
    requires "nonce" in session && IsFalse(session["nonce"])
    ensures Verdict(FormValue(post, "csrfmiddlewaretoken"), FormValue(post, "nonce"), authenticated, session) != Ok(PyBool(true))
  {
    if "nonce" in post {
      InvalidatedNonceRejectsStrings(FormValue(post, "csrfmiddlewaretoken"), post["nonce"], authenticated, session);
    }
  }

  /** What `post_test` renders: the submissions page, or a 404 page carrying the guard's message. */
  datatype Page = Submissions(name: string, url: string) | NotFoundPage(message: string)

  /**
   * `post_test`. Only a verdict of exactly `True` renders the submissions
   * page, after the nonce is invalidated; the page reads the `name` and
   * `url` fields, whose absence raises KeyError. Any other verdict is a 404
   * carrying the guard's message.
   */
  method PostTest(session: Session, user: Requester, post: map<string, string>) returns (r: Result<Page>)
    modifies session
    ensures var v := Verdict(FormValue(post, "csrfmiddlewaretoken"), FormValue(post, "nonce"), user.authenticated, old(session.data));
      && (v.Raise? ==> r == Raise(KeyError) && session.data == old(session.data))
      && (v == Ok(PyBool(true)) ==>
            session.data == old(session.data)["nonce" := PyBool(false)]
            && r == (if "name" in post && "url" in post then Ok(Submissions(post["name"], post["url"])) else Raise(KeyError)))
      && (v.Ok? && v != Ok(PyBool(true)) ==> v.value.PyStr? && r == Ok(NotFoundPage(v.value.s)))
  {
    var verdict := ValidatePost(session, user, post);
    if verdict.Raise? {
      return Raise(verdict.error);
    }
    if IsTrue(verdict.value) {
      session.data := session.data["nonce" := PyBool(false)];
      if "name" !in post || "url" !in post {
        return Raise(KeyError);
      }
      return Ok(Submissions(post["name"], post["url"]));
    }
    return Ok(NotFoundPage(verdict.value.s));
  }

  /**
   * Reloading a submitted form fails: once `post_test` has accepted a form
   * and invalidated the nonce, the same fields get the resubmission message.
   */
  lemma PostTestResubmissionFails(post: map<string, string>, authenticated: bool, session: map<string, PyVal>)
    requires Verdict(FormValue(post, "csrfmiddlewaretoken"), FormValue(post, "nonce"), authenticated, session) == Ok(PyBool(true))
    ensures Verdict(FormValue(post, "csrfmiddlewaretoken"), FormValue(post, "nonce"), authenticated,
                    session["nonce" := PyBool(false)]) == Ok(PyStr(Resubmitted))
  {
  }

  /** The user table, keyed by email: each user is stored under its own address. */
  class Accounts {
    var byEmail: map<string, LegacyUserModels.EmailUser>

    ghost predicate Valid()
      reads this, byEmail.Values
    {
      forall e :: e in byEmail ==> byEmail[e].email == e
    }

    constructor ()
      ensures byEmail == map[] && Valid()
    {
      byEmail := map[];
    }
  }

  /** The callback's query string reaches the token exchange: a code and the session's own state. */
  predicate Exchanges(session: map<string, PyVal>, query: map<string, string>) {
    "state" in session && "error" !in query && "code" in query && "state" in query
    && Equal(PyStr(query["state"]), session["state"])
  }

  /**
   * `callback`. In order: no state in the session is a 404; an `error`
   * parameter fails the login; a `code` without a `state` parameter, or with
   * one that differs from the session's, is refused before any token
   * exchange; neither error nor code is a 404. Otherwise the provider's
   * `name` and `email` (the exchange itself is not modelled) either rename
   * the user stored under that email or create a new user, who is then
   * logged in, and the answer redirects to `/`.
   */
  method Callback(accounts: Accounts, session: Session, query: map<string, string>,
                  name: string, email: string, generated: string)
    returns (r: Result<Response>, loggedIn: Option<LegacyUserModels.EmailUser>)
    requires accounts.Valid()
    modifies accounts, accounts.byEmail.Values
    ensures accounts.Valid()
    ensures "state" !in session.data ==> r == Ok(Response(404, NoSessionState))
    ensures "state" in session.data && "error" in query ==> r == Ok(Response(200, "login failed: " + query["error"]))
    ensures "state" in session.data && "error" !in query && "code" in query && "state" !in query ==>
      r == Ok(Response(200, MissingState))
    ensures ("state" in session.data && "error" !in query && "code" in query && "state" in query
             && !Equal(PyStr(query["state"]), session.data["state"])) ==> r == Ok(Response(200, IncorrectState))
    ensures "state" in session.data && "error" !in query && "code" !in query ==> r == Ok(Response(404, NeitherErrorNorCode))
    ensures !Exchanges(session.data, query) ==>
      loggedIn.None? && accounts.byEmail == old(accounts.byEmail)
      && forall e :: e in old(accounts.byEmail) ==> old(accounts.byEmail[e].name) == accounts.byEmail[e].name
    ensures Exchanges(session.data, query) && email in old(accounts.byEmail) ==>
      r == Ok(Response(302, "/")) && accounts.byEmail == old(accounts.byEmail)
      && loggedIn == Some(accounts.byEmail[email]) && accounts.byEmail[email].name == name
      && forall e :: e in old(accounts.byEmail) && e != email ==> old(accounts.byEmail[e].name) == accounts.byEmail[e].name
    ensures Exchanges(session.data, query) && email !in old(accounts.byEmail) ==>
      (r.Ok? <==> name != [] && email != [])
      && (r.Raise? ==> r.error.ValueError? && accounts.byEmail == old(accounts.byEmail) && loggedIn.None?)
      && (r.Ok? ==> r == Ok(Response(302, "/")) && accounts.byEmail.Keys == old(accounts.byEmail.Keys) + {email}
                    && loggedIn == Some(accounts.byEmail[email]) && accounts.byEmail[email].name == name)
  {
    loggedIn := None;
    if "state" !in session.data {
      return Ok(Response(404, NoSessionState)), None;
    }
    if "error" in query {
      return Ok(Response(200, "login failed: " + query["error"])), None;
    }
    if "code" in query {
      if "state" !in query {
        return Ok(Response(200, MissingState)), None;
      }
      if !Equal(PyStr(query["state"]), session.data["state"]) {
        return Ok(Response(200, IncorrectState)), None;
      }
      if email in accounts.byEmail {
        var user := accounts.byEmail[email];
        user.name := name;
        return Ok(Response(302, "/")), Some(user);
      }
      var created := LegacyUserModels.CreateUser(name, email, None, generated, accounts.byEmail.Keys);
      if created.Raise? {
        return Raise(created.error), None;
      }
      accounts.byEmail := accounts.byEmail[email := created.value];
      return Ok(Response(302, "/")), Some(created.value);
    }
    return Ok(Response(404, NeitherErrorNorCode)), None;
  }
}

=== FILE: migrate.dfy ===
/**
 * The one-off migration of spreadsheet rows into entry records: every
 * row's columns are copied, joined into text, or wrapped into lists under
 * the entry's field names. Reading and writing the JSON files is not part
 * of this model.
 */
module Migrate {

  import opened Python
  import opened Strings

  /** A JSON value of the spreadsheet export. */
  datatype Json = JNull | JBool(b: bool) | JInt(i: int) | JStr(s: string) | JList(items: seq<Json>)

  /** A spreadsheet row: a JSON object from column titles to values. */
  type Row = map<string, Json>

  /** Every item is a string. */
  predicate AllStrings(items: seq<Json>) {
    forall k :: 0 <= k < |items| ==> items[k].JStr?
  }

  /** The texts of a list of strings. */
  function Texts(items: seq<Json>): (texts: seq<string>)
    requires AllStrings(items)
    ensures |texts| == |items|
    ensures forall k :: 0 <= k < |items| ==> items[k] == JStr(texts[k])
  {
    seq(|items|, k requires 0 <= k < |items| => items[k].s)
  }

  /**
   * `stringify` of a value: a list is joined with `", "` (a TypeError when
   * it holds anything but strings); any other value is kept as it is.
   */
  function Stringify(v: Json): (r: Result<Json>)
    ensures !v.JList? ==> r == Ok(v)
    ensures v.JList? ==> (r.Ok? <==> AllStrings(v.items))
    ensures v.JList? && r.Ok? ==> r.value.JStr? && r.value.s == Join(Texts(v.items), ", ")
    ensures r.Raise? ==> r.error == TypeError
  {
    if v.JList? then
      if AllStrings(v.items) then Ok(JStr(Join(Texts(v.items), ", "))) else Raise(TypeError)
    else Ok(v)
  }

  /** Stringifying twice changes nothing more; a list of one string becomes that string. */
  lemma StringifyIdempotent(v: Json, s: string)
    ensures Stringify(v).Ok? ==> Stringify(Stringify(v).value) == Stringify(v)
    ensures Stringify(JList([JStr(s)])) == Ok(JStr(s))
  {
    assert Texts([JStr(s)]) == [s];
  }

  /**
   * `arrayify` of a value: a non-empty string becomes the list of that
   * string; an empty string or list becomes `[]`; a non-empty list is kept;
   * anything without a length is a TypeError.
   */
  function Arrayify(v: Json): (r: Result<Json>)
    ensures r.Ok? <==> v.JStr? || v.JList?
    ensures r.Ok? ==> r.value.JList?
    ensures v.JStr? && v.s != [] ==> r == Ok(JList([v]))
    ensures v == JStr([]) || v == JList([]) ==> r == Ok(JList([]))
    ensures v.JList? ==> r == Ok(v)
    ensures r.Raise? ==> r.error == TypeError
  {
    var converted := if v.JStr? && |v.s| > 0 then JList([v]) else v;
    match converted
    case JStr(s) => if |s| == 0 then Ok(JList([])) else Ok(converted)
    case JList(items) => if |items| == 0 then Ok(JList([])) else Ok(converted)
    case _ => Raise(TypeError)
  }

  /** Arrayifying a list changes nothing: the conversion is idempotent. */
  lemma ArrayifyIdempotent(v: Json)
    ensures Arrayify(v).Ok? ==> Arrayify(Arrayify(v).value) == Arrayify(v)
  {
  }

  /** `entry[key]`: a missing column is a KeyError. */
  function Column(entry: Row, key: string): (r: Result<Json>)
    ensures r.Ok? <==> key in entry
    ensures r.Ok? ==> r.value == entry[key]
    ensures r.Raise? ==> r.error == KeyError
  {
    if key in entry then Ok(entry[key]) else Raise(KeyError)
  }

  /** `entry["Featured"] == True`: the value `true`, or the number 1 (which Python counts equal to True). */
  predicate EqualsTrue(v: Json) {
    v == JBool(true) || v == JInt(1)
  }

  /** `stringify(a) + " Origin: " + stringify(b)`: both must be strings, else a TypeError. */
  function Notes(connection: Json, origin: Json): (r: Result<Json>)
    ensures r.Ok? <==> connection.JStr? && origin.JStr?
    ensures r.Ok? ==> r.value == JStr(connection.s + " Origin: " + origin.s)
  {
    if connection.JStr? && origin.JStr? then Ok(JStr(connection.s + " Origin: " + origin.s)) else Raise(TypeError)
  }

  /** A migrated entry record: one field per key of the JSON object the script writes. */
  datatype EntryRecord = EntryRecord(
    created: Json, featured: Json, title: Json, creators: Json, contentUrl: Json, description: Json,
    interest: Json, getInvolvedUrl: Json, getInvolved: Json, tags: Json, issues: Json, thumbnailUrl: Json,
    internalNotes: Json)

  /** The columns of the first part of a row are present and convertible. */
  predicate HeadMigratable(entry: Row) {
    && "Timestamp" in entry && "Featured" in entry
    && "Title" in entry && Stringify(entry["Title"]).Ok?
    && "Creators" in entry && Arrayify(entry["Creators"]).Ok?
    && "URL" in entry
  }

  /** The fields `created`, `featured`, `title`, `creators` and `content_url`, in the script's order. */
  function Head(entry: Row): (r: Result<(Json, Json, Json, Json, Json)>)
    ensures r.Ok? <==> HeadMigratable(entry)
    ensures r.Ok? ==> r.value == (entry["Timestamp"], JBool(EqualsTrue(entry["Featured"])),
      Stringify(entry["Title"]).value, Arrayify(entry["Creators"]).value, entry["URL"])
  {
    var created :- Column(entry, "Timestamp");
    var featured :- Column(entry, "Featured");
    var title :- Column(entry, "Title");
    var title :- Stringify(title);
    var creators :- Column(entry, "Creators");
    var creators :- Arrayify(creators);
    var contentUrl :- Column(entry, "URL");
    Ok((created, JBool(EqualsTrue(featured)), title, creators, contentUrl))
  }

  /** The columns of the middle part of a row are present and convertible. */
  predicate BodyMigratable(entry: Row) {
    && "Description" in entry && Stringify(entry["Description"]).Ok?
    && "Interest" in entry && Stringify(entry["Interest"]).Ok?
    && "Get involved URL" in entry
    && "Get involved" in entry && Stringify(entry["Get involved"]).Ok?
  }

  /** The fields `description`, `interest`, `get_involved_url` and `get_involved`. */
  function Body(entry: Row): (r: Result<(Json, Json, Json, Json)>)
    ensures r.Ok? <==> BodyMigratable(entry)
    ensures r.Ok? ==> r.value == (Stringify(entry["Description"]).value, Stringify(entry["Interest"]).value,
      entry["Get involved URL"], Stringify(entry["Get involved"]).value)
  {
    var description :- Column(entry, "Description");
    var description :- Stringify(description);
    var interest :- Column(entry, "Interest");
    var interest :- Stringify(interest);
    var getInvolvedUrl :- Column(entry, "Get involved URL");
    var getInvolved :- Column(entry, "Get involved");
    var getInvolved :- Stringify(getInvolved);
    Ok((description, interest, getInvolvedUrl, getInvolved))
  }

  /** The columns of the last part of a row are present and convertible. */
  predicate TailMigratable(entry: Row) {
    && "Tags" in entry && Arrayify(entry["Tags"]).Ok?
    && "Issues" in entry && Arrayify(entry["Issues"]).Ok?
    && "Thumbnail URL" in entry
    && "Network connection" in entry && Stringify(entry["Network connection"]).Ok?
    && "Origin" in entry && Stringify(entry["Origin"]).Ok?
    && Notes(Stringify(entry["Network connection"]).value, Stringify(entry["Origin"]).value).Ok?
  }

  /**
   * The fields `tags`, `issues`, `thumbnail_url` and `internal_notes`. The
   * stringified connection is added to `" Origin: "` before the `Origin`
   * column is read, so a connection that is not text raises TypeError even
   * on a row without that column.
   */
  function Tail(entry: Row): (r: Result<(Json, Json, Json, Json)>)
    ensures r.Ok? <==> TailMigratable(entry)
    ensures ("Tags" in entry && Arrayify(entry["Tags"]).Ok? && "Issues" in entry && Arrayify(entry["Issues"]).Ok?
      && "Thumbnail URL" in entry && "Network connection" in entry && Stringify(entry["Network connection"]).Ok?
      && !Stringify(entry["Network connection"]).value.JStr?) ==> r == Raise(TypeError)
    ensures "Origin" !in entry ==> r.Raise?
    ensures r.Ok? ==> r.value == (Arrayify(entry["Tags"]).value, Arrayify(entry["Issues"]).value, entry["Thumbnail URL"],
      JStr(Stringify(entry["Network connection"]).value.s + " Origin: " + Stringify(entry["Origin"]).value.s))
  {
    var tags :- Column(entry, "Tags");
    var tags :- Arrayify(tags);
    var issues :- Column(entry, "Issues");
    var issues :- Arrayify(issues);
    var thumbnailUrl :- Column(entry, "Thumbnail URL");
    var connection :- Column(entry, "Network connection");
    var connection :- Stringify(connection);
    if !connection.JStr? then Raise(TypeError)
    else
      var origin :- Column(entry, "Origin");
      var origin :- Stringify(origin);
      var notes :- Notes(connection, origin);
      Ok((tags, issues, thumbnailUrl, notes))
  }

  /** A row every step of the migration accepts. */
  predicate Migratable(entry: Row) {
    HeadMigratable(entry) && BodyMigratable(entry) && TailMigratable(entry)
  }

  /**
   * One row's entry record, built field by field in the script's order;
   * the first missing column or unconvertible value raises. `featured` is whether the row's value
   * equals True; the three URLs are copied verbatim; the notes join the
   * network connection and the origin.
   */
  function MassageEntry(entry: Row): (r: Result<EntryRecord>)
    ensures r.Ok? <==> Migratable(entry)
    ensures r.Ok? ==> r.value.featured == JBool(EqualsTrue(entry["Featured"]))
    ensures r.Ok? ==> (r.value.created == entry["Timestamp"] && r.value.contentUrl == entry["URL"]
      && r.value.getInvolvedUrl == entry["Get involved URL"] && r.value.thumbnailUrl == entry["Thumbnail URL"])
    ensures r.Ok? ==> (r.value.title == Stringify(entry["Title"]).value && r.value.tags == Arrayify(entry["Tags"]).value
      && r.value.creators.JList? && r.value.tags.JList? && r.value.issues.JList?)
    ensures r.Ok? ==> (r.value.internalNotes ==
      JStr(Stringify(entry["Network connection"]).value.s + " Origin: " + Stringify(entry["Origin"]).value.s))
    ensures r.Ok? ==> (r.value.description == Stringify(entry["Description"]).value
      && r.value.interest == Stringify(entry["Interest"]).value
      && r.value.getInvolved == Stringify(entry["Get involved"]).value
      && r.value.creators == Arrayify(entry["Creators"]).value && r.value.issues == Arrayify(entry["Issues"]).value)
  {
    var head :- Head(entry);
    var body :- Body(entry);
    var tail :- Tail(entry);
    Ok(EntryRecord(head.0, head.1, head.2, head.3, head.4, body.0, body.1, body.2, body.3,
                   tail.0, tail.1, tail.2, tail.3))
  }

  /** The rows migrated so far by `massage`: one record per row, in row order. */
  predicate MigratedPrefix(entries: seq<Row>, massage: Row -> Result<EntryRecord>, out: seq<EntryRecord>, n: nat) {
    n <= |entries| && |out| == n
    && forall k :: 0 <= k < n ==> massage(entries[k]).Ok? && out[k] == massage(entries[k]).value
  }

  /**
   * The script's loop over the rows, for a given way of migrating one row:
   * one record per row, in row order, appended to the output list; the
   * first row that cannot be migrated stops the script with its exception.
   */
  method MigrateRows(entries: seq<Row>, massage: Row -> Result<EntryRecord>) returns (r: Result<seq<EntryRecord>>)
    ensures r.Ok? <==> forall k :: 0 <= k < |entries| ==> massage(entries[k]).Ok?
    ensures r.Ok? ==> |r.value| == |entries| && forall k :: 0 <= k < |entries| ==> r.value[k] == massage(entries[k]).value
    ensures r.Raise? ==> exists k :: (0 <= k < |entries| && massage(entries[k]) == Raise(r.error)
      && forall j :: 0 <= j < k ==> massage(entries[j]).Ok?)
  {
    var massaged: seq<EntryRecord> := [];
    for i := 0 to |entries|
      invariant MigratedPrefix(entries, massage, massaged, i)
    {
      var record := massage(entries[i]);
      if record.Raise? {
        return Raise(record.error);
      }
      massaged := massaged + [record.value];
    }
    return Ok(massaged);
  }

  /** The migration: every row through `MassageEntry`. */
  method MigrateAll(entries: seq<Row>) returns (r: Result<seq<EntryRecord>>)
    ensures r.Ok? <==> forall k :: 0 <= k < |entries| ==> Migratable(entries[k])
    ensures r.Ok? ==> |r.value| == |entries| && forall k :: 0 <= k < |entries| ==> r.value[k] == MassageEntry(entries[k]).value
    ensures r.Raise? ==> exists k :: (0 <= k < |entries| && MassageEntry(entries[k]) == Raise(r.error)
      && forall j :: 0 <= j < k ==> Migratable(entries[j]))
  {
    r := MigrateRows(entries, MassageEntry);
  }
}

=== FILE: newsletter.dfy ===
/**
 * Newsletter signup: a POST with an email and a source becomes a signup
 * message on the CRM queue. The queue client is either the proxy that only
 * reports success or a real client whose answer is a parameter.
 */
module Newsletter {

  import opened Python

  /** The body of a JSON response: one key (`message` or `error`) with its text. */
  datatype JsonResponse = JsonResponse(status: int, key: string, text: string)

  /** The form a signup sends to the CRM. */
  datatype Form = Form(email: PyVal, lang: string, format: string, sourceUrl: PyVal, newsletters: string)

  /** The message put on the queue (`json.dumps` of it is not modelled). */
  datatype Message = Message(app: string, timestamp: string, isJson: bool, form: Form, eventType: string)

  /**
   * `signup_submission_view`'s checks: `email` then `source` must be in the
   * body; the first one missing is a 400 that names it.
   */
  function MissingParameter(data: map<string, PyVal>): (r: Option<JsonResponse>)
    ensures r.None? <==> "email" in data && "source" in data
    ensures "email" !in data ==> r == Some(JsonResponse(400, "error", "Missing email parameter"))
    ensures "email" in data && "source" !in data ==> r == Some(JsonResponse(400, "error", "Missing source parameter"))
  {
    if "email" !in data then Some(JsonResponse(400, "error", "Missing email parameter"))
    else if "source" !in data then Some(JsonResponse(400, "error", "Missing source parameter"))
    else None
  }

  /** The message for a body that passed the checks: fixed language, format and newsletter, the source as the URL. */
  function SignupMessage(data: map<string, PyVal>, app: string, timestamp: string): (m: Message)
    requires "email" in data && "source" in data
    ensures m.form.email == data["email"] && m.form.sourceUrl == data["source"]
    ensures m.form.lang == "en" && m.form.format == "html" && m.form.newsletters == "mozilla-foundation"
    ensures m.isJson && m.eventType == "newsletter_signup_data" && m.app == app && m.timestamp == timestamp
  {
    Message(app, timestamp, true, Form(data["email"], "en", "html", data["source"], "mozilla-foundation"),
            "newsletter_signup_data")
  }

  /** What a real client's `send_message` does: raise, or answer with a response dictionary. */
  datatype SendOutcome = SendRaised | SendAnswered(response: map<string, PyVal>)

  /** The queue client: the proxy, or a real client (its outcome for this message). */
  datatype SqsClient = SQSProxy | RealClient(outcome: SendOutcome)

  /** `send_message`: the proxy always answers with a `MessageId` of True. */
  function SendMessage(client: SqsClient): (r: SendOutcome)
    ensures client.SQSProxy? ==> r == SendAnswered(map["MessageId" := PyBool(true)])
    ensures client.RealClient? ==> r == client.outcome
  {
    match client
    case SQSProxy => SendAnswered(map["MessageId" := PyBool(true)])
    case RealClient(outcome) => outcome
  }

  /**
   * `send_to_sqs`: without a queue URL, 201 and nothing is sent; otherwise
   * 201 exactly when the answer has a truthy `MessageId`, and 500 when the
   * client raised or the answer has none.
   */
  function SendToSqs(client: SqsClient, queueUrl: Option<string>): (r: JsonResponse)
    ensures r.status == 201 || r.status == 500
    ensures queueUrl.None? ==> r == JsonResponse(201, "message", "success")
    ensures queueUrl.Some? ==>
      (r.status == 201 <==> (SendMessage(client).SendAnswered? && "MessageId" in SendMessage(client).response
                             && Truthy(SendMessage(client).response["MessageId"])))
    ensures r.status == 201 ==> r == JsonResponse(201, "message", "success")
    ensures queueUrl.Some? && SendMessage(client).SendRaised? ==> r == JsonResponse(500, "error", "Failed to queue up signup")
  {
    if queueUrl.None? then JsonResponse(201, "message", "success")
    else match SendMessage(client)
      case SendRaised => JsonResponse(500, "error", "Failed to queue up signup")
      case SendAnswered(response) =>
        if "MessageId" in response && Truthy(response["MessageId"]) then JsonResponse(201, "message", "success")
        else JsonResponse(500, "error", "Something went wrong with signup")
  }

  /**
   * The whole view: the parameter checks, then the message to the queue.
   * The message is returned along with the response when one was built.
   */
  function SignupSubmission(data: map<string, PyVal>, client: SqsClient, queueUrl: Option<string>,
                            app: string, timestamp: string): (r: (JsonResponse, Option<Message>))
    ensures r.1.None? <==> !("email" in data && "source" in data)
    ensures r.1.None? ==> r.0.status == 400
    ensures r.1.Some? ==> r.1.value == SignupMessage(data, app, timestamp) && r.0 == SendToSqs(client, queueUrl)
  {
    match MissingParameter(data)
    case Some(response) => (response, None)
    case None => (SendToSqs(client, queueUrl), Some(SignupMessage(data, app, timestamp)))
  }

  /** Without queue credentials (the proxy), every well-formed signup is 201. */
  lemma ProxySignupSucceeds(data: map<string, PyVal>, queueUrl: Option<string>, app: string, timestamp: string)
    requires "email" in data && "source" in data
    ensures SignupSubmission(data, SQSProxy, queueUrl, app, timestamp).0 == JsonResponse(201, "message", "success")
  {
  }

  /** Without a queue URL the client is never consulted: any client gives the same answer. */
  lemma NoQueueIgnoresClient(c1: SqsClient, c2: SqsClient)
    ensures SendToSqs(c1, None) == SendToSqs(c2, None)
  {
  }
}

=== FILE: post_guard.dfy ===
/**
 * The replay guard in front of the form posts: a CSRF token, a form
 * identifier (nonce), a logged-in user and a nonce that matches the one the
 * session issued, checked in that order. A mismatch invalidates the
 * session's nonce so that the form cannot be retried.
 */
module PostGuard {

  import opened Python
  import opened Web

  const NoCsrfToken := "No CSRF token in POST data."
  const NoFormId := "No form identifier in POST data."
  const AnonymousPosting := "Anonymous posting is not supported."
  const Resubmitted := "Forms cannot be auto-resubmitted (e.g. by reloading)."

  /** `fields.get(key, False)`. */
  function GetOrFalse(fields: map<string, PyVal>, key: string): (v: PyVal)
    ensures key !in fields ==> IsFalse(v)
    ensures key in fields ==> v == fields[key]
  {
    if key in fields then fields[key] else PyBool(false)
  }

  /** The four checks all pass: the only case in which the guard answers `True`. */
  predicate Passes(csrf: PyVal, nonce: PyVal, authenticated: bool, session: map<string, PyVal>) {
    !IsFalse(csrf) && !IsFalse(nonce) && authenticated
    && "nonce" in session && Equal(nonce, session["nonce"])
  }

  /**
   * What `post_validate` returns: `True`, or the message of the first check
   * that failed. Reading the session's nonce raises KeyError when the
   * session never received one.
   */
  function Verdict(csrf: PyVal, nonce: PyVal, authenticated: bool, session: map<string, PyVal>): (r: Result<PyVal>)
    ensures r == Ok(PyBool(true)) <==> Passes(csrf, nonce, authenticated, session)
    ensures r.Raise? <==> !IsFalse(csrf) && !IsFalse(nonce) && authenticated && "nonce" !in session
    ensures r.Raise? ==> r.error == KeyError
    ensures r.Ok? && !IsTrue(r.value) ==>
      r.value in {PyStr(NoCsrfToken), PyStr(NoFormId), PyStr(AnonymousPosting), PyStr(Resubmitted)}
  {
    if IsFalse(csrf) then Ok(PyStr(NoCsrfToken))
    else if IsFalse(nonce) then Ok(PyStr(NoFormId))
    else if !authenticated then Ok(PyStr(AnonymousPosting))
    else if "nonce" !in session then Raise(KeyError)
    else if !Equal(nonce, session["nonce"]) then Ok(PyStr(Resubmitted))
    else Ok(PyBool(true))
  }

  /** The checks run in a fixed order: the first one that fails names the answer. */
  lemma FirstFailureAnswers(csrf: PyVal, nonce: PyVal, authenticated: bool, session: map<string, PyVal>)
    ensures IsFalse(csrf) ==> Verdict(csrf, nonce, authenticated, session) == Ok(PyStr(NoCsrfToken))
    ensures !IsFalse(csrf) && IsFalse(nonce) ==> Verdict(csrf, nonce, authenticated, session) == Ok(PyStr(NoFormId))
    ensures !IsFalse(csrf) && !IsFalse(nonce) && !authenticated ==>
      Verdict(csrf, nonce, authenticated, session) == Ok(PyStr(AnonymousPosting))
    ensures !IsFalse(csrf) && !IsFalse(nonce) && authenticated && "nonce" in session && !Equal(nonce, session["nonce"]) ==>
      Verdict(csrf, nonce, authenticated, session) == Ok(PyStr(Resubmitted))
  {
  }

  /**
   * The guard itself: returns the verdict and, on a nonce mismatch only,
   * overwrites the session's nonce with `False`.
   */
  method Check(session: Session, csrf: PyVal, nonce: PyVal, authenticated: bool) returns (r: Result<PyVal>)
    modifies session
    ensures r == Verdict(csrf, nonce, authenticated, old(session.data))
    ensures session.data ==
      if r == Ok(PyStr(Resubmitted)) then old(session.data)["nonce" := PyBool(false)] else old(session.data)
  {
    if IsFalse(csrf) {
      return Ok(PyStr(NoCsrfToken));
    }
    if IsFalse(nonce) {
      return Ok(PyStr(NoFormId));
    }
    if !authenticated {
      return Ok(PyStr(AnonymousPosting));
    }
    if "nonce" !in session.data {
      return Raise(KeyError);
    }
    if !Equal(nonce, session.data["nonce"]) {
      session.data := session.data["nonce" := PyBool(false)];
      return Ok(PyStr(Resubmitted));
    }
    return Ok(PyBool(true));
  }

  /** Once the session's nonce is `False`, no string nonce passes the guard again. */
  lemma InvalidatedNonceRejectsStrings(csrf: PyVal, s: string, authenticated: bool, session: map<string, PyVal>)
    requires "nonce" in session && IsFalse(session["nonce"])
    ensures Verdict(csrf, PyStr(s), authenticated, session) != Ok(PyBool(true))
  {
  }

  /**
   * A mismatch is final for string nonces: after the guard has invalidated
   * the session, every later string nonce is rejected, the original one included.
   */
  lemma MismatchIsFinal(csrf: PyVal, nonce: PyVal, authenticated: bool, session: map<string, PyVal>,
                        csrf2: PyVal, s: string, authenticated2: bool)
    requires Verdict(csrf, nonce, authenticated, session) == Ok(PyStr(Resubmitted))
    ensures Verdict(csrf2, PyStr(s), authenticated2, session["nonce" := PyBool(false)]) != Ok(PyBool(true))
  {
    InvalidatedNonceRejectsStrings(csrf2, s, authenticated2, session["nonce" := PyBool(false)]);
  }

  /**
   * Python's `==` lets the number 0 through an invalidated session: `0` is not
   * `False` (so the missing-nonce check passes) yet `0 == False`. A JSON body
   * carrying the nonce 0 therefore passes the guard after invalidation.
   */
  lemma ZeroNoncePassesInvalidatedSession(csrf: PyVal, session: map<string, PyVal>)
    requires !IsFalse(csrf)
    requires "nonce" in session && IsFalse(session["nonce"])
    ensures Verdict(csrf, PyInt(0), true, session) == Ok(PyBool(true))
  {
  }
}

=== FILE: profile_entries.dfy ===
/**
 * The entries a profile page lists: the entries the profile created,
 * published and bookmarked, or, when none of those is asked for, the number
 * of distinct entries related to it in any of those ways.
 */
module ProfileEntries {

  import opened Python
  import opened Web
  import opened Store

  /** An ordering parameter asks for descending order when it starts with `-`. */
  predicate Descending(param: string) {
    |param| > 0 && param[0] == '-'
  }

  /** The field an ordering parameter names, without its direction. */
  function Field(param: string): string {
    if Descending(param) then param[1..] else param
  }

  /**
   * `get_ordered_queryset`: the argument of `order_by`, or None when the
   * parameter is empty and the query set is left unchanged. A prefix is
   * put in front of the field and the direction is kept; without a prefix
   * the parameter is used verbatim.
   */
  function OrderingFor(param: string, prefix: string): (r: Option<string>)
    ensures param == [] <==> r.None?
    ensures param != [] && prefix == [] ==> r == Some(param)
    ensures param != [] && !Descending(prefix) ==>
      Descending(r.value) == Descending(param) && Field(r.value) == prefix + Field(param)
  {
    if param == [] then None
    else if prefix == [] then Some(param)
    else if param[0] == '-' then Some("-" + prefix + param[1..])
    else Some(prefix + param)
  }

  /** A value of the representation: the entry count, or a list of entries (as the set of their ids). */
  datatype Listing = Count(n: nat) | Listed(ids: set<EntryId>)

  /** The entries published by the profile's user; none for a profile without a user. */
  function PublishedFor(entries: map<EntryId, Entry>, relatedUser: Option<UserId>): (r: set<EntryId>)
    ensures relatedUser.None? ==> r == {}
    ensures forall e :: e in r <==> relatedUser.Some? && e in entries && entries[e].publishedBy == relatedUser.value
  {
    if relatedUser.Some? then PublishedBy(entries, relatedUser.value) else {}
  }

  /** Every entry related to the profile: created by it, published by its user or bookmarked by it. */
  function Related(entries: map<EntryId, Entry>, bookmarks: set<(ProfileId, EntryId)>,
                   profile: ProfileId, relatedUser: Option<UserId>): set<EntryId>
  {
    CreatedBy(entries, profile) + PublishedFor(entries, relatedUser) + FavoritedBy(bookmarks, profile)
  }

  /**
   * `to_representation` (every entry is public). With none of `created`,
   * `published` or `favorited` asked for, the output is exactly the count
   * of distinct related entries; otherwise it has exactly the keys asked
   * for, each holding its entries.
   */
  method ToRepresentation(entries: map<EntryId, Entry>, bookmarks: set<(ProfileId, EntryId)>,
                          profile: ProfileId, relatedUser: Option<UserId>,
                          created: bool, published: bool, favorited: bool)
    returns (data: map<string, Listing>)
    ensures !(created || published || favorited) ==>
      data == map["entry_count" := Count(|Related(entries, bookmarks, profile, relatedUser)|)]
    ensures created || published || favorited ==>
      ("created" in data <==> created) && ("published" in data <==> published) && ("favorited" in data <==> favorited)
      && data.Keys <= {"created", "published", "favorited"}
    ensures created ==> "created" in data && data["created"] == Listed(CreatedBy(entries, profile))
    ensures published ==> "published" in data && data["published"] == Listed(PublishedFor(entries, relatedUser))
    ensures favorited ==> "favorited" in data && data["favorited"] == Listed(FavoritedBy(bookmarks, profile))
  {
    data := map[];
    if !(created || published || favorited) {
      return map["entry_count" := Count(|Related(entries, bookmarks, profile, relatedUser)|)];
    }
    if created {
      data := data["created" := Listed(CreatedBy(entries, profile))];
    }
    if published {
      data := data["published" := Listed(PublishedFor(entries, relatedUser))];
    }
    if favorited {
      data := data["favorited" := Listed(FavoritedBy(bookmarks, profile))];
    }
  }

  /** A subset is no larger than its superset. */
  lemma SubsetNoLarger(a: set<EntryId>, b: set<EntryId>)
    requires a <= b
    ensures |a| <= |b|
  {
    var rest := b - a;
    assert a + rest == b && a * rest == {};
  }

  /**
   * The entry count is at least the length of each list the profile page
   * could ask for instead, and, once every bookmark points at an entry, at
   * most the number of entries.
   */
  lemma EntryCountBounds(entries: map<EntryId, Entry>, bookmarks: set<(ProfileId, EntryId)>,
                         profile: ProfileId, relatedUser: Option<UserId>)
    ensures var n := |Related(entries, bookmarks, profile, relatedUser)|;
      |CreatedBy(entries, profile)| <= n && |PublishedFor(entries, relatedUser)| <= n
      && |FavoritedBy(bookmarks, profile)| <= n
    ensures (forall b :: b in bookmarks ==> b.1 in entries) ==>
      |Related(entries, bookmarks, profile, relatedUser)| <= |entries|
  {
    var all := Related(entries, bookmarks, profile, relatedUser);
    SubsetNoLarger(CreatedBy(entries, profile), all);
    SubsetNoLarger(PublishedFor(entries, relatedUser), all);
    SubsetNoLarger(FavoritedBy(bookmarks, profile), all);
    if forall b :: b in bookmarks ==> b.1 in entries {
      AtMostAllEntries(entries, all);
    }
  }
}

=== FILE: profile_lookups.dfy ===
/** The admin's profile autocomplete channel. */
module ProfileLookups {

  import opened Python
  import opened Web
  import opened Store
  import ProfileViews

  /**
   * `get_query`: over every profile (`all`, the table's ids), those whose
   * custom name or user name starts with `q`, then those that only contain
   * it, ignoring case.
   */
  function GetQuery(all: seq<ProfileId>, names: map<ProfileId, ProfileNames>, q: string): (r: seq<ProfileId>)
    ensures forall p :: p in r <==> p in all && ProfileViews.NameContains(ProfileViews.NamesOf(names, p), q)
    ensures forall i, j :: 0 <= i < j < |r| && ProfileViews.NameStarts(ProfileViews.NamesOf(names, r[j]), q) ==>
      ProfileViews.NameStarts(ProfileViews.NamesOf(names, r[i]), q)
    ensures NoDuplicates(all) ==> NoDuplicates(r)
  {
    ProfileViews.FilterName(all, names, q)
  }

  const DisplayOpen := "<span class=\"profile\">"
  const DisplayClose := "</span>"

  /** `format_item_display`: the profile's text inside a `profile` span, from which it can be read back. */
  function FormatItemDisplay(text: string): (html: string)
    ensures |html| == |DisplayOpen| + |text| + |DisplayClose|
    ensures html[..|DisplayOpen|] == DisplayOpen
    ensures html[|html| - |DisplayClose|..] == DisplayClose
    ensures html[|DisplayOpen|..|html| - |DisplayClose|] == text
  {
    DisplayOpen + text + DisplayClose
  }

  /** `can_add`: the user holds `profiles.add_userprofile`; an anonymous user never does. */
  predicate CanAdd(user: Requester)
    ensures CanAdd(user) ==> user.authenticated
  {
    HasPerm(user, "profiles.add_userprofile")
  }
}

=== FILE: profile_serializers.dfy ===
/**
 * Profile serialization: the extended-information fields (long bio,
 * program type and year, affiliation) appear, and can be written, only
 * for a profile whose `enable_extended_information` flag is set, and the
 * flag itself never leaves the server.
 */
module ProfileSerializers {

  import opened Python
  import opened Web
  import opened Store

  const FlagKey := "enable_extended_information"
  const ExtendedKeys: set<string> := {"user_bio_long", "program_type", "program_year", "affiliation"}

  /** `remove_key`: `del data[key]`, with the KeyError of a missing key swallowed. */
  method RemoveKey(data: Dict, key: string)
    modifies data
    ensures data.items == old(data.items) - {key}
    ensures key !in old(data.items) ==> data.items == old(data.items)
  {
    if key in data.items {
      data.items := data.items - {key};
    }
  }

  /**
   * The dictionary the trim leaves. `profile` is None when there is no
   * profile, otherwise its flag. The flag key always goes; the four
   * extended keys go when the flag is off; every other key stays with its
   * value.
   */
  function Trimmed(profile: Option<bool>, d: map<string, PyVal>): (t: map<string, PyVal>)
    ensures FlagKey !in t
    ensures profile == Some(false) ==> forall k :: k in ExtendedKeys ==> k !in t
    ensures forall k :: k in t ==> k in d && t[k] == d[k]
    ensures forall k :: k in d && k != FlagKey && (profile != Some(false) || k !in ExtendedKeys) ==> k in t
  {
    if profile == Some(false) then d - ExtendedKeys - {FlagKey} else d - {FlagKey}
  }

  /** Trimming a trimmed dictionary removes nothing more. */
  lemma TrimIdempotent(profile: Option<bool>, d: map<string, PyVal>)
    ensures Trimmed(profile, Trimmed(profile, d)) == Trimmed(profile, d)
  {
    var t := Trimmed(profile, d);
    assert Trimmed(profile, t).Keys == t.Keys;
  }

  /**
   * `trim_extended_information_from_dict`: removes the keys in place, one
   * `remove_key` at a time, and hands back the same dictionary.
   */
  method TrimExtendedInformation(profile: Option<bool>, data: Dict) returns (r: Dict)
    modifies data
    ensures r == data
    ensures data.items == Trimmed(profile, old(data.items))
  {
    if profile == Some(false) {
      RemoveKey(data, "user_bio_long");
      RemoveKey(data, "program_type");
      RemoveKey(data, "program_year");
      RemoveKey(data, "affiliation");
      assert data.items == old(data.items) - ExtendedKeys;
    }
    RemoveKey(data, FlagKey);
    return data;
  }

  /**
   * `UserProfileBasicSerializer.to_representation`: exactly the identity
   * fields `id`, `name` and `is_active`.
   */
  function BasicRepresentation(id: ProfileId, name: string, isActive: bool): (r: map<string, PyVal>)
    ensures r.Keys == {"id", "name", "is_active"}
    ensures r["id"] == PyInt(id) && r["name"] == PyStr(name) && r["is_active"] == PyBool(isActive)
  {
    map["id" := PyInt(id), "name" := PyStr(name), "is_active" := PyBool(isActive)]
  }

  /** A profile row: its extended-information flag and its other columns. */
  class ProfileRow {
    var extended: bool
    var columns: map<string, PyVal>

    constructor (extended0: bool, columns0: map<string, PyVal>)
      ensures extended == extended0 && columns == columns0
    {
      extended := extended0;
      columns := columns0;
    }
  }

  /**
   * `to_representation` of the list and detail serializers: the model
   * serializer's output (`serialized`) trimmed for this profile.
   */
  method ToRepresentation(instance: ProfileRow, serialized: map<string, PyVal>) returns (out: map<string, PyVal>)
    ensures out == Trimmed(Some(instance.extended), serialized)
  {
    var d := new Dict(serialized);
    var trimmed := TrimExtendedInformation(Some(instance.extended), d);
    out := trimmed.items;
  }

  /**
   * `update`: the validated data is trimmed in place first, then every
   * remaining field is written to the row. The flag is never written.
   */
  method Update(instance: ProfileRow, validated: Dict) returns (r: ProfileRow)
    modifies instance, validated
    ensures r == instance
    ensures validated.items == Trimmed(Some(old(instance.extended)), old(validated.items))
    ensures instance.extended == old(instance.extended)
    ensures instance.columns == old(instance.columns) + validated.items
  {
    var trimmed := TrimExtendedInformation(Some(instance.extended), validated);
    instance.columns := instance.columns + trimmed.items;
    return instance;
  }

  /**
   * While the flag is off, an update leaves every extended column exactly as
   * it was, whatever the request sent.
   */
  lemma UpdateCannotWriteDisabledFields(columns: map<string, PyVal>, validated: map<string, PyVal>)
    ensures var after := columns + Trimmed(Some(false), validated);
      forall k :: k in ExtendedKeys ==> (k in after <==> k in columns) && (k in columns ==> after[k] == columns[k])
  {
  }

  /** While the flag is on, an update writes every field it was sent, except the flag. */
  lemma UpdateWritesEnabledFields(columns: map<string, PyVal>, validated: map<string, PyVal>)
    ensures var after := columns + Trimmed(Some(true), validated);
      forall k :: k in validated && k != FlagKey ==> k in after && after[k] == validated[k]
  {
  }

  /** The three counts of `entry_count`. */
  datatype EntryCounts = EntryCounts(created: nat, published: nat, favorited: nat)

  /**
   * `get_entry_count` (every entry is public): the entries the profile is a
   * creator of, those its user published (0 when it has no user), and those
   * it bookmarked.
   */
  function EntryCount(entries: map<EntryId, Entry>, bookmarks: set<(ProfileId, EntryId)>,
                      profile: ProfileId, relatedUser: Option<UserId>): (c: EntryCounts)
    ensures c.created == |CreatedBy(entries, profile)|
    ensures relatedUser.None? ==> c.published == 0
    ensures relatedUser.Some? ==> c.published == |PublishedBy(entries, relatedUser.value)|
    ensures c.favorited == |FavoritedBy(bookmarks, profile)|
  {
    var published := if relatedUser.Some? then |PublishedBy(entries, relatedUser.value)| else 0;
    EntryCounts(|CreatedBy(entries, profile)|, published, |FavoritedBy(bookmarks, profile)|)
  }

  /** No count exceeds the number of entries, once every bookmark points at an entry. */
  lemma EntryCountsAtMostEntries(entries: map<EntryId, Entry>, bookmarks: set<(ProfileId, EntryId)>,
                                 profile: ProfileId, relatedUser: Option<UserId>)
    requires forall b :: b in bookmarks ==> b.1 in entries
    ensures var c := EntryCount(entries, bookmarks, profile, relatedUser);
      c.created <= |entries| && c.published <= |entries| && c.favorited <= |entries|
  {
    AtMostAllEntries(entries, CreatedBy(entries, profile));
    if relatedUser.Some? {
      AtMostAllEntries(entries, PublishedBy(entries, relatedUser.value));
    }
    AtMostAllEntries(entries, FavoritedBy(bookmarks, profile));
  }

  /**
   * `UserProfilePublicSerializer.get_my_profile`: the context's user equals
   * the profile's user. An anonymous user equals no user, but a context
   * without a user (None) matches a profile that has none.
   */
  function MyProfile(contextUser: Option<Requester>, profileUser: Option<UserId>): (mine: bool)
    ensures contextUser.None? ==> (mine <==> profileUser.None?)
    ensures contextUser.Some? ==> (mine <==> contextUser.value.authenticated && profileUser == Some(contextUser.value.id))
  {
    match contextUser
    case None => profileUser.None?
    case Some(user) => user.authenticated && profileUser == Some(user.id)
  }
}

=== FILE: profile_views.dfy ===
/**
 * The profile list API: which profiles a query may list at all, the name
 * search that puts prefix matches first, pagination by page size and page
 * number, and the serializer each API version gets.
 */
module ProfileViews {

  import opened Python
  import opened Strings
  import opened Web
  import opened Store
  import Versioning

  /** The URL values of `API_VERSIONS['version_1']` and `['version_2']`. */
  const Version1 := "v1"
  const Version2 := "v2"

  /** The two constants are the configured URL values of the first two versions. */
  lemma VersionConstants()
    ensures "version_1" in Versioning.ApiVersions() && Versioning.ApiVersions()["version_1"] == Version1
    ensures "version_2" in Versioning.ApiVersions() && Versioning.ApiVersions()["version_2"] == Version2
  {
    Versioning.ApiVersionsValue();
  }

  /** `IsProfileOwner`: the object's user is the requester (an anonymous requester owns nothing). */
  predicate IsProfileOwner(objectUser: Option<UserId>, requester: Requester) {
    requester.authenticated && objectUser == Some(requester.id)
  }

  /** The names a profile is searched by; a profile missing from the table has none. */
  function NamesOf(names: map<ProfileId, ProfileNames>, p: ProfileId): ProfileNames {
    if p in names then names[p] else ProfileNames(None, None)
  }

  /** `custom_name__istartswith=v | related_user__name__istartswith=v`. */
  predicate NameStarts(n: ProfileNames, v: string) {
    (n.customName.Some? && IStartsWith(n.customName.value, v)) || (n.userName.Some? && IStartsWith(n.userName.value, v))
  }

  /** `custom_name__icontains=v | related_user__name__icontains=v`. */
  predicate NameContains(n: ProfileNames, v: string) {
    (n.customName.Some? && IContains(n.customName.value, v)) || (n.userName.Some? && IContains(n.userName.value, v))
  }

  /** A name that starts with the value contains it. */
  lemma StartsAreContains(v: string)
    ensures forall n :: NameStarts(n, v) ==> NameContains(n, v)
  {
    forall n | NameStarts(n, v)
      ensures NameContains(n, v)
    {
      if n.customName.Some? && IStartsWith(n.customName.value, v) {
        StartsWithContains(Lower(n.customName.value), Lower(v));
      } else {
        StartsWithContains(Lower(n.userName.value), Lower(v));
      }
    }
  }

  /** `queryset.filter(...)`: the profiles of `qs` that `keep` accepts, in order. */
  function Select(qs: seq<ProfileId>, keep: ProfileId -> bool): (r: seq<ProfileId>)
    ensures forall x :: x in r <==> x in qs && keep(x)
    ensures forall k :: 0 <= k < |r| ==> keep(r[k])
    ensures NoDuplicates(qs) ==> NoDuplicates(r)
  {
    if |qs| == 0 then []
    else
      var rest := Select(qs[1..], keep);
      assert NoDuplicates(qs) ==> qs[0] !in qs[1..];
      (if keep(qs[0]) then [qs[0]] else []) + rest
  }

  /**
   * `filter_name`: the profiles whose custom name or user name starts with
   * the value (ignoring case), then those that only contain it. Every result
   * contains the value; every profile of `qs` that contains it is listed;
   * no profile that starts with the value comes after one that does not;
   * and a query set without repeats gives a list without repeats.
   */
  function FilterName(qs: seq<ProfileId>, names: map<ProfileId, ProfileNames>, v: string): (r: seq<ProfileId>)
    ensures forall x :: x in r <==> x in qs && NameContains(NamesOf(names, x), v)
    ensures forall i, j :: 0 <= i < j < |r| && NameStarts(NamesOf(names, r[j]), v) ==> NameStarts(NamesOf(names, r[i]), v)
    ensures NoDuplicates(qs) ==> NoDuplicates(r)
  {
    StartsAreContains(v);
    var starts := Select(qs, p => NameStarts(NamesOf(names, p), v));
    var contains := Select(qs, p => NameContains(NamesOf(names, p), v) && !NameStarts(NamesOf(names, p), v));
    assert forall i, j :: 0 <= i < |starts| && 0 <= j < |contains| ==> starts[i] != contains[j];
    starts + contains
  }

  /** `ProfileCustomFilter.Meta.fields`, the query keys that switch filtering on. */
  const FilterFields: seq<string> := ["ids", "profile_type", "program_type", "program_year", "is_active", "name", "limit"]

  /** Some declared filter field appears in the query. */
  predicate HasFilterField(queries: map<string, string>) {
    exists k :: 0 <= k < |FilterFields| && FilterFields[k] in queries
  }

  /**
   * `ProfileCustomFilter.qs`: no request, or no query parameters, lists
   * nothing; otherwise the filtered profiles (`filtered`, what the filter
   * set computes) are listed only when the query has `search` or a declared
   * filter field, and nothing is listed otherwise.
   */
  method Qs(hasRequest: bool, queries: Option<map<string, string>>, filtered: seq<ProfileId>) returns (qs: seq<ProfileId>)
    ensures !hasRequest || queries.None? ==> qs == []
    ensures hasRequest && queries.Some? ==>
      qs == (if "search" in queries.value || HasFilterField(queries.value) then filtered else [])
  {
    if !hasRequest || queries.None? {
      return [];
    }
    var q := queries.value;
    qs := if "search" in q then filtered else [];
    var i := 0;
    while i < |FilterFields|
      invariant 0 <= i <= |FilterFields|
      invariant qs == (if "search" in q || exists k :: 0 <= k < i && FilterFields[k] in q then filtered else [])
    {
      if FilterFields[i] in q {
        qs := filtered;
      }
      i := i + 1;
    }
  }

  /** Whether a profile is active; a profile missing from the table is not. */
  predicate IsActive(active: map<ProfileId, bool>, p: ProfileId) {
    p in active && active[p]
  }

  /**
   * `UserProfileListAPIView.get_queryset`: asking about `is_active` lists
   * every profile; any other query lists only the active ones.
   */
  function ListQueryset(all: seq<ProfileId>, active: map<ProfileId, bool>, queries: map<string, string>): (r: seq<ProfileId>)
    ensures "is_active" in queries ==> r == all
    ensures "is_active" !in queries ==> forall x :: x in r <==> x in all && IsActive(active, x)
  {
    if "is_active" in queries then all else Select(all, p => IsActive(active, p))
  }

  /** `ProfilesPagination`: 30 per page, at most 50 when the client asks for more. */
  const DefaultPageSize := 30
  const MaxPageSize := 50

  /**
   * `get_page_size`: a `page_size` parameter that `int()` reads as a
   * positive number, capped at 50; anything else (absent, zero, negative or
   * not a number) gives the default 30.
   */
  function PageSize(query: map<string, string>): (n: nat)
    ensures 1 <= n <= MaxPageSize
    ensures ("page_size" in query && ParseInt(query["page_size"]).Some? && ParseInt(query["page_size"]).value >= 1) ==>
      n == (if ParseInt(query["page_size"]).value < MaxPageSize then ParseInt(query["page_size"]).value else MaxPageSize)
    ensures !("page_size" in query && ParseInt(query["page_size"]).Some? && ParseInt(query["page_size"]).value >= 1) ==>
      n == DefaultPageSize
  {
    if "page_size" in query then
      match ParseInt(query["page_size"])
      case Some(v) => if v < 1 then DefaultPageSize else if v < MaxPageSize then v else MaxPageSize
      case None => DefaultPageSize
    else DefaultPageSize
  }

  /** The paginator's page count: an empty list still has its one (empty) first page. */
  function NumPages(count: nat, size: nat): (n: nat)
    requires size >= 1
    ensures n >= 1
    ensures count > 0 ==> (n - 1) * size < count <= n * size
  {
    if count == 0 then 1
    else
      var n := (count + size - 1) / size;
      assert n * size <= count + size - 1 < (n + 1) * size;
      n
  }

  /** Page `n` (from 1): the items from position `(n - 1) * size`, at most `size` of them. */
  function PageItems(qs: seq<ProfileId>, size: nat, n: nat): (page: seq<ProfileId>)
    requires size >= 1 && n >= 1
    ensures |page| <= size
  {
    var bottom := (n - 1) * size;
    if bottom >= |qs| then []
    else if bottom + size <= |qs| then qs[bottom..bottom + size]
    else qs[bottom..]
  }

  /** Every item is on exactly the page its position says, within the page count. */
  lemma EveryItemOnItsPage(qs: seq<ProfileId>, size: nat, i: nat)
    requires size >= 1 && i < |qs|
    ensures var n := i / size + 1;
      n <= NumPages(|qs|, size) && i % size < |PageItems(qs, size, n)| && PageItems(qs, size, n)[i % size] == qs[i]
  {
    var n := i / size + 1;
    var pages := NumPages(|qs|, size);
    assert (n - 1) * size + i % size == i;
    assert (n - 1) * size < pages * size;
    FactorsOrdered(n - 1, pages, size);
  }

  /** Multiplying by the same positive size keeps the order of the factors. */
  lemma FactorsOrdered(a: nat, b: nat, c: nat)
    requires c >= 1 && a * c < b * c
    ensures a < b
  {
  }

  /**
   * The page the `page` parameter names: `last` is the last page; otherwise
   * `int()` must read a number from 1 to the page count (absent means 1),
   * and anything else is NotFound.
   */
  function PageNumber(query: map<string, string>, numPages: nat): (r: Result<nat>)
    requires numPages >= 1
    ensures r.Ok? ==> 1 <= r.value <= numPages
    ensures "page" !in query ==> r == Ok(1)
    ensures "page" in query && query["page"] == "last" ==> r == Ok(numPages)
    ensures r.Raise? ==> r.error == NotFound
  {
    var raw := if "page" in query then query["page"] else "1";
    if raw == "last" then Ok(numPages)
    else
      assert ParseInt("1") == Some(1) by {
        assert Strip("1") == "1" by { StrippedIsFixed("1"); }
      }
      match ParseInt(raw)
      case None => Raise(NotFound)
      case Some(v) => if v < 1 || v > numPages then Raise(NotFound) else Ok(v)
  }

  /** `PageNumberPagination.paginate_queryset`: the requested page of `qs`. */
  function Paginate(qs: seq<ProfileId>, query: map<string, string>): (r: Result<seq<ProfileId>>)
    ensures r.Ok? ==> |r.value| <= MaxPageSize
    ensures r.Raise? ==> r.error == NotFound
  {
    var size := PageSize(query);
    match PageNumber(query, NumPages(|qs|, size))
    case Ok(n) => Ok(PageItems(qs, size, n))
    case Raise(e) => Raise(e)
  }

  /**
   * `UserProfileListAPIView.paginate_queryset`: versions 1 and 2 list
   * everything on one unpaginated answer (None); other versions get a page
   * of at most 50 profiles. Without a request the paginator has no query
   * parameters to read (AttributeError).
   */
  function PaginateQueryset(hasRequest: bool, version: string, query: map<string, string>, qs: seq<ProfileId>)
    : (r: Result<Option<seq<ProfileId>>>)
    ensures !hasRequest ==> r == Raise(AttributeError)
    ensures hasRequest && (version == Version1 || version == Version2) ==> r == Ok(None)
    ensures hasRequest && version != Version1 && version != Version2 ==>
      (r.Ok? <==> Paginate(qs, query).Ok?) && (r.Ok? ==> r.value == Some(Paginate(qs, query).value))
    ensures r.Ok? && r.value.Some? ==> |r.value.value| <= MaxPageSize
  {
    if !hasRequest then Raise(AttributeError)
    else if version == Version1 || version == Version2 then Ok(None)
    else match Paginate(qs, query)
      case Ok(page) => Ok(Some(page))
      case Raise(e) => Raise(e)
  }

  /** The serializers the list views choose from. */
  datatype SerializerClass = ListSerializer | PublicWithEntriesSerializer | BasicSerializer | PublicSerializer

  /**
   * `UserProfileListAPIView.get_serializer_class`, by precedence: no
   * request gives the list serializer; v1 gives the one with entries,
   * whatever the query; then `basic` gives the basic one; then v2 the
   * public one; any later version the list serializer.
   */
  function ListSerializerClass(hasRequest: bool, version: string, query: map<string, string>): (c: SerializerClass)
    ensures !hasRequest ==> c == ListSerializer
    ensures hasRequest && version == Version1 ==> c == PublicWithEntriesSerializer
    ensures hasRequest && version != Version1 && "basic" in query ==> c == BasicSerializer
    ensures hasRequest && version == Version2 && "basic" !in query ==> c == PublicSerializer
    ensures hasRequest && version != Version1 && version != Version2 && "basic" !in query ==> c == ListSerializer
  {
    if !hasRequest then ListSerializer
    else if version == Version1 then PublicWithEntriesSerializer
    else if "basic" in query then BasicSerializer
    else if version == Version2 then PublicSerializer
    else ListSerializer
  }

  /** `UserProfilePublicAPIView.get_serializer_class`: v1 lists entries, later versions do not. */
  function PublicSerializerClass(version: string): (c: SerializerClass)
    ensures c == PublicWithEntriesSerializer <==> version == Version1
    ensures c != PublicWithEntriesSerializer ==> c == PublicSerializer
  {
    if version == Version1 then PublicWithEntriesSerializer else PublicSerializer
  }

  /**
   * `UserProfileAPIView`: `IsAuthenticated` refuses an anonymous requester
   * (PermissionDenied) before `get_object` looks up the profile whose user
   * is the requester, which is NotFound when there is none. The profile it
   * finds always passes `IsProfileOwner`.
   */
  function OwnProfile(requester: Requester, profileOf: map<UserId, ProfileId>, userOf: map<ProfileId, UserId>)
    : (r: Result<ProfileId>)
    requires forall u :: u in profileOf ==> profileOf[u] in userOf && userOf[profileOf[u]] == u
    ensures !requester.authenticated ==> r == Raise(PermissionDenied)
    ensures requester.authenticated && requester.id !in profileOf ==> r == Raise(NotFound)
    ensures r.Ok? ==> r.value in userOf && IsProfileOwner(Some(userOf[r.value]), requester)
  {
    if !requester.authenticated then Raise(PermissionDenied)
    else if requester.id !in profileOf then Raise(NotFound)
    else Ok(profileOf[requester.id])
  }

  /**
   * The `thumbnail` of a PUT body: absent or falsy, a non-empty JSON object
   * (its `name` and `base64` members, each possibly missing or empty), any
   * other truthy value (a string, a number, a list), or a file: an uploaded
   * one, or the one the view builds from the decoded bytes.
   */
  datatype Thumbnail =
    | NoThumbnail
    | Payload(name: Option<string>, encoded: Option<string>)
    | Other
    | File(fileName: string, bytes: seq<int>)

  /** The body of a PUT request, whose `thumbnail` the view rewrites in place. */
  class PutBody {
    var thumbnail: Thumbnail

    constructor (thumbnail0: Thumbnail)
      ensures thumbnail == thumbnail0
    {
      thumbnail := thumbnail0;
    }
  }

  /**
   * `UserProfileAPIView.put`, before the update. A truthy thumbnail is asked
   * for its `name` and `base64` members, which only a JSON object answers:
   * anything else raises `AttributeError`. An object with both members
   * non-empty becomes a file of the decoded bytes under that name; `decode`
   * is the base64 codec, `None` where the text is not base64, which raises
   * (`binascii.Error` is a `ValueError`). Any other body is left as sent.
   */
  method UnpackThumbnail(body: PutBody, decode: string -> Option<seq<int>>) returns (r: Result<()>)
    modifies body
    ensures old(body.thumbnail).Other? || old(body.thumbnail).File? ==>
      r == Raise(AttributeError) && body.thumbnail == old(body.thumbnail)
    ensures old(body.thumbnail).Payload? && Given(old(body.thumbnail).name) && Given(old(body.thumbnail).encoded) ==>
      match decode(old(body.thumbnail).encoded.value)
      case Some(bytes) => r == Ok(()) && body.thumbnail == File(old(body.thumbnail).name.value, bytes)
      case None => r.Raise? && r.error.ValueError? && body.thumbnail == old(body.thumbnail)
    ensures old(body.thumbnail).NoThumbnail? ==> r == Ok(()) && body.thumbnail == old(body.thumbnail)
    ensures old(body.thumbnail).Payload? && !(Given(old(body.thumbnail).name) && Given(old(body.thumbnail).encoded)) ==>
      r == Ok(()) && body.thumbnail == old(body.thumbnail)
  {
    var thumbnail := body.thumbnail;
    if thumbnail.NoThumbnail? {
      return Ok(());
    }
    if !thumbnail.Payload? {
      return Raise(AttributeError);
    }
    if Given(thumbnail.name) && Given(thumbnail.encoded) {
      var bytes := decode(thumbnail.encoded.value);
      if bytes.None? {
        return Raise(ValueError("Incorrect padding"));
      }
      body.thumbnail := File(thumbnail.name.value, bytes.value);
    }
    r := Ok(());
  }
}

=== FILE: python.dfy ===
/**
 * Python values as the views receive them: form fields, JSON body values and
 * session entries, with Python's own equality and truthiness, and the
 * exceptions the modelled code raises or catches.
 */
module Python {

  datatype Option<T> = None | Some(value: T)

  /** The exceptions that the modelled code raises, or lets escape. */
  datatype Error =
    | KeyError
    | ValueError(reason: string)
    | TypeError
    | IndexError
    | PermissionDenied
    | NotFound
    | ValidationError(code: string)
    | DoesNotExist
    | MultipleObjectsReturned
    | AttributeError
    | IntegrityError
    | ImmediateRedirect(url: string)

  /** A call that either returns a value or raises. */
  datatype Result<T> = Ok(value: T) | Raise(error: Error) {
    /** A raised exception propagates out of the caller (`:-`). */
    predicate IsFailure() {
      Raise?
    }

    function PropagateFailure<U>(): Result<U>
      requires Raise?
    {
      Raise(error)
    }

    function Extract(): T
      requires Ok?
    {
      value
    }
  }

  /** No two positions of `s` hold the same element (a list with no repeats). */
  predicate NoDuplicates<T(==)>(s: seq<T>) {
    forall i, j :: 0 <= i < j < |s| ==> s[i] != s[j]
  }

  /** A dynamically typed value: the kinds a form post, a JSON body or a session can hold. */
  datatype PyVal = PyNone | PyBool(b: bool) | PyInt(i: int) | PyStr(s: string)

  /** `bool` is a subclass of `int` in Python. */
  predicate IsNumeric(v: PyVal) {
    v.PyBool? || v.PyInt?
  }

  function NumberOf(v: PyVal): int
    requires IsNumeric(v)
  {
    if v.PyBool? then (if v.b then 1 else 0) else v.i
  }

  /**
   * Python's `==` on these values: numbers (bools included) compare by value,
   * so `0 == False` and `1 == True`; strings compare by content; values of
   * different kinds are unequal.
   */
  predicate Equal(a: PyVal, b: PyVal) {
    if IsNumeric(a) && IsNumeric(b) then NumberOf(a) == NumberOf(b) else a == b
  }

  /** Python's `x is False`: only the `False` singleton itself. */
  predicate IsFalse(v: PyVal) {
    v == PyBool(false)
  }

  /** Python's `x is True`. */
  predicate IsTrue(v: PyVal) {
    v == PyBool(true)
  }

  /** Python's `bool(x)`. */
  predicate Truthy(v: PyVal) {
    match v
    case PyNone => false
    case PyBool(b) => b
    case PyInt(i) => i != 0
    case PyStr(s) => |s| > 0
  }

  /** Whether an optional text member is present and non-empty (truthy). */
  predicate Given(s: Option<string>) {
    s.Some? && s.value != []
  }

  /** Python's `==` is an equivalence relation on these values. */
  lemma EqualIsEquivalence(a: PyVal, b: PyVal, c: PyVal)
    ensures Equal(a, a)
    ensures Equal(a, b) == Equal(b, a)
    ensures Equal(a, b) && Equal(b, c) ==> Equal(a, c)
  {
  }

  /** Identity and equality part ways on numbers: `0 == False` holds although `0 is False` does not. */
  lemma ZeroEqualsFalse()
    ensures Equal(PyInt(0), PyBool(false)) && !IsFalse(PyInt(0))
    ensures Equal(PyInt(1), PyBool(true)) && !IsTrue(PyInt(1))
  {
  }

  /** On strings, Python's `==` is plain equality of contents. */
  lemma EqualOnStrings(s: string, v: PyVal)
    ensures Equal(PyStr(s), v) <==> v == PyStr(s)
  {
  }

  /** A Python `dict` that the code changes in place (`del d[k]`, `d[k] = v`). */
  class Dict {
    var items: map<string, PyVal>

    constructor (initial: map<string, PyVal>)
      ensures items == initial
    {
      items := initial;
    }
  }
}

=== FILE: recaptcha.dfy ===
/**
 * The reCAPTCHA gate in front of the login page: the redirect view checks
 * the client's token with the reCAPTCHA service and records it in the
 * session; the login page then admits exactly one render per recorded token.
 */
module Recaptcha {

  import opened Python
  import opened Web

  const TokenKey := "recaptcha_token"
  const LoginUrl := "/accounts/login"

  /** The JSON body of the service's answer, as `json.loads` sees it. */
  datatype Json = Object(fields: map<string, PyVal>) | NotAnObject | Malformed

  /**
   * The outcome of the POST to the verification service (the request itself
   * is not modelled): the request failed, or it was answered with a status
   * and a body.
   */
  datatype HttpOutcome = RequestFailed | Answered(status: int, body: Json)

  /** `raise_for_status` raises for the client and server error statuses. */
  predicate IsHttpError(status: int) {
    400 <= status < 600
  }

  /**
   * `verify_recaptcha`: a failed request or an error status is `False`; a
   * body that is not JSON raises ValueError, one that is JSON but not an
   * object has no `get` (AttributeError); otherwise the answer is `True`
   * exactly when the `success` field is the `True` singleton.
   */
  function VerifyRecaptcha(outcome: HttpOutcome): (r: Result<bool>)
    ensures r == Ok(true) <==>
      (outcome.Answered? && !IsHttpError(outcome.status) && outcome.body.Object?
       && "success" in outcome.body.fields && IsTrue(outcome.body.fields["success"]))
    ensures (outcome.RequestFailed? || IsHttpError(outcome.status)) ==> r == Ok(false)
    ensures r.Raise? <==> outcome.Answered? && !IsHttpError(outcome.status) && !outcome.body.Object?
  {
    match outcome
    case RequestFailed => Ok(false)
    case Answered(status, body) =>
      if IsHttpError(status) then Ok(false)
      else match body
        case Malformed => Raise(ValueError("invalid JSON"))
        case NotAnObject => Raise(AttributeError)
        case Object(fields) => Ok("success" in fields && IsTrue(fields["success"]))
  }

  /** A `success` of `1` or `"true"` is not `True`: only the boolean itself verifies. */
  lemma OnlyTrueVerifies(status: int)
    requires !IsHttpError(status)
    ensures VerifyRecaptcha(Answered(status, Object(map["success" := PyInt(1)]))) == Ok(false)
    ensures VerifyRecaptcha(Answered(status, Object(map["success" := PyStr("true")]))) == Ok(false)
    ensures VerifyRecaptcha(Answered(status, Object(map["success" := PyBool(true)]))) == Ok(true)
  {
  }

  /** `request.GET.get('token', None)`, as a Python value. */
  function ClientToken(query: map<string, string>): (t: PyVal)
    ensures "token" in query <==> t.PyStr?
    ensures "token" in query ==> t.s == query["token"]
    ensures "token" !in query ==> t == PyNone
  {
    if "token" in query then PyStr(query["token"]) else PyNone
  }

  /**
   * Whether the login page renders: with reCAPTCHA on, the session must hold
   * a token that is not None and the client must send a token equal to it.
   */
  predicate Admits(useRecaptcha: bool, session: map<string, PyVal>, query: map<string, string>) {
    !useRecaptcha
    || (TokenKey in session && session[TokenKey] != PyNone
        && ClientToken(query) != PyNone && Equal(ClientToken(query), session[TokenKey]))
  }

  /**
   * `augmented_get_context_data`. With reCAPTCHA off it hands back allauth's
   * own context (`original`) and touches nothing. With it on, a session
   * without a token is refused untouched; otherwise the token is cleared to
   * None before any comparison, so every outcome leaves it cleared, and the
   * page renders only when the client's token equals the one read.
   */
  method LoginContext(session: Session, useRecaptcha: bool, query: map<string, string>, original: map<string, PyVal>)
    returns (r: Result<map<string, PyVal>>)
    modifies session
    ensures r.Ok? <==> Admits(useRecaptcha, old(session.data), query)
    ensures r.Ok? ==> r.value == original
    ensures r.Raise? ==> r.error == PermissionDenied
    ensures !useRecaptcha || TokenKey !in old(session.data) ==> session.data == old(session.data)
    ensures useRecaptcha && TokenKey in old(session.data) ==> session.data == old(session.data)[TokenKey := PyNone]
  {
    if useRecaptcha {
      if TokenKey !in session.data {
        return Raise(PermissionDenied);
      }
      var sessionToken := session.data[TokenKey];
      session.data := session.data[TokenKey := PyNone];
      if sessionToken == PyNone {
        return Raise(PermissionDenied);
      }
      var clientToken := ClientToken(query);
      if clientToken == PyNone {
        return Raise(PermissionDenied);
      }
      if !Equal(clientToken, sessionToken) {
        return Raise(PermissionDenied);
      }
    }
    return Ok(original);
  }

  /**
   * One token, one render: once the login page has been asked for with
   * reCAPTCHA on, whatever it answered, no query renders it again until a
   * new token is recorded.
   */
  lemma TokenAuthorisesOneRender(session: map<string, PyVal>, query: map<string, string>)
    requires TokenKey in session
    ensures !Admits(true, session[TokenKey := PyNone], query)
  {
  }

  /** A token the redirect recorded admits exactly the client that sends that same token back. */
  lemma RecordedTokenAdmitsItsClient(session: map<string, PyVal>, token: string, query: map<string, string>)
    ensures Admits(true, session[TokenKey := PyStr(token)], query) <==> "token" in query && query["token"] == token
  {
  }

  /** `RedirectView` with `query_string`: the login URL, with the request's query string when it has one. */
  function LoginRedirectUrl(rawQuery: string): (url: string)
    ensures rawQuery == [] ==> url == LoginUrl
    ensures rawQuery != [] ==> url == LoginUrl + "?" + rawQuery
  {
    if rawQuery == [] then LoginUrl else LoginUrl + "?" + rawQuery
  }

  /**
   * `LoginRedirectView.get`. With reCAPTCHA on, a missing token or a token
   * the service does not verify is 403 and the session is untouched; an
   * answer that cannot be read raises; a verified token is stored in the
   * session before the temporary redirect to the login page. With it off
   * the redirect is immediate.
   */
  method LoginRedirect(session: Session, useRecaptcha: bool, query: map<string, string>, rawQuery: string,
                       outcome: HttpOutcome)
    returns (r: Result<Response>)
    modifies session
    ensures !useRecaptcha ==> r == Ok(Response(302, LoginRedirectUrl(rawQuery))) && session.data == old(session.data)
    ensures useRecaptcha && "token" !in query ==> r == Ok(Response(403, "")) && session.data == old(session.data)
    ensures useRecaptcha && "token" in query ==>
      match VerifyRecaptcha(outcome)
      case Raise(e) => r == Raise(e) && session.data == old(session.data)
      case Ok(verified) =>
        if verified then r == Ok(Response(302, LoginRedirectUrl(rawQuery)))
                         && session.data == old(session.data)[TokenKey := PyStr(query["token"])]
        else r == Ok(Response(403, "")) && session.data == old(session.data)
  {
    if useRecaptcha {
      var clientToken := ClientToken(query);
      if clientToken == PyNone {
        return Ok(Response(403, ""));
      }
      var verified := VerifyRecaptcha(outcome);
      if verified.Raise? {
        return Raise(verified.error);
      }
      if !verified.value {
        return Ok(Response(403, ""));
      }
      session.data := session.data[TokenKey := clientToken];
    }
    return Ok(Response(302, LoginRedirectUrl(rawQuery)));
  }

  /**
   * The two views together: after a redirect that let a client through, the
   * login page renders for that client's token, once.
   */
  lemma RedirectedClientRendersOnce(session: map<string, PyVal>, query: map<string, string>)
    requires "token" in query
    ensures Admits(true, session[TokenKey := PyStr(query["token"])], query)
    ensures !Admits(true, session[TokenKey := PyStr(query["token"])][TokenKey := PyNone], query)
  {
    RecordedTokenAdmitsItsClient(session, query["token"], query);
    TokenAuthorisesOneRender(session[TokenKey := PyStr(query["token"])], query);
  }
}

=== FILE: social_adapter.dfy ===
/**
 * The social-login adapter: how a user is filled in from the provider's
 * data, the inactive profile a first login gets, and the upgrade of
 * accounts made by the old Google login into the social-account system.
 */
module SocialAdapter {

  import opened Python
  import opened Strings
  import opened Web
  import opened UserPermissions
  import UserModels

  const GoogleProviderId := "google"
  const UnnamedUser := "Unnamed Pulse user"
  /** `AuthProcess.LOGIN`. */
  const LoginProcess := "login"
  /** `reverse('account_login')` and `reverse('socialaccount_connections')`. */
  const LoginPath := "/accounts/login/"
  const ConnectionsPath := "/accounts/social/connections/"

  /** `data.get(key) or ''` for the provider's text fields. */
  function TextOr(data: map<string, string>, key: string): (v: string)
    ensures key in data ==> v == data[key]
    ensures key !in data ==> v == ""
  {
    if key in data then data[key] else ""
  }

  /**
   * The display name `populate_user` chooses: the provider's `name` when it
   * is not empty, kept as given; otherwise `first last` with the surrounding
   * blanks stripped; and when that is empty too, `Unnamed Pulse user`.
   */
  function PopulatedName(data: map<string, string>): (name: string)
    ensures name != []
    ensures TextOr(data, "name") != [] ==> name == data["name"]
    ensures TextOr(data, "name") == [] && Strip(TextOr(data, "first_name") + " " + TextOr(data, "last_name")) != [] ==>
      name == Strip(TextOr(data, "first_name") + " " + TextOr(data, "last_name"))
    ensures TextOr(data, "name") == [] && Strip(TextOr(data, "first_name") + " " + TextOr(data, "last_name")) == [] ==>
      name == UnnamedUser
  {
    var given := TextOr(data, "name");
    var name := if given != [] then given else Strip(TextOr(data, "first_name") + " " + TextOr(data, "last_name"));
    if name != [] then name else UnnamedUser
  }

  /** A fallback name never carries surrounding blanks, and blank name parts give the placeholder. */
  lemma FallbackNameIsStripped(first: string, last: string)
    ensures IsStripped(PopulatedName(map["first_name" := first, "last_name" := last]))
    ensures (forall k :: 0 <= k < |first| ==> IsSpace(first[k])) && (forall k :: 0 <= k < |last| ==> IsSpace(last[k])) ==>
      PopulatedName(map["first_name" := first, "last_name" := last]) == UnnamedUser
  {
    var data := map["first_name" := first, "last_name" := last];
    var joined := first + " " + last;
    assert TextOr(data, "name") == [] && TextOr(data, "first_name") + " " + TextOr(data, "last_name") == joined;
    if (forall k :: 0 <= k < |first| ==> IsSpace(first[k])) && (forall k :: 0 <= k < |last| ==> IsSpace(last[k])) {
      assert forall k :: 0 <= k < |joined| ==> IsSpace(joined[k]);
      BlankStripsToEmpty(joined);
    }
  }

  /** A string of blanks strips to nothing. */
  lemma BlankStripsToEmpty(s: string)
    requires forall k :: 0 <= k < |s| ==> IsSpace(s[k])
    ensures Strip(s) == []
  {
    StripIsTrimmedSlice(s);
  }

  /**
   * `populate_user`, after allauth's own population: the name is chosen as
   * above, and a Google login with a staff address raises the staff flag;
   * any other login leaves the flag as it was.
   */
  method PopulateUser(user: UserModels.EmailUser, data: map<string, string>, provider: string, staffDomains: seq<string>)
    modifies user
    ensures user.name == PopulatedName(data)
    ensures user.isStaff == (old(user.isStaff) || (provider == GoogleProviderId && IsStaffAddress(Some(user.email), staffDomains)))
    ensures user.email == old(user.email) && user.password == old(user.password)
    ensures user.isSuperuser == old(user.isSuperuser) && user.groups == old(user.groups)
  {
    user.name := PopulatedName(data);
    if provider == GoogleProviderId && IsStaffAddress(Some(user.email), staffDomains) {
      user.isStaff := true;
    }
  }

  /**
   * The profiles table as far as logins touch it: each profile's `is_active`
   * flag, the profile attached to each user, and the next free profile id.
   */
  class Profiles {
    var active: map<ProfileId, bool>
    var profileOf: map<UserId, ProfileId>
    var nextId: ProfileId

    ghost predicate Valid()
      reads this
    {
      (forall u :: u in profileOf ==> profileOf[u] in active)
      && (forall p :: p in active ==> p < nextId)
    }

    constructor ()
      ensures active == map[] && profileOf == map[] && Valid()
    {
      active := map[];
      profileOf := map[];
      nextId := 1;
    }
  }

  /**
   * `save_user`, after allauth has saved the user: a user who already has a
   * profile keeps it and nothing changes; otherwise a new, inactive profile
   * is created (hidden until a moderator activates it) and attached.
   */
  method SaveUser(profiles: Profiles, user: UserId) returns (profile: ProfileId)
    requires profiles.Valid()
    modifies profiles
    ensures profiles.Valid()
    ensures user in profiles.profileOf && profile == profiles.profileOf[user]
    ensures user in old(profiles.profileOf) ==>
      profiles.active == old(profiles.active) && profiles.profileOf == old(profiles.profileOf)
    ensures user !in old(profiles.profileOf) ==>
      profile !in old(profiles.active)
      && profiles.active == old(profiles.active)[profile := false]
      && profiles.profileOf == old(profiles.profileOf)[user := profile]
  {
    if user in profiles.profileOf {
      return profiles.profileOf[user];
    }
    profile := profiles.nextId;
    profiles.active := profiles.active[profile := false];
    profiles.profileOf := profiles.profileOf[user := profile];
    profiles.nextId := profiles.nextId + 1;
  }

  /** The provider names of the social accounts linked to `user` (none when it has no entry). */
  function LinkedProviders(linked: map<UserId, seq<string>>, user: UserId): (providers: seq<string>)
    ensures user !in linked ==> providers == []
    ensures user in linked ==> providers == linked[user]
  {
    if user in linked then linked[user] else []
  }

  /** What `pre_social_login` does with a login. */
  datatype PreLogin = Proceed | Migrate(user: UserId) | PromptConnection(url: string)

  /**
   * The login-page URL that asks the user to connect a second provider: it
   * carries, in this order, `next` (the connections page, which itself
   * carries the final destination when there is one), `promptconnection`
   * and the provider's display name. `urlencode` is Django's query encoder.
   */
  function PromptUrl(nextUrl: string, providerName: string, urlencode: seq<(string, string)> -> string): string {
    var inner := if nextUrl != [] then [("next", nextUrl)] else [];
    var connections := ConnectionsPath + "?" + urlencode(inner);
    LoginPath + "?" + urlencode([("next", connections), ("promptconnection", "True"), ("provider", providerName)])
  }

  /** Whether `pre_social_login` looks at the login at all: a known email, in a login (not a connect). */
  predicate Considered(email: string, emailExists: bool, process: Option<string>) {
    email != [] && emailExists && process == Some(LoginProcess)
  }

  /**
   * `pre_social_login` as a decision. An empty or unknown email, a process
   * other than login, or an email with no user of that exact address leaves
   * the login alone. Otherwise the user's linked accounts decide: none means
   * the account predates the social-account system and is migrated; one from
   * this provider means an ordinary login; any other set means a second
   * provider for the same email, which is sent to connect it.
   */
  function Decide(email: string, emailExists: bool, process: Option<string>, provider: string,
                  usersByEmail: map<string, UserId>, linked: map<UserId, seq<string>>,
                  nextUrl: string, providerName: string, urlencode: seq<(string, string)> -> string): (d: PreLogin)
    ensures !Considered(email, emailExists, process) || email !in usersByEmail ==> d == Proceed
    ensures d.Migrate? <==>
      Considered(email, emailExists, process) && email in usersByEmail && LinkedProviders(linked, usersByEmail[email]) == []
    ensures d.Migrate? ==> d.user == usersByEmail[email]
    ensures d.PromptConnection? <==>
      (Considered(email, emailExists, process) && email in usersByEmail
       && LinkedProviders(linked, usersByEmail[email]) != [] && provider !in LinkedProviders(linked, usersByEmail[email]))
    ensures d.PromptConnection? ==> d.url == PromptUrl(nextUrl, providerName, urlencode)
  {
    if !Considered(email, emailExists, process) then Proceed
    else if email !in usersByEmail then Proceed
    else
      var user := usersByEmail[email];
      var accounts := LinkedProviders(linked, user);
      if |accounts| == 0 then Migrate(user)
      else if provider in accounts then Proceed
      else PromptConnection(PromptUrl(nextUrl, providerName, urlencode))
  }

  /** A returning user who logs in with a provider already linked is never interrupted. */
  lemma LinkedProviderProceeds(email: string, provider: string, usersByEmail: map<string, UserId>,
                               linked: map<UserId, seq<string>>, nextUrl: string, providerName: string,
                               urlencode: seq<(string, string)> -> string)
    requires email in usersByEmail && provider in LinkedProviders(linked, usersByEmail[email])
    ensures Decide(email, true, Some(LoginProcess), provider, usersByEmail, linked, nextUrl, providerName, urlencode) == Proceed
  {
  }

  /** The request object, as far as the adapter marks it. */
  class LoginRequest {
    /** `request.migrate_user`, absent until `pre_social_login` sets it. */
    var migrateUser: Option<UserId>

    constructor ()
      ensures migrateUser.None?
    {
      migrateUser := None;
    }
  }

  /**
   * `pre_social_login`: a migration is recorded on the request, a second
   * provider raises an immediate redirect to the connection prompt, and
   * every other case returns with nothing changed.
   */
  method PreSocialLogin(request: LoginRequest, email: string, emailExists: bool, process: Option<string>, provider: string,
                        usersByEmail: map<string, UserId>, linked: map<UserId, seq<string>>,
                        nextUrl: string, providerName: string, urlencode: seq<(string, string)> -> string)
    returns (r: Result<()>)
    modifies request
    ensures var d := Decide(email, emailExists, process, provider, usersByEmail, linked, nextUrl, providerName, urlencode);
      && (d.Migrate? ==> r == Ok(()) && request.migrateUser == Some(d.user))
      && (d.PromptConnection? ==> r == Raise(ImmediateRedirect(d.url)) && request.migrateUser == old(request.migrateUser))
      && (d.Proceed? ==> r == Ok(()) && request.migrateUser == old(request.migrateUser))
  {
    var d := Decide(email, emailExists, process, provider, usersByEmail, linked, nextUrl, providerName, urlencode);
    match d
    case Proceed =>
      r := Ok(());
    case Migrate(user) =>
      request.migrateUser := Some(user);
      r := Ok(());
    case PromptConnection(url) =>
      r := Raise(ImmediateRedirect(url));
  }

  /** The login being completed; `user` is None while it is the provider's new, unsaved user. */
  class SocialLogin {
    var user: Option<UserId>

    constructor (user0: Option<UserId>)
      ensures user == user0
    {
      user := user0;
    }
  }

  /**
   * `is_auto_signup_allowed`: a request marked for migration binds the login
   * to the existing user and signs up automatically; otherwise allauth's own
   * answer (`defaultAllowed`) stands and the login is untouched.
   */
  method IsAutoSignupAllowed(request: LoginRequest, login: SocialLogin, defaultAllowed: bool) returns (allowed: bool)
    modifies login
    ensures request.migrateUser.Some? ==> allowed && login.user == request.migrateUser
    ensures request.migrateUser.None? ==> allowed == defaultAllowed && login.user == old(login.user)
  {
    if request.migrateUser.Some? {
      login.user := request.migrateUser;
      return true;
    }
    return defaultAllowed;
  }

  /**
   * `get_email_confirmation_url`: allauth's URL (`base`) is returned as it
   * is unless the request carries a non-empty `next` that is a safe URL, in
   * which case that `next` is written into the URL's query (`withNext`, the
   * parse-update-encode of the query string).
   */
  function EmailConfirmationUrl(base: string, query: map<string, string>, isSafe: string -> bool,
                                withNext: (string, string) -> string): (url: string)
    ensures !("next" in query && query["next"] != [] && isSafe(query["next"])) ==> url == base
    ensures "next" in query && query["next"] != [] && isSafe(query["next"]) ==> url == withNext(base, query["next"])
  {
    var next := TextOr(query, "next");
    if !(next != [] && isSafe(next)) then base else withNext(base, next)
  }
}

=== FILE: store.dfy ===
/**
 * The database as abstract state: entries, their moderation states and
 * ordered creator lists, and the bookmark relation between profiles and entries.
 */
module Store {

  import opened Python
  import opened Web

  type EntryId = int
  type StateId = int

  /** One row of the entries table, reduced to the columns the views write. */
  datatype Entry = Entry(
    featured: bool,
    moderation: StateId,
    publishedBy: UserId,
    creators: seq<ProfileId>)

  /** A moderation state row: an id and a name such as `Pending` or `Approved`. */
  datatype ModerationState = ModerationState(id: StateId, name: string)

  /** The two names a profile can be found by: its custom name and its user's name. */
  datatype ProfileNames = ProfileNames(customName: Option<string>, userName: Option<string>)

  /** The rows of `states` whose name is `name`, in table order. */
  function StatesNamed(states: seq<ModerationState>, name: string): (r: seq<ModerationState>)
    ensures forall k :: 0 <= k < |r| ==> r[k].name == name && r[k] in states
    ensures forall m :: m in states && m.name == name ==> m in r
  {
    if |states| == 0 then []
    else (if states[0].name == name then [states[0]] else []) + StatesNamed(states[1..], name)
  }

  /**
   * `ModerationState.objects.get(name=name)`: the one row with that name;
   * no row is DoesNotExist, several rows is MultipleObjectsReturned.
   */
  function StateByName(states: seq<ModerationState>, name: string): (r: Result<StateId>)
    ensures r.Ok? <==> |StatesNamed(states, name)| == 1
    ensures r.Ok? ==> exists m :: m in states && m.name == name && m.id == r.value
    ensures r == Raise(DoesNotExist) <==> forall m :: m in states ==> m.name != name
  {
    var found := StatesNamed(states, name);
    if |found| == 0 then Raise(DoesNotExist)
    else if |found| == 1 then (assert found[0] in found; Ok(found[0].id))
    else (assert found[0] in found; Raise(MultipleObjectsReturned))
  }

  /** The entries table, the moderation states, the profiles' names and the bookmarks. */
  class Database {
    var entries: map<EntryId, Entry>
    var states: seq<ModerationState>
    var profiles: map<ProfileId, ProfileNames>
    var bookmarks: set<(ProfileId, EntryId)>
    var nextEntryId: EntryId

    /** Every entry id was issued before the next one; bookmarks point at existing entries. */
    ghost predicate Valid()
      reads this
    {
      (forall e :: e in entries ==> e < nextEntryId)
      && (forall b :: b in bookmarks ==> b.1 in entries)
    }

    constructor (states0: seq<ModerationState>, profiles0: map<ProfileId, ProfileNames>)
      ensures Valid()
      ensures entries == map[] && bookmarks == {} && states == states0 && profiles == profiles0
    {
      entries := map[];
      states := states0;
      profiles := profiles0;
      bookmarks := {};
      nextEntryId := 1;
    }
  }

  /** The profiles that bookmarked entry `e`. */
  function BookmarkersOf(bookmarks: set<(ProfileId, EntryId)>, e: EntryId): (r: set<ProfileId>)
    ensures forall p :: p in r <==> (p, e) in bookmarks
  {
    set b | b in bookmarks && b.1 == e :: b.0
  }

  /** `entry.bookmarked_by.count()`. */
  function BookmarkCount(bookmarks: set<(ProfileId, EntryId)>, e: EntryId): nat {
    |BookmarkersOf(bookmarks, e)|
  }

  /** The entries that list profile `p` among their creators. */
  function CreatedBy(entries: map<EntryId, Entry>, p: ProfileId): (r: set<EntryId>)
    ensures forall e :: e in r <==> e in entries && p in entries[e].creators
  {
    set e | e in entries && p in entries[e].creators
  }

  /** The entries that user `u` published. */
  function PublishedBy(entries: map<EntryId, Entry>, u: UserId): (r: set<EntryId>)
    ensures forall e :: e in r <==> e in entries && entries[e].publishedBy == u
  {
    set e | e in entries && entries[e].publishedBy == u
  }

  /** The entries that profile `p` bookmarked. */
  function FavoritedBy(bookmarks: set<(ProfileId, EntryId)>, p: ProfileId): (r: set<EntryId>)
    ensures forall e :: e in r <==> (p, e) in bookmarks
  {
    set b | b in bookmarks && b.0 == p :: b.1
  }

  /** A set of entry ids drawn from the table is no larger than the table. */
  lemma AtMostAllEntries(entries: map<EntryId, Entry>, r: set<EntryId>)
    requires r <= entries.Keys
    ensures |r| <= |entries|
  {
    var rest := entries.Keys - r;
    assert r + rest == entries.Keys && r * rest == {};
    assert |entries.Keys| == |r| + |rest|;
  }
}

=== FILE: strings.dfy ===
/**
 * The string operations of Python's `str` that the core relies on:
 * `split` on a one-character separator, `join`, `strip`, `lower`,
 * `startswith` and substring tests.
 */
module Strings {

  import opened Python

  /** Position of the first occurrence of `c` in `s` (Python's `s.index(c)`). */
  function IndexOf(s: string, c: char): (i: nat)
    requires c in s
    ensures i < |s| && s[i] == c && c !in s[..i]
  {
    if s[0] == c then 0
    else
      var j := IndexOf(s[1..], c);
      assert s[..j + 1] == [s[0]] + s[1..][..j];
      j + 1
  }

  /** The first occurrence is unique: any position holding `c` with no `c` before it is it. */
  lemma IndexOfUnique(s: string, c: char, i: nat)
    requires i < |s| && s[i] == c && c !in s[..i]
    ensures IndexOf(s, c) == i
  {
  }

  /**
   * Python's `s.split(sep)` for a one-character separator: the pieces between
   * separators, empty pieces included; never an empty list.
   */
  function Split(s: string, sep: char): (parts: seq<string>)
    ensures |parts| >= 1
    ensures sep in s ==> |parts| >= 2
    ensures forall k :: 0 <= k < |parts| ==> sep !in parts[k]
    decreases |s|
  {
    if sep !in s then [s]
    else
      var i := IndexOf(s, sep);
      [s[..i]] + Split(s[i + 1..], sep)
  }

  /** Python's `sep.join(parts)`. */
  function Join(parts: seq<string>, sep: string): string
  {
    if |parts| == 0 then ""
    else if |parts| == 1 then parts[0]
    else parts[0] + sep + Join(parts[1..], sep)
  }

  /** Joining the pieces of a split with the same separator gives the original string back. */
  lemma {:induction false} JoinSplit(s: string, sep: char)
    ensures Join(Split(s, sep), [sep]) == s
    decreases |s|
  {
    if sep in s {
      var i := IndexOf(s, sep);
      var rest := s[i + 1..];
      JoinSplit(rest, sep);
      assert Split(s, sep) == [s[..i]] + Split(rest, sep);
      assert s == s[..i] + [sep] + rest;
    }
  }

  /** Splitting a join of separator-free pieces gives the pieces back. */
  lemma {:induction false} SplitJoin(parts: seq<string>, sep: char)
    requires |parts| >= 1
    requires forall k :: 0 <= k < |parts| ==> sep !in parts[k]
    ensures Split(Join(parts, [sep]), sep) == parts
  {
    if |parts| > 1 {
      var rest := Join(parts[1..], [sep]);
      var s := parts[0] + [sep] + rest;
      assert s[..|parts[0]|] == parts[0];
      IndexOfUnique(s, sep, |parts[0]|);
      assert s[|parts[0]| + 1..] == rest;
      SplitJoin(parts[1..], sep);
    }
  }

  /** Splitting `a + sep + b`, where neither part holds the separator, gives the two parts. */
  lemma SplitPair(a: string, b: string, sep: char)
    requires sep !in a && sep !in b
    ensures Split(a + [sep] + b, sep) == [a, b]
  {
    SplitJoin([a, b], sep);
    assert Join([a, b], [sep]) == a + [sep] + b;
  }

  /** A string without the separator splits into itself alone. */
  lemma SplitWithoutSeparator(s: string, sep: char)
    requires sep !in s
    ensures Split(s, sep) == [s]
  {
  }

  /** The whitespace characters that Python's `str.strip()` removes (the ASCII ones). */
  predicate IsSpace(c: char) {
    c == ' ' || c == '\t' || c == '\n' || c == '\r' || c == '\U{000B}' || c == '\U{000C}'
  }

  /** `s` with its leading whitespace removed. */
  function StripLeft(s: string): (r: string)
    ensures |r| <= |s| && r == s[|s| - |r|..]
    ensures r == [] || !IsSpace(r[0])
    ensures forall k :: 0 <= k < |s| - |r| ==> IsSpace(s[k])
  {
    if |s| > 0 && IsSpace(s[0]) then StripLeft(s[1..]) else s
  }

  /** `s` with its trailing whitespace removed. */
  function StripRight(s: string): (r: string)
    ensures |r| <= |s| && r == s[..|r|]
    ensures r == [] || !IsSpace(r[|r| - 1])
    ensures forall k :: |r| <= k < |s| ==> IsSpace(s[k])
  {
    if |s| > 0 && IsSpace(s[|s| - 1]) then StripRight(s[..|s| - 1]) else s
  }

  /**
   * Python's `s.strip()`: the longest middle part of `s` that neither starts
   * nor ends with whitespace (StripIsTrimmedSlice states what is cut off).
   */
  function Strip(s: string): (r: string)
    ensures |r| <= |s|
    ensures IsStripped(r)
  {
    StripRight(StripLeft(s))
  }

  /**
   * `Strip(s)` is the slice of `s` that starts after its leading whitespace,
   * and everything cut off on either side is whitespace.
   */
  lemma {:induction false} StripIsTrimmedSlice(s: string)
    ensures var i := |s| - |StripLeft(s)|;
      i + |Strip(s)| <= |s| && Strip(s) == s[i..i + |Strip(s)|]
      && (forall k :: 0 <= k < i ==> IsSpace(s[k]))
      && (forall k :: i + |Strip(s)| <= k < |s| ==> IsSpace(s[k]))
  {
    var l := StripLeft(s);
    var r := StripRight(l);
    var i := |s| - |l|;
    assert l == s[i..];
    assert r == l[..|r|];
    forall k | i + |r| <= k < |s|
      ensures IsSpace(s[k])
    {
      assert s[k] == l[k - i];
    }
  }

  /** Neither end of `s` is whitespace. */
  predicate IsStripped(s: string) {
    s == [] || (!IsSpace(s[0]) && !IsSpace(s[|s| - 1]))
  }

  /** A string that neither starts nor ends with whitespace is its own strip. */
  lemma StrippedIsFixed(s: string)
    requires IsStripped(s)
    ensures Strip(s) == s
  {
    assert StripLeft(s) == s;
    assert StripRight(s) == s;
  }

  /** Stripping only removes characters: a character absent from `s` is absent from `Strip(s)`. */
  lemma StripKeepsOut(s: string, c: char)
    requires c !in s
    ensures c !in Strip(s)
  {
    var l := StripLeft(s);
    assert l == s[|s| - |l|..];
    var r := StripRight(l);
    assert r == l[..|r|];
  }

  /** Stripping twice strips nothing more. */
  lemma StripIdempotent(s: string)
    ensures Strip(Strip(s)) == Strip(s)
  {
    StrippedIsFixed(Strip(s));
  }

  /** Python's `c.lower()` on ASCII letters; every other character is unchanged. */
  function LowerChar(c: char): char {
    if 'A' <= c <= 'Z' then (c as int + 32) as char else c
  }

  /**
   * Python's `s.lower()`. The same fold stands for SQL's case-insensitive
   * matching (`iexact`, `istartswith`, `icontains`).
   */
  function Lower(s: string): string {
    seq(|s|, k requires 0 <= k < |s| => LowerChar(s[k]))
  }

  /** Lowering changes only letters: a non-letter is absent from `Lower(s)` iff it is absent from `s`. */
  lemma LowerKeepsOut(s: string, c: char)
    requires !('A' <= c <= 'Z') && !('a' <= c <= 'z')
    ensures c in Lower(s) <==> c in s
  {
    if c in s {
      var k :| 0 <= k < |s| && s[k] == c;
      assert Lower(s)[k] == c;
    }
  }

  /** Lowering keeps a stripped string stripped: whitespace is not a letter. */
  lemma LowerKeepsStripped(s: string)
    requires IsStripped(s)
    ensures IsStripped(Lower(s)) && |Lower(s)| == |s|
  {
  }

  /** Lowering twice lowers nothing more. */
  lemma LowerIdempotent(s: string)
    ensures Lower(Lower(s)) == Lower(s)
  {
  }

  /** Python's `s.startswith(p)`. */
  predicate StartsWith(s: string, p: string) {
    |p| <= |s| && s[..|p|] == p
  }

  /** `sub` occurs in `s` starting at position `i`. */
  predicate OccursAt(s: string, sub: string, i: int) {
    0 <= i && i + |sub| <= |s| && s[i..i + |sub|] == sub
  }

  /** Python's `sub in s`. */
  predicate Contains(s: string, sub: string) {
    exists i :: 0 <= i <= |s| && OccursAt(s, sub, i)
  }

  /** A prefix is a substring. */
  lemma StartsWithContains(s: string, p: string)
    requires StartsWith(s, p)
    ensures Contains(s, p)
  {
    assert OccursAt(s, p, 0);
  }

  /** SQL `istartswith`. */
  predicate IStartsWith(s: string, v: string) {
    StartsWith(Lower(s), Lower(v))
  }

  /** SQL `icontains`. */
  predicate IContains(s: string, v: string) {
    Contains(Lower(s), Lower(v))
  }

  /** Python's `str(b)` for a bool. */
  function BoolText(b: bool): string {
    if b then "True" else "False"
  }

  predicate IsDigit(c: char) {
    '0' <= c <= '9'
  }

  predicate IsDigits(s: string) {
    |s| > 0 && forall k :: 0 <= k < |s| ==> IsDigit(s[k])
  }

  function DigitValue(c: char): nat
    requires IsDigit(c)
  {
    c as int - '0' as int
  }

  /** The value of a run of decimal digits. */
  function DigitsValue(s: string): nat
    requires forall k :: 0 <= k < |s| ==> IsDigit(s[k])
  {
    if |s| == 0 then 0 else DigitsValue(s[..|s| - 1]) * 10 + DigitValue(s[|s| - 1])
  }

  /**
   * Python's `int(s)` on a string: surrounding whitespace, an optional sign
   * and at least one decimal digit; anything else is a ValueError (None here).
   */
  function ParseInt(s: string): Option<int> {
    var t := Strip(s);
    if |t| > 0 && (t[0] == '-' || t[0] == '+') && IsDigits(t[1..]) then
      Some(if t[0] == '-' then 0 - DigitsValue(t[1..]) else DigitsValue(t[1..]))
    else if IsDigits(t) then Some(DigitsValue(t))
    else None
  }

  /** The decimal digits of a natural number. */
  function NatText(n: nat): (s: string)
    ensures IsDigits(s)
  {
    if n < 10 then [('0' as int + n) as char] else NatText(n / 10) + [('0' as int + n % 10) as char]
  }

  /** Python's `str(n)` for an int. */
  function IntText(n: int): string {
    if n < 0 then "-" + NatText(-n) else NatText(n)
  }

  lemma {:induction false} NatTextValue(n: nat)
    ensures DigitsValue(NatText(n)) == n
  {
    if n >= 10 {
      var s := NatText(n);
      NatTextValue(n / 10);
      assert s[..|s| - 1] == NatText(n / 10);
    }
  }

  /** `int(str(n)) == n`: the decimal text of an integer reads back as that integer. */
  lemma ParseIntText(n: int)
    ensures ParseInt(IntText(n)) == Some(n)
  {
    var s := IntText(n);
    StrippedIsFixed(s);
    if n < 0 {
      NatTextValue(-n);
      assert s[1..] == NatText(-n);
    } else {
      NatTextValue(n);
    }
  }

  /** `int()` applied to each piece; None where it raises ValueError. */
  function ParseEach(pieces: seq<string>): (parsed: seq<Option<int>>)
    ensures |parsed| == |pieces|
  {
    seq(|pieces|, k requires 0 <= k < |pieces| => ParseInt(pieces[k]))
  }

  /** Every piece is accepted by `int()`. */
  predicate AllInts(parsed: seq<Option<int>>) {
    |parsed| == 0 || (parsed[0].Some? && AllInts(parsed[1..]))
  }

  /** The values of the leading pieces that `int()` accepts, up to the first it refuses. */
  function LeadingInts(parsed: seq<Option<int>>): (ids: seq<int>)
    ensures |ids| <= |parsed|
  {
    if |parsed| == 0 then []
    else match parsed[0]
      case None => []
      case Some(v) => [v] + LeadingInts(parsed[1..])
  }

  /** `AllInts` is the per-piece condition, and the leading values are then all the pieces' values. */
  lemma {:induction false} AllIntsAt(parsed: seq<Option<int>>)
    ensures AllInts(parsed) <==> forall k :: 0 <= k < |parsed| ==> parsed[k].Some?
    ensures AllInts(parsed) ==> (|LeadingInts(parsed)| == |parsed|
      && forall k :: 0 <= k < |parsed| ==> LeadingInts(parsed)[k] == parsed[k].value)
  {
    if |parsed| > 0 {
      AllIntsAt(parsed[1..]);
      assert forall k :: 1 <= k < |parsed| ==> parsed[1..][k - 1] == parsed[k];
    }
  }

  /** The leading values stop exactly at the first piece `int()` refuses. */
  lemma {:induction false} LeadingIntsStop(parsed: seq<Option<int>>)
    ensures forall k :: 0 <= k < |LeadingInts(parsed)| ==> parsed[k] == Some(LeadingInts(parsed)[k])
    ensures |LeadingInts(parsed)| < |parsed| <==> !AllInts(parsed)
    ensures |LeadingInts(parsed)| < |parsed| ==> parsed[|LeadingInts(parsed)|].None?
  {
    if |parsed| > 0 && parsed[0].Some? {
      var rest := parsed[1..];
      LeadingIntsStop(rest);
      assert forall k :: 1 <= k < |parsed| ==> rest[k - 1] == parsed[k];
    }
  }

  /** The parse of a list, one piece at a time: the first piece, then the parse of the rest. */
  lemma ParseEachCons(pieces: seq<string>)
    requires pieces != []
    ensures AllInts(ParseEach(pieces)) <==> ParseInt(pieces[0]).Some? && AllInts(ParseEach(pieces[1..]))
    ensures ParseInt(pieces[0]).None? ==> LeadingInts(ParseEach(pieces)) == []
    ensures ParseInt(pieces[0]).Some? ==>
      LeadingInts(ParseEach(pieces)) == [ParseInt(pieces[0]).value] + LeadingInts(ParseEach(pieces[1..]))
  {
    var parsed := ParseEach(pieces);
    assert parsed[0] == ParseInt(pieces[0]);
    assert parsed[1..] == ParseEach(pieces[1..]);
  }

  /** After `k` pieces, `ids` are the leading values read so far, and the rest decide the others. */
  ghost predicate ReadSoFar(parsed: seq<Option<int>>, k: nat, ids: seq<int>)
    requires k <= |parsed|
  {
    LeadingInts(parsed) == ids + LeadingInts(parsed[k..]) && AllInts(parsed) == AllInts(parsed[k..])
  }

  /** One piece further into the pieces: it either ends the leading values or extends them. */
  lemma LeadingStep(parsed: seq<Option<int>>, k: nat, ids: seq<int>, id: Option<int>)
    requires k < |parsed| && parsed[k] == id
    requires ReadSoFar(parsed, k, ids)
    ensures id.None? ==> LeadingInts(parsed) == ids && !AllInts(parsed)
    ensures id.Some? ==> ReadSoFar(parsed, k + 1, ids + [id.value])
  {
    var rest := parsed[k..];
    assert rest[1..] == parsed[k + 1..];
    if id.Some? {
      assert LeadingInts(rest) == [id.value] + LeadingInts(rest[1..]);
      assert ids + ([id.value] + LeadingInts(rest[1..])) == (ids + [id.value]) + LeadingInts(rest[1..]);
    }
  }

  /** The parse of a list in terms of its pieces: it succeeds iff every piece parses, and then yields their values in order. */
  lemma ParseEachValues(pieces: seq<string>)
    ensures AllInts(ParseEach(pieces)) <==> forall k :: 0 <= k < |pieces| ==> ParseInt(pieces[k]).Some?
    ensures AllInts(ParseEach(pieces)) ==> (|LeadingInts(ParseEach(pieces))| == |pieces|
      && forall k :: 0 <= k < |pieces| ==> LeadingInts(ParseEach(pieces))[k] == ParseInt(pieces[k]).value)
  {
    var parsed := ParseEach(pieces);
    AllIntsAt(parsed);
    assert forall k :: 0 <= k < |pieces| ==> parsed[k] == ParseInt(pieces[k]);
  }

  /** Integers written out in decimal parse back to themselves, all of them, in order. */
  lemma ParseEachTexts(ns: seq<int>)
    ensures AllInts(ParseEach(seq(|ns|, k requires 0 <= k < |ns| => IntText(ns[k]))))
    ensures LeadingInts(ParseEach(seq(|ns|, k requires 0 <= k < |ns| => IntText(ns[k])))) == ns
  {
    var texts := seq(|ns|, k requires 0 <= k < |ns| => IntText(ns[k]));
    forall k | 0 <= k < |ns|
      ensures ParseInt(texts[k]) == Some(ns[k])
    {
      ParseIntText(ns[k]);
    }
    ParseEachValues(texts);
  }
}

=== FILE: tag_helpers.dfy ===
/**
 * The data migration helpers for tags: `collapse_case` merges tags whose
 * names differ only in letter case into the first of them (in the table's
 * order), rebinding entries to the survivor; `lowercase_all` then lowers
 * every remaining name.
 */
module TagHelpers {

  import opened Python
  import opened Strings
  import opened Store
  import opened Tags

  /** The case-folded names of the tags in `tags`. */
  ghost function LowerNames(tags: set<TagId>, names: map<TagId, string>): set<string> {
    set t | t in tags && t in names :: Lower(names[t])
  }

  /** No two different tags have names equal ignoring case. */
  ghost predicate CaseDistinct(names: map<TagId, string>) {
    forall a, b :: a in names && b in names && a != b ==> Lower(names[a]) != Lower(names[b])
  }

  /** Some tag's name folds to `l`. */
  ghost predicate HasVariant(names: map<TagId, string>, l: string) {
    exists s :: s in names && Lower(names[s]) == l
  }

  /** `small` keeps some of the tags of `big`, with their names. */
  ghost predicate SubTable(small: map<TagId, string>, big: map<TagId, string>) {
    forall t :: t in small ==> t in big && small[t] == big[t]
  }

  /** `order` lists every tag exactly once: the rows of `Tag.objects.all()`. */
  predicate IsOrdering(order: seq<TagId>, names: map<TagId, string>) {
    (forall k :: 0 <= k < |order| ==> order[k] in names)
    && (forall t :: t in names ==> t in order)
    && (forall i, j :: 0 <= i < j < |order| ==> order[i] != order[j])
  }

  /** No tag listed before position `k` has a name equal to `order[k]`'s ignoring case. */
  ghost predicate FirstOfGroup(order: seq<TagId>, names: map<TagId, string>, k: int)
    requires 0 <= k < |order|
    requires forall j :: 0 <= j < |order| ==> order[j] in names
  {
    forall j :: 0 <= j < k ==> Lower(names[order[j]]) != Lower(names[order[k]])
  }

  /** An entry's tags after `dupe` is merged into `master`: `dupe` replaced by `master`. */
  function Rebound(tags: set<TagId>, dupe: TagId, master: TagId): (r: set<TagId>)
    requires dupe != master
    ensures dupe !in r
    ensures (master in r <==> master in tags || dupe in tags)
    ensures forall t :: t != dupe && t != master ==> (t in r <==> t in tags)
  {
    if dupe in tags then tags - {dupe} + {master} else tags - {dupe}
  }

  /** Merging a tag into a case variant of it changes no entry's case-folded tag names. */
  lemma MergeKeepsLowerNames(tags: set<TagId>, names: map<TagId, string>, dupe: TagId, master: TagId)
    requires dupe in names && master in names && dupe != master
    requires Lower(names[dupe]) == Lower(names[master])
    requires tags <= names.Keys
    ensures LowerNames(Rebound(tags, dupe, master), names - {dupe}) == LowerNames(tags, names)
  {
    var after := Rebound(tags, dupe, master);
    var rest := names - {dupe};
    forall l | l in LowerNames(tags, names)
      ensures l in LowerNames(after, rest)
    {
      var t :| t in tags && t in names && Lower(names[t]) == l;
      if t == dupe {
        assert master in after && master in rest && Lower(rest[master]) == l;
      } else {
        assert t in after && t in rest && Lower(rest[t]) == l;
      }
    }
    forall l | l in LowerNames(after, rest)
      ensures l in LowerNames(tags, names)
    {
      var t :| t in after && t in rest && Lower(rest[t]) == l;
      if t == master && master !in tags {
        assert dupe in tags && Lower(names[dupe]) == l;
      } else {
        assert t in tags && Lower(names[t]) == l;
      }
    }
  }

  /** An entry's tags after `entry.tags.add(master)` for an entry tagged with `dupe`. */
  function Tagged(tags: set<TagId>, dupe: TagId, master: TagId): set<TagId> {
    if dupe in tags then tags + {master} else tags
  }

  /** `entries` lists every entry exactly once: the rows of the entry table. */
  predicate ListsEntries(entries: seq<EntryId>, entryTags: map<EntryId, set<TagId>>) {
    (forall j :: 0 <= j < |entries| ==> entries[j] in entryTags)
    && (forall e :: e in entryTags ==> e in entries)
    && (forall i, j :: 0 <= i < j < |entries| ==> entries[i] != entries[j])
  }

  /**
   * The inner step of `collapse_case`: every entry tagged with `dupe` is also
   * tagged with `master`, then `dupe` is deleted, which drops it from every entry.
   */
  method MergeInto(store: TagStore, entries: seq<EntryId>, dupe: TagId, master: TagId)
    requires store.Valid() && ListsEntries(entries, store.entryTags)
    requires dupe in store.names && master in store.names && dupe != master
    modifies store`names, store`entryTags
    ensures store.Valid()
    ensures store.names == old(store.names) - {dupe}
    ensures store.entryTags.Keys == old(store.entryTags).Keys
    ensures forall e :: e in store.entryTags ==> store.entryTags[e] == Rebound(old(store.entryTags)[e], dupe, master)
  {
    // `for entry in Entry.objects.filter(tags__name=dupe.name): entry.tags.add(master)`
    var k := 0;
    while k < |entries|
      invariant 0 <= k <= |entries|
      invariant store.names == old(store.names)
      invariant store.entryTags.Keys == old(store.entryTags).Keys
      invariant TagsExist(store.entryTags, store.names)
      invariant forall j :: 0 <= j < k ==> store.entryTags[entries[j]] == Tagged(old(store.entryTags)[entries[j]], dupe, master)
      invariant forall j :: k <= j < |entries| ==> store.entryTags[entries[j]] == old(store.entryTags)[entries[j]]
    {
      var entry := entries[k];
      if dupe in store.entryTags[entry] {
        store.entryTags := store.entryTags[entry := store.entryTags[entry] + {master}];
      }
      k := k + 1;
    }
    ghost var added := store.entryTags;
    store.names := store.names - {dupe};
    store.entryTags := map e | e in store.entryTags :: store.entryTags[e] - {dupe};
    forall e | e in store.entryTags
      ensures store.entryTags[e] == Rebound(old(store.entryTags)[e], dupe, master)
    {
      var j :| 0 <= j < |entries| && entries[j] == e;
      assert added[e] == Tagged(old(store.entryTags)[e], dupe, master);
    }
  }

  /**
   * What `collapse_case` has established after handling the first `i` tags of
   * `order`; `snapshot` is the table as read at the start, `duplicates` the
   * folded names recorded so far.
   */
  ghost predicate Collapsed(names: map<TagId, string>, entryTags: map<EntryId, set<TagId>>,
                            entryTags0: map<EntryId, set<TagId>>, snapshot: map<TagId, string>,
                            order: seq<TagId>, duplicates: seq<string>, i: int)
    requires IsOrdering(order, snapshot)
    requires 0 <= i <= |order|
  {
    SubTable(names, snapshot)
    && entryTags.Keys == entryTags0.Keys
    && (forall e :: e in entryTags ==> LowerNames(entryTags[e], names) == LowerNames(entryTags0[e], snapshot))
    // every deleted tag's folded name is recorded ...
    && (forall t :: t in snapshot && t !in names ==> Lower(snapshot[t]) in duplicates)
    // ... and every recorded folded name still has a tag
    && (forall d :: d in duplicates ==> HasVariant(names, d))
    // a tag whose folded name is recorded has no remaining case variant
    && (forall a, b :: a in names && b in names && a != b && Lower(names[a]) in duplicates ==>
          Lower(names[a]) != Lower(names[b]))
    // a remaining tag handled already has no remaining case variant
    && (forall k :: 0 <= k < i && order[k] in names ==>
          forall b :: b in names && b != order[k] ==> Lower(names[b]) != Lower(names[order[k]]))
    // the first tag of every case group is never deleted
    && (forall k :: 0 <= k < |order| && FirstOfGroup(order, snapshot, k) ==> order[k] in names)
  }

  /**
   * What the inner loop of `collapse_case` keeps while it merges the case
   * variants of `master` (folded name `lm`) into it: `names0` and `duplicates`
   * are the table and the recorded names when the group was started.
   */
  ghost predicate Absorbing(names: map<TagId, string>, entryTags: map<EntryId, set<TagId>>,
                            names0: map<TagId, string>, entryTags0: map<EntryId, set<TagId>>,
                            snapshot: map<TagId, string>, master: TagId, lm: string,
                            duplicates: seq<string>, recorded: seq<string>)
  {
    SubTable(names, names0)
    && master in names
    && entryTags.Keys == entryTags0.Keys
    && (forall e :: e in entryTags ==> LowerNames(entryTags[e], names) == LowerNames(entryTags0[e], snapshot))
    && (forall t :: t in names0 && t !in names ==> Lower(names0[t]) == lm && lm in recorded)
    && (forall d :: d in recorded ==> d in duplicates || d == lm)
    && duplicates <= recorded
  }

  /** One duplicate of the group: its entries move to `master`, it is deleted, and its folded name recorded. */
  method Absorb(store: TagStore, entries: seq<EntryId>, dupe: TagId, master: TagId, lm: string,
                ghost names0: map<TagId, string>, ghost entryTags0: map<EntryId, set<TagId>>,
                ghost snapshot: map<TagId, string>, ghost duplicates: seq<string>, recorded: seq<string>)
    returns (recorded': seq<string>)
    requires store.Valid()
    requires Absorbing(store.names, store.entryTags, names0, entryTags0, snapshot, master, lm, duplicates, recorded)
    requires ListsEntries(entries, entryTags0)
    requires dupe in store.names && dupe != master && Lower(store.names[dupe]) == lm
    requires Lower(store.names[master]) == lm
    modifies store`names, store`entryTags
    ensures store.Valid()
    ensures Absorbing(store.names, store.entryTags, names0, entryTags0, snapshot, master, lm, duplicates, recorded')
    ensures store.names == old(store.names) - {dupe}
  {
    ghost var before := store.names;
    ghost var tagsBefore := store.entryTags;
    MergeInto(store, entries, dupe, master);
    forall e | e in store.entryTags
      ensures LowerNames(store.entryTags[e], store.names) == LowerNames(entryTags0[e], snapshot)
    {
      MergeKeepsLowerNames(tagsBefore[e], before, dupe, master);
    }
    recorded' := recorded;
    if lm !in recorded {
      recorded' := recorded + [lm];
    }
  }

  /**
   * The inner loop of `collapse_case`: every remaining tag of `order` that is
   * a case variant of `master` but not spelt like it is absorbed into it.
   */
  method AbsorbVariants(store: TagStore, entries: seq<EntryId>, order: seq<TagId>, master: TagId, lm: string,
                        ghost names0: map<TagId, string>, ghost entryTags0: map<EntryId, set<TagId>>,
                        ghost snapshot: map<TagId, string>, duplicates: seq<string>)
    returns (recorded: seq<string>)
    requires store.Valid()
    requires Absorbing(store.names, store.entryTags, names0, entryTags0, snapshot, master, lm, duplicates, duplicates)
    requires ListsEntries(entries, entryTags0)
    requires Lower(store.names[master]) == lm
    requires forall t :: t in store.names ==> t in order
    modifies store`names, store`entryTags
    ensures store.Valid()
    ensures Absorbing(store.names, store.entryTags, names0, entryTags0, snapshot, master, lm, duplicates, recorded)
    ensures store.names[master] == old(store.names)[master]
    ensures forall b :: b in store.names && b != master ==> Lower(store.names[b]) != lm
  {
    recorded := duplicates;
    var j := 0;
    while j < |order|
      invariant 0 <= j <= |order|
      invariant store.Valid()
      invariant Absorbing(store.names, store.entryTags, names0, entryTags0, snapshot, master, lm, duplicates, recorded)
      invariant SubTable(store.names, old(store.names))
      invariant forall jj :: 0 <= jj < j && order[jj] in store.names && order[jj] != master ==>
        Lower(store.names[order[jj]]) != lm
    {
      var tag := order[j];
      // `Tag.objects.filter(name__iexact=master.name).exclude(name=master.name)`
      if tag in store.names && Lower(store.names[tag]) == lm && store.names[tag] != store.names[master] {
        recorded := Absorb(store, entries, tag, master, lm, names0, entryTags0, snapshot, duplicates, recorded);
      }
      j := j + 1;
    }
    // every remaining tag is listed in `order`, so no case variant of the master remains
    forall b | b in store.names && b != master
      ensures Lower(store.names[b]) != lm
    {
      var jb :| 0 <= jb < |order| && order[jb] == b;
    }
  }

  /**
   * One turn of the outer loop of `collapse_case` for a tag whose folded name
   * is not recorded yet: merge every other remaining case variant of it into it.
   */
  method CollapseGroup(store: TagStore, entries: seq<EntryId>, order: seq<TagId>, snapshot: map<TagId, string>,
                       ghost entryTags0: map<EntryId, set<TagId>>, duplicates: seq<string>, i: int)
    returns (recorded: seq<string>)
    requires IsOrdering(order, snapshot) && 0 <= i < |order|
    requires store.Valid()
    requires Collapsed(store.names, store.entryTags, entryTags0, snapshot, order, duplicates, i)
    requires Lower(snapshot[order[i]]) !in duplicates
    requires ListsEntries(entries, entryTags0)
    modifies store`names, store`entryTags
    ensures store.Valid()
    ensures Collapsed(store.names, store.entryTags, entryTags0, snapshot, order, recorded, i + 1)
  {
    var master := order[i];
    var lm := Lower(snapshot[master]);
    ghost var names0 := store.names;
    ghost var tags0 := store.entryTags;
    assert master in store.names && store.names[master] == snapshot[master];
    assert forall t :: t in store.names ==> t in order;
    recorded := AbsorbVariants(store, entries, order, master, lm, names0, entryTags0, snapshot, duplicates);
    CollapsedAfterGroup(store.names, store.entryTags, entryTags0, snapshot, order, duplicates, recorded, i, names0, tags0);
  }

  /** A tag whose folded name is already recorded needs no work: it has no remaining variant. */
  lemma SkipKeepsCollapsed(names: map<TagId, string>, entryTags: map<EntryId, set<TagId>>,
                           entryTags0: map<EntryId, set<TagId>>, snapshot: map<TagId, string>,
                           order: seq<TagId>, duplicates: seq<string>, i: int)
    requires IsOrdering(order, snapshot) && 0 <= i < |order|
    requires Collapsed(names, entryTags, entryTags0, snapshot, order, duplicates, i)
    requires Lower(snapshot[order[i]]) in duplicates
    ensures Collapsed(names, entryTags, entryTags0, snapshot, order, duplicates, i + 1)
  {
    var m := order[i];
    if m in names {
      assert names[m] == snapshot[m];
      forall b | b in names && b != m
        ensures Lower(names[b]) != Lower(names[m])
      {
      }
    }
  }

  /** When the walk is over, no two remaining tags are case variants and every folded name survives. */
  lemma CollapsedAtEnd(names: map<TagId, string>, entryTags: map<EntryId, set<TagId>>,
                       entryTags0: map<EntryId, set<TagId>>, snapshot: map<TagId, string>,
                       order: seq<TagId>, duplicates: seq<string>)
    requires IsOrdering(order, snapshot)
    requires Collapsed(names, entryTags, entryTags0, snapshot, order, duplicates, |order|)
    ensures CaseDistinct(names)
    ensures forall t :: t in snapshot ==> HasVariant(names, Lower(snapshot[t]))
  {
    forall a, b | a in names && b in names && a != b
      ensures Lower(names[a]) != Lower(names[b])
    {
      var ka :| 0 <= ka < |order| && order[ka] == a;
    }
    forall t | t in snapshot
      ensures HasVariant(names, Lower(snapshot[t]))
    {
      if t in names {
        assert names[t] == snapshot[t];
      }
    }
  }

  /** After a group is merged into its master, the walk's invariant holds one position further. */
  lemma CollapsedAfterGroup(names: map<TagId, string>, entryTags: map<EntryId, set<TagId>>,
                            entryTags0: map<EntryId, set<TagId>>, snapshot: map<TagId, string>,
                            order: seq<TagId>, duplicates: seq<string>, recorded: seq<string>, i: int,
                            names0: map<TagId, string>, tags0: map<EntryId, set<TagId>>)
    requires IsOrdering(order, snapshot) && 0 <= i < |order|
    requires Collapsed(names0, tags0, entryTags0, snapshot, order, duplicates, i)
    requires Lower(snapshot[order[i]]) !in duplicates
    requires SubTable(names, names0) && order[i] in names
    requires forall t :: t in names0 && t !in names ==> Lower(names0[t]) == Lower(snapshot[order[i]]) && Lower(snapshot[order[i]]) in recorded
    requires forall d :: d in recorded ==> d in duplicates || d == Lower(snapshot[order[i]])
    requires forall d :: d in duplicates ==> d in recorded
    requires forall b :: b in names && b != order[i] ==> Lower(names[b]) != Lower(snapshot[order[i]])
    requires entryTags.Keys == entryTags0.Keys
    requires forall e :: e in entryTags ==> LowerNames(entryTags[e], names) == LowerNames(entryTags0[e], snapshot)
    ensures Collapsed(names, entryTags, entryTags0, snapshot, order, recorded, i + 1)
  {
    var m := order[i];
    var lm := Lower(snapshot[m]);
    assert names[m] == snapshot[m];
    forall t | t in snapshot && t !in names
      ensures Lower(snapshot[t]) in recorded
    {
      if t in names0 {
        assert names0[t] == snapshot[t];
      }
    }
    forall d | d in recorded
      ensures HasVariant(names, d)
    {
      if d != lm {
        var s :| s in names0 && Lower(names0[s]) == d;
        assert s in names;
      }
    }
    forall k | 0 <= k < |order| && FirstOfGroup(order, snapshot, k)
      ensures order[k] in names
    {
      assert order[k] in names0;
    }
  }

  /**
   * `collapse_case`: walks the tags in `order` (the table read once, at the
   * start). A tag whose folded name was already recorded is skipped; any
   * other tag becomes the master of the remaining tags that equal it ignoring
   * case, each of which is merged into it and recorded.
   */
  method CollapseCase(store: TagStore, entries: seq<EntryId>, order: seq<TagId>)
    requires store.Valid() && ListsEntries(entries, store.entryTags)
    requires IsOrdering(order, store.names)
    modifies store`names, store`entryTags
    ensures store.Valid()
    ensures CaseDistinct(store.names)
    ensures SubTable(store.names, old(store.names))
    ensures forall k :: 0 <= k < |order| && FirstOfGroup(order, old(store.names), k) ==> order[k] in store.names
    ensures forall t :: t in old(store.names) ==> HasVariant(store.names, Lower(old(store.names)[t]))
    ensures store.entryTags.Keys == old(store.entryTags).Keys
    ensures forall e :: e in store.entryTags ==>
      LowerNames(store.entryTags[e], store.names) == LowerNames(old(store.entryTags)[e], old(store.names))
  {
    var snapshot := store.names;
    var duplicates: seq<string> := [];
    var i := 0;
    while i < |order|
      invariant 0 <= i <= |order|
      invariant store.Valid()
      invariant Collapsed(store.names, store.entryTags, old(store.entryTags), snapshot, order, duplicates, i)
    {
      var master := order[i];
      // `master.name` is the name read with the table, even for a tag deleted since
      if Lower(snapshot[master]) !in duplicates {
        duplicates := CollapseGroup(store, entries, order, snapshot, old(store.entryTags), duplicates, i);
      } else {
        SkipKeepsCollapsed(store.names, store.entryTags, old(store.entryTags), snapshot, order, duplicates, i);
      }
      i := i + 1;
    }
    CollapsedAtEnd(store.names, store.entryTags, old(store.entryTags), snapshot, order, duplicates);
  }

  /** A case variant of a name cannot be the name of a tag that folds differently. */
  lemma LoweredNameFree(names: map<TagId, string>, mid: map<TagId, string>, t: TagId)
    requires CaseDistinct(mid) && t in names && names.Keys == mid.Keys
    requires forall u :: u in names ==> Lower(names[u]) == Lower(mid[u])
    ensures forall u :: u in names && u != t ==> names[u] != Lower(names[t])
  {
    forall u | u in names && u != t
      ensures names[u] != Lower(names[t])
    {
      LowerIdempotent(names[t]);
    }
  }

  /** Folding names case by case keeps them pairwise distinct ignoring case. */
  lemma CaseDistinctByFold(names: map<TagId, string>, mid: map<TagId, string>)
    requires CaseDistinct(mid) && names.Keys == mid.Keys
    requires forall u :: u in names ==> Lower(names[u]) == Lower(mid[u])
    ensures CaseDistinct(names)
  {
  }

  /** Some tag has the empty name (a name of blanks only, stripped on save). */
  ghost predicate HasEmptyName(names: map<TagId, string>) {
    exists t :: t in names && names[t] == ""
  }

  /** A visit of every tag in `order` that met no empty name met none at all. */
  lemma VisitedAll(names: map<TagId, string>, order: seq<TagId>)
    requires forall t :: t in names ==> t in order
    requires forall j :: 0 <= j < |order| && order[j] in names ==> names[order[j]] != ""
    ensures !HasEmptyName(names)
  {
    forall t | t in names
      ensures names[t] != ""
    {
      var j :| 0 <= j < |order| && order[j] == t;
    }
  }

  /**
   * One step of `lowercase_all`: `tag.name = tag.name.lower(); tag.save()`.
   * The save fails only on the empty name.
   */
  method LowerOne(store: TagStore, t: TagId, ghost mid: map<TagId, string>) returns (r: Result<TagId>)
    requires store.Valid() && t in store.names
    requires CaseDistinct(mid) && store.names.Keys == mid.Keys
    requires forall u :: u in store.names ==> Lower(store.names[u]) == Lower(mid[u])
    modifies store`names, store`nextId
    ensures store.Valid()
    ensures r.Raise? <==> old(store.names)[t] == ""
    ensures r.Raise? ==> store.names == old(store.names)
    ensures r.Ok? ==> store.names == old(store.names)[t := Lower(old(store.names)[t])]
  {
    var lowered := Lower(store.names[t]);
    LowerKeepsOut(store.names[t], ',');
    LowerKeepsStripped(store.names[t]);
    StrippedIsFixed(lowered);
    LoweredNameFree(store.names, mid, t);
    r := store.Save(Some(t), lowered);
  }

  /**
   * The loop of `lowercase_all`: every tag of `order` still in the table is
   * renamed to its lower-case name and saved, until a save fails.
   */
  method LowerEach(store: TagStore, order: seq<TagId>) returns (r: Result<()>)
    requires store.Valid() && CaseDistinct(store.names)
    requires forall t :: t in store.names ==> t in order
    requires forall i, j :: 0 <= i < j < |order| ==> order[i] != order[j]
    modifies store`names, store`nextId
    ensures store.Valid()
    ensures store.names.Keys == old(store.names).Keys
    ensures forall u :: u in store.names ==> Lower(store.names[u]) == Lower(old(store.names)[u])
    ensures r.Ok? <==> !HasEmptyName(old(store.names))
    ensures r.Ok? ==> forall u :: u in store.names ==> store.names[u] == Lower(old(store.names)[u])
  {
    ghost var mid := store.names;
    var k := 0;
    while k < |order|
      invariant 0 <= k <= |order|
      invariant store.Valid()
      invariant store.names.Keys == mid.Keys
      invariant forall u :: u in store.names ==> Lower(store.names[u]) == Lower(mid[u])
      invariant forall j :: 0 <= j < k && order[j] in mid ==> store.names[order[j]] == Lower(mid[order[j]]) && mid[order[j]] != ""
      invariant forall j :: k <= j < |order| && order[j] in mid ==> store.names[order[j]] == mid[order[j]]
    {
      var t := order[k];
      if t in store.names {
        var saved := LowerOne(store, t, mid);
        if saved.Raise? {
          assert mid[t] == "" && t in mid;
          return Raise(saved.error);
        }
        LowerIdempotent(mid[t]);
      }
      k := k + 1;
    }
    VisitedAll(mid, order);
    r := Ok(());
  }

  /** Names that fold alike give every entry the same case-folded tag names. */
  lemma SameFoldSameLowerNames(tags: set<TagId>, names: map<TagId, string>, mid: map<TagId, string>)
    requires names.Keys == mid.Keys
    requires forall u :: u in names ==> Lower(names[u]) == Lower(mid[u])
    ensures LowerNames(tags, names) == LowerNames(tags, mid)
  {
  }

  /** Names that fold alike have the same case variants. */
  lemma SameFoldSameVariants(names: map<TagId, string>, mid: map<TagId, string>, l: string)
    requires names.Keys == mid.Keys
    requires forall u :: u in names ==> Lower(names[u]) == Lower(mid[u])
    requires HasVariant(mid, l)
    ensures HasVariant(names, l)
  {
    var s :| s in mid && Lower(mid[s]) == l;
    assert s in names && Lower(names[s]) == l;
  }

  /** The empty name is its own only case variant, so collapsing keeps it. */
  lemma EmptyNameKept(names: map<TagId, string>, old0: map<TagId, string>)
    requires SubTable(names, old0)
    requires forall t :: t in old0 ==> HasVariant(names, Lower(old0[t]))
    ensures HasEmptyName(names) <==> HasEmptyName(old0)
  {
    if HasEmptyName(old0) {
      var t :| t in old0 && old0[t] == "";
      assert HasVariant(names, Lower(old0[t]));
      var s :| s in names && Lower(names[s]) == "";
      assert names[s] == "";
    }
    if HasEmptyName(names) {
      var s :| s in names && names[s] == "";
      assert old0[s] == "";
    }
  }

  /**
   * `lowercase_all`: `collapse_case`, then every remaining tag (the survivors,
   * in the table's order) is renamed to its lower-case name and saved. The
   * only save that can fail is that of a tag whose name is empty, which the
   * `blank` check refuses; the migration then stops with that error.
   */
  method LowercaseAll(store: TagStore, entries: seq<EntryId>, order: seq<TagId>) returns (r: Result<()>)
    requires store.Valid() && ListsEntries(entries, store.entryTags)
    requires IsOrdering(order, store.names)
    modifies store
    ensures store.Valid()
    ensures CaseDistinct(store.names)
    ensures store.entryTags.Keys == old(store.entryTags).Keys
    ensures forall e :: e in store.entryTags ==>
      LowerNames(store.entryTags[e], store.names) == LowerNames(old(store.entryTags)[e], old(store.names))
    ensures forall t :: t in store.names ==> t in old(store.names) && Lower(store.names[t]) == Lower(old(store.names)[t])
    ensures forall t :: t in old(store.names) ==> HasVariant(store.names, Lower(old(store.names)[t]))
    ensures r.Ok? <==> !HasEmptyName(old(store.names))
    ensures r.Ok? ==> forall t :: t in store.names ==> store.names[t] == Lower(old(store.names)[t])
  {
    CollapseCase(store, entries, order);
    ghost var mid := store.names;
    EmptyNameKept(mid, old(store.names));
    r := LowerEach(store, order);
    CaseDistinctByFold(store.names, mid);
    forall e | e in store.entryTags
      ensures LowerNames(store.entryTags[e], store.names) == LowerNames(old(store.entryTags)[e], old(store.names))
    {
      SameFoldSameLowerNames(store.entryTags[e], store.names, mid);
    }
    forall t | t in old(store.names)
      ensures HasVariant(store.names, Lower(old(store.names)[t]))
    {
      SameFoldSameVariants(store.names, mid, Lower(old(store.names)[t]));
    }
  }
}

=== FILE: tags.dfy ===
/**
 * The tag table. Saving a tag never stores a comma: a name holding commas
 * keeps its first term and creates one new tag per further term. Every
 * write is cleaned first (surrounding whitespace stripped) and validated
 * (not blank, at most 150 characters, unique).
 */
module Tags {

  import opened Python
  import opened Strings
  import opened Store

  type TagId = int

  const MaxNameLength := 150

  /** No two tags share a name (the column's unique constraint). */
  ghost predicate UniqueNames(names: map<TagId, string>) {
    forall a, b {:trigger names[a], names[b]} :: a in names && b in names && a != b ==> names[a] != names[b]
  }

  /** Every tag an entry uses exists. */
  ghost predicate TagsExist(entryTags: map<EntryId, set<TagId>>, names: map<TagId, string>) {
    forall e :: e in entryTags ==> entryTags[e] <= names.Keys
  }

  /** No name holds a comma or surrounding whitespace, or is longer than the column allows. */
  ghost predicate NormalNames(names: map<TagId, string>) {
    forall t :: t in names ==> ',' !in names[t] && IsStripped(names[t]) && |names[t]| <= MaxNameLength
  }

  lemma NormalAfterWrite(names: map<TagId, string>, id: TagId, raw: string)
    requires NormalNames(names) && ',' !in raw && |raw| <= MaxNameLength
    ensures NormalNames(names[id := Strip(raw)])
  {
    StripKeepsOut(raw, ',');
  }

  lemma UniqueAfterWrite(names: map<TagId, string>, id: TagId, v: string)
    requires UniqueNames(names)
    requires forall t :: t in names && t != id ==> names[t] != v
    ensures UniqueNames(names[id := v])
  {
  }

  /** The cleaned form of every term, in order. */
  function CleanAll(terms: seq<string>): (r: seq<string>)
    ensures |r| == |terms|
  {
    if |terms| == 0 then [] else [Strip(terms[0])] + CleanAll(terms[1..])
  }

  lemma {:induction false} CleanAllAt(terms: seq<string>, j: int)
    requires 0 <= j < |terms|
    ensures CleanAll(terms)[j] == Strip(terms[j])
  {
    if j > 0 {
      CleanAllAt(terms[1..], j - 1);
    }
  }

  /** The tags that creating `vals` in order adds: the `j`-th name under id `n0 + j`. */
  function NewTags(n0: TagId, vals: seq<string>): map<TagId, string>
  {
    if |vals| == 0 then map[] else NewTags(n0, vals[..|vals| - 1])[n0 + |vals| - 1 := vals[|vals| - 1]]
  }

  /** The `j`-th name is stored under id `n0 + j`. */
  lemma {:induction false} NewTagsAt(n0: TagId, vals: seq<string>, j: int)
    requires 0 <= j < |vals|
    ensures n0 + j in NewTags(n0, vals) && NewTags(n0, vals)[n0 + j] == vals[j]
  {
    var n := |vals|;
    if j < n - 1 {
      NewTagsAt(n0, vals[..n - 1], j);
      assert vals[..n - 1][j] == vals[j];
    }
  }

  /** The new ids are exactly `n0` up to `n0 + |vals|`. */
  lemma {:induction false} NewTagsRange(n0: TagId, vals: seq<string>)
    ensures forall t :: t in NewTags(n0, vals) ==> n0 <= t < n0 + |vals|
  {
    if |vals| > 0 {
      NewTagsRange(n0, vals[..|vals| - 1]);
    }
  }

  /** Creating one more name adds one tag under the next id. */
  lemma NewTagsStep(names0: map<TagId, string>, n0: TagId, vals: seq<string>, k: nat)
    requires k < |vals|
    ensures names0 + NewTags(n0, vals[..k + 1]) == (names0 + NewTags(n0, vals[..k]))[n0 + k := vals[k]]
  {
    assert vals[..k + 1][..k] == vals[..k];
  }

  /** Adding new tags under ids from `n0` on keeps every older tag, whose ids are below `n0`. */
  lemma NewTagsKeep(names0: map<TagId, string>, n0: TagId, vals: seq<string>)
    requires forall t :: t in names0 ==> t < n0
    ensures forall t :: t in names0 ==> t in names0 + NewTags(n0, vals) && (names0 + NewTags(n0, vals))[t] == names0[t]
    ensures forall t :: t in names0 + NewTags(n0, vals) && t !in names0 ==> n0 <= t < n0 + |vals|
  {
    NewTagsRange(n0, vals);
  }

  /**
   * After the names `cleaned` were created under ids `first` on and another
   * write went to `id` outside those ids, every one of them is still stored.
   */
  lemma CreatedStored(names0: map<TagId, string>, names: map<TagId, string>,
                      cleaned: seq<string>, first: TagId, id: TagId, v: string)
    requires !(first <= id < first + |cleaned|)
    requires names == (names0 + NewTags(first, cleaned))[id := v]
    ensures forall j :: 0 <= j < |cleaned| ==> cleaned[j] in names.Values
  {
    forall j | 0 <= j < |cleaned|
      ensures cleaned[j] in names.Values
    {
      NewTagsAt(first, cleaned, j);
      assert names[first + j] == cleaned[j];
    }
  }

  /** The cleaned further terms, all stored, are the further terms' stripped names. */
  lemma FurtherTermsStored(terms: seq<string>, names: map<TagId, string>)
    requires |terms| >= 1
    requires forall j :: 0 <= j < |terms| - 1 ==> CleanAll(terms[1..])[j] in names.Values
    ensures forall k :: 1 <= k < |terms| ==> Strip(terms[k]) in names.Values
  {
    forall k | 1 <= k < |terms|
      ensures Strip(terms[k]) in names.Values
    {
      CleanAllAt(terms[1..], k - 1);
      assert terms[1..][k - 1] == terms[k];
    }
  }

  /**
   * The table after a save of a name with commas, from the table before
   * (`names0`, fresh ids from `n0`): older tags other than the saved one are
   * kept, the new ids are the further terms' and possibly the saved tag's, and
   * every further term's cleaned name is stored.
   */
  lemma CommaSaveFacts(names0: map<TagId, string>, n0: TagId, terms: seq<string>, names: map<TagId, string>,
                       id: TagId, v: string, self: Option<TagId>)
    requires |terms| >= 1
    requires forall t :: t in names0 ==> t < n0
    requires self.Some? ==> id == self.value && id in names0
    requires self.None? ==> id == n0 + |terms| - 1
    requires names == (names0 + NewTags(n0, CleanAll(terms[1..])))[id := v]
    ensures forall t :: t in names0 && Some(t) != self ==> t in names && names[t] == names0[t]
    ensures forall t :: t in names && t !in names0 ==> n0 <= t < n0 + |terms| - 1 + (if self.None? then 1 else 0)
    ensures forall k :: 1 <= k < |terms| ==> Strip(terms[k]) in names.Values
  {
    NewTagsKeep(names0, n0, CleanAll(terms[1..]));
    CreatedStored(names0, names, CleanAll(terms[1..]), n0, id, v);
    FurtherTermsStored(terms, names);
  }

  lemma {:induction false} SubsetCard<T>(a: set<T>, b: set<T>)
    requires a <= b
    ensures |a| <= |b|
    decreases b
  {
    if a != {} {
      var x :| x in a;
      SubsetCard(a - {x}, b - {x});
    }
  }

  class TagStore {
    /** Tag id to tag name. */
    var names: map<TagId, string>
    /** Entry id to the ids of its tags. */
    var entryTags: map<EntryId, set<TagId>>
    var nextId: TagId

    /**
     * The table's guarantees: fresh ids, unique names, names as `save` writes
     * them (no comma, no surrounding whitespace, at most 150 characters), and
     * entries that only use existing tags.
     */
    ghost predicate Valid()
      reads this
    {
      (forall t :: t in names ==> t < nextId)
      && UniqueNames(names)
      && NormalNames(names)
      && TagsExist(entryTags, names)
    }

    constructor ()
      ensures Valid()
      ensures names == map[] && entryTags == map[]
    {
      names := map[];
      entryTags := map[];
      nextId := 1;
    }

    /** No tag other than `self` is called `name`. */
    predicate NameFree(self: Option<TagId>, name: string)
      reads this
    {
      forall t :: t in names && Some(t) != self ==> names[t] != name
    }

    /**
     * `full_clean` on a tag: the raw name must not be blank and must fit in
     * 150 characters; `clean` then strips it, and the stripped name must not
     * belong to another tag.
     */
    function FullClean(self: Option<TagId>, raw: string): (r: Result<string>)
      reads this
      ensures r.Ok? <==> raw != [] && |raw| <= MaxNameLength && NameFree(self, Strip(raw))
      ensures r.Ok? ==> r.value == Strip(raw)
      ensures r.Raise? ==> r.error.ValidationError?
    {
      if raw == [] then Raise(ValidationError("blank"))
      else if |raw| > MaxNameLength then Raise(ValidationError("max_length"))
      else if !NameFree(self, Strip(raw)) then Raise(ValidationError("unique"))
      else Ok(Strip(raw))
    }

    /** `full_clean()` followed by the database write of one comma-free name. */
    method Write(self: Option<TagId>, raw: string) returns (r: Result<TagId>)
      requires Valid()
      requires self.Some? ==> self.value in names
      requires ',' !in raw
      modifies this`names, this`nextId
      ensures Valid()
      ensures r.Ok? <==> old(FullClean(self, raw)).Ok?
      ensures r.Raise? ==> r == Raise(old(FullClean(self, raw)).error) && names == old(names) && nextId == old(nextId)
      ensures r.Ok? && self.Some? ==> r.value == self.value && nextId == old(nextId)
      ensures r.Ok? && self.None? ==> r.value == old(nextId) && nextId == old(nextId) + 1
      ensures r.Ok? ==> names == old(names)[r.value := Strip(raw)]
      ensures self.None? ==> forall t :: t in old(names) ==> t in names && names[t] == old(names)[t]
    {
      var cleaned := FullClean(self, raw);
      if cleaned.Raise? {
        return Raise(cleaned.error);
      }
      var id: TagId;
      if self.Some? {
        id := self.value;
      } else {
        id := nextId;
        nextId := nextId + 1;
      }
      UniqueAfterWrite(names, id, cleaned.value);
      NormalAfterWrite(names, id, raw);
      names := names[id := cleaned.value];
      return Ok(id);
    }

    /**
     * `Tag.objects.create(name=term)` for a comma-free term: a new tag, saved
     * under the next id, whose save is only its clean-and-write.
     */
    method CreateTerm(term: string) returns (r: Result<TagId>)
      requires Valid()
      requires ',' !in term
      modifies this`names, this`nextId
      ensures Valid()
      ensures r.Ok? ==> r.value == old(nextId) && nextId == old(nextId) + 1 && names == old(names)[old(nextId) := Strip(term)]
      ensures r.Raise? ==> r.error.ValidationError? && names == old(names) && nextId == old(nextId)
    {
      r := Write(None, term);
    }

    /**
     * The loop of `Tag.save` over the terms after the first: each becomes a new
     * tag through `Tag.objects.create`, which for a comma-free name is only its
     * clean-and-write. The first failure stops the loop, after the tags
     * created before it.
     */
    method CreateTerms(terms: seq<string>) returns (r: Result<()>)
      requires Valid()
      requires forall j :: 0 <= j < |terms| ==> ',' !in terms[j]
      modifies this`names, this`nextId
      ensures Valid()
      ensures old(nextId) <= nextId <= old(nextId) + |terms|
      ensures names == old(names) + NewTags(old(nextId), CleanAll(terms)[..nextId - old(nextId)])
      ensures r.Ok? ==> nextId == old(nextId) + |terms|
      ensures r.Raise? ==> r.error.ValidationError? && |terms| > 0
    {
      var k := 0;
      while k < |terms|
        invariant 0 <= k <= |terms|
        invariant Valid()
        invariant nextId == old(nextId) + k
        invariant names == old(names) + NewTags(old(nextId), CleanAll(terms)[..k])
      {
        ghost var before := names;
        var created := CreateTerm(terms[k]);
        if created.Raise? {
          return Raise(created.error);
        }
        CleanAllAt(terms, k);
        NewTagsStep(old(names), old(nextId), CleanAll(terms), k);
        k := k + 1;
      }
      return Ok(());
    }

    /**
     * `Tag.save`: `self` is the tag being saved (`None` for a new one). A
     * comma-free name is cleaned and written as it is; see SaveTerms for a
     * name with commas.
     */
    method Save(self: Option<TagId>, name: string) returns (r: Result<TagId>)
      requires Valid()
      requires self.Some? ==> self.value in names
      modifies this`names, this`nextId
      ensures Valid()
      ensures old(nextId) <= nextId
      ensures forall t :: t in old(names) && Some(t) != self ==> t in names && names[t] == old(names)[t]
      ensures r.Ok? ==> r.value in names && names[r.value] == Strip(Split(name, ',')[0])
      ensures r.Ok? && self.Some? ==> r.value == self.value
      ensures r.Raise? ==> r.error.ValidationError?
      ensures ',' in name && r.Ok? ==> forall k :: 1 <= k < |Split(name, ',')| ==> Strip(Split(name, ',')[k]) in names.Values
      ensures ',' !in name ==> (r.Ok? <==> old(FullClean(self, name)).Ok?)
      ensures ',' !in name && r.Ok? ==> names == old(names)[r.value := Strip(name)]
      ensures ',' !in name && r.Raise? ==> names == old(names)
    {
      if ',' !in name {
        SplitWithoutSeparator(name, ',');
        r := Write(self, name);
      } else {
        r := SaveTerms(self, name);
      }
    }

    /**
     * `Tag.save` on a name with commas: the name is cut to its first term, and
     * every further term is created as a tag of its own, in order, before the
     * tag itself is cleaned and written.
     */
    method SaveTerms(self: Option<TagId>, name: string) returns (r: Result<TagId>)
      requires Valid()
      requires self.Some? ==> self.value in names
      modifies this`names, this`nextId
      ensures Valid()
      ensures old(nextId) <= nextId
      ensures forall t :: t in old(names) && Some(t) != self ==> t in names && names[t] == old(names)[t]
      ensures forall t :: t in names && t !in old(names) ==> old(nextId) <= t < nextId
      ensures r.Ok? ==> r.value in names && names[r.value] == Strip(Split(name, ',')[0])
      ensures r.Ok? && self.Some? ==> r.value == self.value
      ensures r.Ok? ==> forall k :: 1 <= k < |Split(name, ',')| ==> Strip(Split(name, ',')[k]) in names.Values
      ensures r.Ok? ==> nextId == old(nextId) + |Split(name, ',')| - 1 + (if self.None? then 1 else 0)
      ensures r.Raise? ==> r.error.ValidationError?
    {
      var terms := Split(name, ',');
      var first := terms[0];
      assert forall t :: t in names ==> t < nextId;
      var created := CreateTerms(terms[1..]);
      if created.Raise? {
        NewTagsKeep(old(names), old(nextId), CleanAll(terms[1..])[..nextId - old(nextId)]);
        return Raise(created.error);
      }
      assert CleanAll(terms[1..])[..nextId - old(nextId)] == CleanAll(terms[1..]);
      NewTagsKeep(old(names), old(nextId), CleanAll(terms[1..]));
      r := Write(self, first);
      if r.Ok? {
        CommaSaveFacts(old(names), old(nextId), terms, names, r.value, Strip(first), self);
      }
    }

    /** `tag.entry_count`: how many entries use the tag. */
    function EntryCount(t: TagId): (r: nat)
      reads this
      ensures r <= |entryTags|
      ensures r == 0 <==> forall e :: e in entryTags ==> t !in entryTags[e]
    {
      var using := set e | e in entryTags && t in entryTags[e];
      assert using <= entryTags.Keys;
      SubsetCard(using, entryTags.Keys);
      if forall e :: e in entryTags ==> t !in entryTags[e] then
        assert using == {};
        |using|
      else
        var e :| e in entryTags && t in entryTags[e];
        assert e in using;
        |using|
    }

    /** `str(tag)`: the tag's name. */
    function Str(t: TagId): (r: string)
      reads this
      requires t in names
      ensures r == names[t]
    {
      names[t]
    }
  }
}

=== FILE: url_utils.dfy ===
/** URL pattern builders: the API prefix and the optional version group. */
module UrlUtils {

  /** `VERSION_GROUP`: an optional `v<digits>/` captured as `version`. */
  const VersionGroup := "((?P<version>v\\d+)/)?"
  const ApiPrefix := "^api/pulse/"

  /** `versioned_url`: the pattern followed by the version group. */
  function VersionedUrl(pattern: string := ""): (url: string)
    ensures |url| == |pattern| + |VersionGroup|
    ensures url[..|pattern|] == pattern && url[|pattern|..] == VersionGroup
  {
    pattern + VersionGroup
  }

  /** `api_url`: the pattern under the API prefix; the default pattern gives the prefix alone. */
  function ApiUrl(pattern: string := ""): (url: string)
    ensures |url| == |ApiPrefix| + |pattern|
    ensures url[..|ApiPrefix|] == ApiPrefix && url[|ApiPrefix|..] == pattern
  {
    ApiPrefix + pattern
  }

  /** `versioned_api_url`: the versioned API prefix followed by the pattern. */
  function VersionedApiUrl(pattern: string := ""): (url: string)
    ensures url == ApiPrefix + VersionGroup + pattern
  {
    VersionedUrl(ApiPrefix) + pattern
  }

  /** The three builders compose: the versioned API pattern is the versioned API root followed by the pattern. */
  lemma VersionedApiUrlComposes(pattern: string)
    ensures VersionedApiUrl(pattern) == VersionedUrl(ApiUrl()) + pattern
    ensures ApiUrl() == ApiPrefix
    ensures VersionedApiUrl() == VersionedUrl(ApiUrl())
  {
    assert ApiUrl() == ApiPrefix + "";
    assert ApiPrefix + "" == ApiPrefix;
    assert VersionedApiUrl() == VersionedUrl(ApiPrefix) + "";
  }
}

=== FILE: user_models.dfy ===
/**
 * The user model: users are identified by their email address and carry a
 * display name, a staff flag and (through the permissions mixin) a
 * superuser flag and group memberships.
 */
module UserModels {

  import opened Python

  /** `user.get_full_name()`: the name followed by the email in parentheses. */
  function FullName(name: string, email: string): (r: string)
    ensures |r| == |name| + |email| + 3
    ensures r[..|name|] == name
    ensures r[|name|..|name| + 2] == " ("
    ensures r[|name| + 2..|r| - 1] == email && r[|r| - 1] == ')'
  {
    name + " (" + email + ")"
  }

  class EmailUser {
    var email: string
    var name: string
    /** The password handed to `set_password`; hashing is not modelled. */
    var password: string
    var isStaff: bool
    var isSuperuser: bool
    var groups: set<string>

    /** `self.model(email=..., name=...)`: a new user with default flags and no groups. */
    constructor (email0: string, name0: string, password0: string)
      ensures email == email0 && name == name0 && password == password0
      ensures !isStaff && !isSuperuser && groups == {}
    {
      email := email0;
      name := name0;
      password := password0;
      isStaff := false;
      isSuperuser := false;
      groups := {};
    }

    function GetFullName(): (r: string)
      reads this
      ensures r == FullName(name, email)
    {
      FullName(name, email)
    }

    /** `get_short_name()`, `toString()` and `__str__()` all answer the email. */
    function GetShortName(): (r: string)
      reads this
      ensures r == email
    {
      email
    }

    function ToString(): (r: string)
      reads this
      ensures r == GetShortName()
    {
      email
    }

    /** Every permission is granted to every user of this model. */
    predicate HasPerm(perm: string)
      reads this
      ensures HasPerm(perm)
    {
      true
    }

    predicate HasModulePerms(appLabel: string)
      reads this
      ensures HasModulePerms(appLabel)
    {
      true
    }
  }

  /**
   * `EmailUserManager.create_user`: a ValueError for an empty name, then for
   * an empty email; a missing password is replaced by the generated one.
   * Saving the user raises IntegrityError when its address is already among
   * the `stored` ones, the email column being unique.
   */
  method CreateUser(name: string, email: string, password: Option<string>, generated: string, stored: set<string>)
    returns (r: Result<EmailUser>)
    ensures name == [] ==> r == Raise(ValueError("Users must have a name"))
    ensures name != [] && email == [] ==> r == Raise(ValueError("Users must have an email address"))
    ensures name != [] && email != [] && email in stored ==> r == Raise(IntegrityError)
    ensures r.Ok? <==> name != [] && email != [] && email !in stored
    ensures r.Ok? ==> fresh(r.value) && r.value.email == email && r.value.name == name
    ensures r.Ok? ==> r.value.password == (if password.None? || password.value == [] then generated else password.value)
    ensures r.Ok? ==> !r.value.isStaff && !r.value.isSuperuser && r.value.groups == {}
  {
    if name == [] {
      return Raise(ValueError("Users must have a name"));
    }
    if email == [] {
      return Raise(ValueError("Users must have an email address"));
    }
    var pw := if password.None? || password.value == [] then generated else password.value;
    if email in stored {
      // `user.save()`: the email column is unique
      return Raise(IntegrityError);
    }
    var user := new EmailUser(email, name, pw);
    return Ok(user);
  }

  /** `EmailUserManager.create_superuser`: `create_user`, then both flags raised. */
  method CreateSuperuser(name: string, email: string, password: Option<string>, generated: string, stored: set<string>)
    returns (r: Result<EmailUser>)
    ensures r.Ok? <==> name != [] && email != [] && email !in stored
    ensures r.Raise? ==> (r.error.ValueError? <==> name == [] || email == [])
    ensures r.Raise? ==> r.error.ValueError? || r.error == IntegrityError
    ensures r.Ok? ==> fresh(r.value) && r.value.email == email && r.value.name == name
    ensures r.Ok? ==> r.value.isStaff && r.value.isSuperuser && r.value.groups == {}
  {
    r := CreateUser(name, email, password, generated, stored);
    if r.Ok? {
      r.value.isStaff := true;
      r.value.isSuperuser := true;
    }
  }
}

=== FILE: user_permissions.dfy ===
/**
 * Staff detection by email domain and the login-pipeline step that promotes
 * staff addresses to Django staff in the `staff` group.
 */
module UserPermissions {

  import opened Python
  import opened Strings
  import UserModels

  /**
   * `is_staff_address(email)`: the text between the first and the second `@`
   * is one of the configured staff domains. `None` and addresses without
   * `@` are never staff.
   */
  predicate IsStaffAddress(email: Option<string>, staffDomains: seq<string>) {
    email.Some? && '@' in email.value && Split(email.value, '@')[1] in staffDomains
  }

  /** The domain `email.split('@')[1]` is the text between the first `@` and the next one (or the end). */
  lemma DomainBetweenFirstTwoAts(email: string)
    requires '@' in email
    ensures var i := IndexOf(email, '@');
            var d := Split(email, '@')[1];
            '@' !in d && i + 1 + |d| <= |email| && email[i + 1..i + 1 + |d|] == d
            && (i + 1 + |d| == |email| || email[i + 1 + |d|] == '@')
  {
    var i := IndexOf(email, '@');
    var rest := email[i + 1..];
    assert Split(email, '@')[1] == Split(rest, '@')[0];
    if '@' in rest {
      var j := IndexOf(rest, '@');
      assert Split(rest, '@')[0] == rest[..j];
      assert email[i + 1 + j] == rest[j];
    }
  }

  /** An address is judged by its domain alone: the local part never matters. */
  lemma StaffAddressIgnoresLocalPart(local1: string, local2: string, domain: string, staffDomains: seq<string>)
    requires '@' !in local1 && '@' !in local2 && '@' !in domain
    ensures IsStaffAddress(Some(local1 + "@" + domain), staffDomains) == IsStaffAddress(Some(local2 + "@" + domain), staffDomains)
    ensures IsStaffAddress(Some(local1 + "@" + domain), staffDomains) <==> domain in staffDomains
  {
    SplitPair(local1, domain, '@');
    SplitPair(local2, domain, '@');
  }

  /** The memberships after `assign_group_policy`: the group is added only if it exists. */
  function WithGroup(groups: set<string>, name: string, existingGroups: set<string>): (r: set<string>)
    ensures groups <= r && r <= groups + {name}
    ensures name in r <==> name in groups || name in existingGroups
  {
    if name in existingGroups then groups + {name} else groups
  }

  /** `assign_group_policy`: add the user to the named group; a missing group is only reported. */
  method AssignGroupPolicy(user: UserModels.EmailUser, name: string, existingGroups: set<string>)
    modifies user`groups
    ensures user.groups == WithGroup(old(user.groups), name, existingGroups)
  {
    if name in existingGroups {
      user.groups := user.groups + {name};
    }
  }

  /** The condition under which `set_user_permissions` acts. */
  predicate Promotes(email: string, isStaff: bool, staffDomains: seq<string>) {
    email != [] && IsStaffAddress(Some(email), staffDomains) && !isStaff
  }

  /**
   * `set_user_permissions`: a non-staff user with a staff address becomes
   * staff and joins the `staff` group (if that group exists); any other user
   * is left alone.
   */
  method SetUserPermissions(user: UserModels.EmailUser, staffDomains: seq<string>, existingGroups: set<string>)
    modifies user`isStaff, user`groups
    ensures Promotes(old(user.email), old(user.isStaff), staffDomains) ==>
      user.isStaff && user.groups == WithGroup(old(user.groups), "staff", existingGroups)
    ensures !Promotes(old(user.email), old(user.isStaff), staffDomains) ==>
      user.isStaff == old(user.isStaff) && user.groups == old(user.groups)
    ensures !Promotes(user.email, user.isStaff, staffDomains)
  {
    if user.email != [] && IsStaffAddress(Some(user.email), staffDomains) && !user.isStaff {
      user.isStaff := true;
      AssignGroupPolicy(user, "staff", existingGroups);
    }
  }

  /** A second run finds the flag set and does nothing: promotion is idempotent. */
  lemma PromotionIsIdempotent(email: string, staffDomains: seq<string>)
    ensures !Promotes(email, true, staffDomains)
  {
  }
}

=== FILE: users_views.dfy ===
/**
 * The login views of the API: issuing the form nonce, reporting the login
 * status, starting the OAuth flow with a `state` value, and the OAuth
 * callback that checks that state before it logs anyone in and redirects
 * back with a `loggedin` flag.
 */
module UsersViews {

  import opened Python
  import opened Strings
  import opened Web
  import opened PostGuard
  import opened UserPermissions
  import UserModels

  const NoSessionState :=
    "ERROR: No state key found in request.session!\nAre you making doubly sure your initial domain and callback domain are the same domain?"
  const MissingState := "Questionable login: missing state value in callback."
  const IncorrectState := "Questionable login: incorrect state value in callback."
  const NeitherErrorNorCode := "callback happened without an error or code query argument: this should not be possible."

  /**
   * `nonce`: an anonymous requester gets 403 and the session is left alone;
   * otherwise a fresh nonce (`random`) is stored and the same value is
   * returned (`issued`) for the client to sign its next post with.
   */
  method Nonce(session: Session, user: Requester, random: string) returns (resp: Response, issued: Option<PyVal>)
    modifies session
    ensures !user.authenticated ==> resp == Response(403, "Not authorized") && issued.None? && session.data == old(session.data)
    ensures user.authenticated ==>
      session.data == old(session.data)["nonce" := PyStr(random)]
      && resp.status == 200 && issued == Some(session.data["nonce"])
  {
    if !user.authenticated {
      return Response(403, "Not authorized"), None;
    }
    NewNonceValue(session, random);
    issued := Some(session.data["nonce"]);
    resp := Response(200, random);
  }

  /** A freshly issued nonce, sent back with a CSRF token by its logged-in user, passes the replay guard. */
  lemma IssuedNoncePasses(csrf: PyVal, session: map<string, PyVal>, random: string)
    requires !IsFalse(csrf)
    ensures Verdict(csrf, PyStr(random), true, session["nonce" := PyStr(random)]) == Ok(PyBool(true))
  {
  }

  /** What `userstatus` reports. Values the view leaves at `False` are PyBool(false). */
  datatype Status = Status(username: PyVal, profileId: PyVal, customName: PyVal, email: PyVal,
                           loggedIn: bool, moderator: bool)

  /**
   * `userstatus` for a requester whose user name is `name` and whose
   * profile's custom name is `customName`: a moderator is a member of the
   * `moderator` group or a superuser; the personal fields are filled in
   * only for a logged-in requester.
   */
  function UserStatus(user: Requester, name: string, customName: PyVal): (s: Status)
    ensures s.loggedIn == user.authenticated
    ensures s.moderator <==> "moderator" in Groups(user) || IsSuperuser(user)
    ensures !user.authenticated ==> !s.moderator
    ensures !s.loggedIn ==> IsFalse(s.username) && IsFalse(s.profileId) && IsFalse(s.customName) && IsFalse(s.email)
    ensures s.loggedIn ==>
      s.username == PyStr(name) && s.profileId == PyInt(user.profile) && s.customName == customName && s.email == PyStr(user.email)
  {
    var moderator := if "moderator" in Groups(user) then true else IsSuperuser(user);
    if user.authenticated then
      Status(PyStr(name), PyInt(user.profile), customName, PyStr(user.email), true, moderator)
    else
      Status(PyBool(false), PyBool(false), PyBool(false), PyBool(false), false, moderator)
  }

  /**
   * `start_auth`: the `original_url` query parameter, when given, becomes the
   * session's state; otherwise a fresh random state is stored. Either way the
   * state passed to the OAuth flow is the session's.
   */
  method StartAuth(session: Session, query: map<string, string>, random: string) returns (flowState: PyVal)
    modifies session
    ensures "original_url" in query ==> session.data == old(session.data)["state" := PyStr(query["original_url"])]
    ensures "original_url" !in query ==> session.data == old(session.data)["state" := PyStr(random)]
    ensures "state" in session.data && flowState == session.data["state"]
  {
    if "original_url" !in query {
      NewStateValue(session, random);
      flowState := session.data["state"];
    } else {
      session.data := session.data["state" := PyStr(query["original_url"])];
      flowState := PyStr(query["original_url"]);
    }
  }

  /**
   * `do_final_redirect`: the target is `state` when it validates as a URL
   * (`stateIsUrl`, the URL validator's answer), `/` otherwise; the login
   * outcome is appended as a query pair, after `&` when the target already
   * has a query and after `?` when it has none.
   */
  function FinalRedirect(state: string, stateIsUrl: bool, loggedIn: bool): (url: string)
    ensures var base := if stateIsUrl then state else "/";
      && |url| == |base| + 1 + |"loggedin=" + BoolText(loggedIn)|
      && url[..|base|] == base
      && url[|base|] == (if '?' in base then '&' else '?')
      && url[|base| + 1..] == "loggedin=" + BoolText(loggedIn)
  {
    var base := if stateIsUrl then state else "/";
    var sep := if '?' in base then "&" else "?";
    base + sep + "loggedin=" + BoolText(loggedIn)
  }

  /**
   * The flag reads back from the URL: when the target had no query, the
   * redirect splits at `?` into the target and exactly `loggedin=True` or
   * `loggedin=False`.
   */
  lemma FinalRedirectQuery(state: string, stateIsUrl: bool, loggedIn: bool)
    requires '?' !in (if stateIsUrl then state else "/")
    ensures Split(FinalRedirect(state, stateIsUrl, loggedIn), '?') ==
      [if stateIsUrl then state else "/", "loggedin=" + BoolText(loggedIn)]
  {
    var base := if stateIsUrl then state else "/";
    var flag := "loggedin=" + BoolText(loggedIn);
    assert '?' !in flag;
    assert FinalRedirect(state, stateIsUrl, loggedIn) == base + ['?'] + flag;
    SplitPair(base, flag, '?');
  }

  /** The user table, keyed by email: each user is stored under its own address. */
  class Accounts {
    var byEmail: map<string, UserModels.EmailUser>

    ghost predicate Valid()
      reads this, byEmail.Values
    {
      forall e :: e in byEmail ==> byEmail[e].email == e
    }

    constructor ()
      ensures byEmail == map[] && Valid()
    {
      byEmail := map[];
    }
  }

  /**
   * The callback's user lookup: the user stored under `email` gets the
   * provider's name; an unknown email creates a new user (whose manager
   * refuses an empty name or email).
   */
  method RenameOrCreate(accounts: Accounts, name: string, email: string, generated: string)
    returns (r: Result<UserModels.EmailUser>)
    requires accounts.Valid()
    modifies accounts, accounts.byEmail.Values
    ensures accounts.Valid()
    ensures email in old(accounts.byEmail) ==>
      accounts.byEmail == old(accounts.byEmail) && r == Ok(accounts.byEmail[email])
      && accounts.byEmail[email].name == name
      && forall e :: e in old(accounts.byEmail) && e != email ==> old(accounts.byEmail[e].name) == accounts.byEmail[e].name
    ensures email !in old(accounts.byEmail) ==>
      (r.Ok? <==> name != [] && email != [])
      && (r.Raise? ==> r.error.ValueError? && accounts.byEmail == old(accounts.byEmail))
      && (r.Ok? ==> accounts.byEmail.Keys == old(accounts.byEmail.Keys) + {email}
                    && r == Ok(accounts.byEmail[email]) && accounts.byEmail[email].name == name)
  {
    if email in accounts.byEmail {
      var user := accounts.byEmail[email];
      user.name := name;
      return Ok(user);
    }
    r := UserModels.CreateUser(name, email, None, generated, accounts.byEmail.Keys);
    if r.Ok? {
      accounts.byEmail := accounts.byEmail[email := r.value];
    }
  }

  /** The callback's query reaches the token exchange: a code and the session's own state. */
  predicate Exchanges(session: map<string, PyVal>, query: map<string, string>) {
    "state" in session && "error" !in query && "code" in query && "state" in query
    && Equal(PyStr(query["state"]), session["state"])
  }

  /**
   * After the exchange, the address may log in: the `ALLOW_UNIVERSAL_LOGIN`
   * setting is set, to any value at all (the view only asks whether it is
   * `None`), or it is a staff address.
   */
  predicate MayLogIn(email: string, allowUniversalLogin: Option<string>, staffDomains: seq<string>) {
    allowUniversalLogin.Some? || IsStaffAddress(Some(email), staffDomains)
  }

  /**
   * `callback`. In order: no state in the session is a 404; an `error`
   * parameter fails the login; a `code` without a `state` parameter, or with
   * one that differs from the session's, is refused before any token
   * exchange; neither error nor code is a 404. After the exchange (not
   * modelled: the provider's `name` and `email` are parameters) a non-staff
   * address is sent back with `loggedin=False` unless `ALLOW_UNIVERSAL_LOGIN`
   * is set;
   * otherwise the user stored under that email is renamed, or a new user is
   * created, and logged in, and the answer redirects with `loggedin=True`.
   */
  method Callback(accounts: Accounts, session: Session, query: map<string, string>,
                  name: string, email: string, generated: string,
                  allowUniversalLogin: Option<string>, staffDomains: seq<string>, stateIsUrl: bool)
    returns (r: Result<Response>, loggedIn: Option<UserModels.EmailUser>)
    requires accounts.Valid()
    modifies accounts, accounts.byEmail.Values
    ensures accounts.Valid()
    ensures "state" !in session.data ==> r == Ok(Response(404, NoSessionState))
    ensures "state" in session.data && "error" in query ==> r == Ok(Response(200, "login failed: " + query["error"]))
    ensures "state" in session.data && "error" !in query && "code" in query && "state" !in query ==>
      r == Ok(Response(200, MissingState))
    ensures ("state" in session.data && "error" !in query && "code" in query && "state" in query
             && !Equal(PyStr(query["state"]), session.data["state"])) ==> r == Ok(Response(200, IncorrectState))
    ensures "state" in session.data && "error" !in query && "code" !in query ==> r == Ok(Response(404, NeitherErrorNorCode))
    ensures !(Exchanges(session.data, query) && MayLogIn(email, allowUniversalLogin, staffDomains)) ==>
      loggedIn.None? && accounts.byEmail == old(accounts.byEmail)
      && forall e :: e in old(accounts.byEmail) ==> old(accounts.byEmail[e].name) == accounts.byEmail[e].name
    ensures Exchanges(session.data, query) && !MayLogIn(email, allowUniversalLogin, staffDomains) ==>
      r == Ok(Response(302, FinalRedirect(query["state"], stateIsUrl, false)))
    ensures Exchanges(session.data, query) && MayLogIn(email, allowUniversalLogin, staffDomains) && email in old(accounts.byEmail) ==>
      r == Ok(Response(302, FinalRedirect(query["state"], stateIsUrl, true))) && accounts.byEmail == old(accounts.byEmail)
      && loggedIn == Some(accounts.byEmail[email]) && accounts.byEmail[email].name == name
      && forall e :: e in old(accounts.byEmail) && e != email ==> old(accounts.byEmail[e].name) == accounts.byEmail[e].name
    ensures Exchanges(session.data, query) && MayLogIn(email, allowUniversalLogin, staffDomains) && email !in old(accounts.byEmail) ==>
      (r.Ok? <==> name != [] && email != [])
      && (r.Raise? ==> r.error.ValueError? && accounts.byEmail == old(accounts.byEmail) && loggedIn.None?)
      && (r.Ok? ==> r == Ok(Response(302, FinalRedirect(query["state"], stateIsUrl, true)))
                    && accounts.byEmail.Keys == old(accounts.byEmail.Keys) + {email}
                    && loggedIn == Some(accounts.byEmail[email]) && accounts.byEmail[email].name == name)
  {
    loggedIn := None;
    if "state" !in session.data {
      return Ok(Response(404, NoSessionState)), None;
    }
    if "error" in query {
      return Ok(Response(200, "login failed: " + query["error"])), None;
    }
    if "code" in query {
      if "state" !in query {
        return Ok(Response(200, MissingState)), None;
      }
      var state := query["state"];
      if !Equal(PyStr(state), session.data["state"]) {
        return Ok(Response(200, IncorrectState)), None;
      }
      if allowUniversalLogin.None? && !IsStaffAddress(Some(email), staffDomains) {
        return Ok(Response(302, FinalRedirect(state, stateIsUrl, false))), None;
      }
      var user := RenameOrCreate(accounts, name, email, generated);
      if user.Raise? {
        return Raise(user.error), None;
      }
      return Ok(Response(302, FinalRedirect(state, stateIsUrl, true))), Some(user.value);
    }
    return Ok(Response(404, NeitherErrorNorCode)), None;
  }
}

=== FILE: validators.dfy ===
/**
 * `YearValidator`: a year must lie between a fixed first year and a number
 * of years after the current one. The current year is a parameter.
 */
module Validators {

  import opened Python

  const DefaultMinYear := 2000
  const DefaultMaxOffset := 10
  const YearMessage := "The year must be between %(min_year)s and %(max_year)s."
  const YearCode := "year_value"

  /** A constructed validator; the message and code are the class's own. */
  datatype YearValidator = YearValidator(minYear: int, maxOffset: int, message: string, code: string)

  /**
   * `YearValidator(min_year, max_offset)` (2000 and 10 when not given): a
   * first year after the current year is a ValueError; otherwise both
   * arguments are kept.
   */
  function NewYearValidator(currentYear: int, minYear: int := DefaultMinYear, maxOffset: int := DefaultMaxOffset)
    : (r: Result<YearValidator>)
    ensures r.Raise? <==> minYear > currentYear
    ensures r.Raise? ==> r.error.ValueError?
    ensures r.Ok? ==> r.value == YearValidator(minYear, maxOffset, YearMessage, YearCode)
  {
    if minYear > currentYear then Raise(ValueError("min_year after the current year"))
    else Ok(YearValidator(minYear, maxOffset, YearMessage, YearCode))
  }

  /** The ValidationError a call raises: its code and its `min_year` and `max_year` params. */
  datatype YearError = YearError(code: string, minYear: int, maxYear: int)

  /** The last year a call accepts. */
  function MaxYear(v: YearValidator, currentYear: int): int {
    currentYear + v.maxOffset
  }

  /**
   * `__call__`: a year before `min_year` or after the current year plus
   * `max_offset` raises, with both bounds as params; every year between
   * them, both bounds included, passes (None).
   */
  function Check(v: YearValidator, currentYear: int, value: int): (e: Option<YearError>)
    ensures e.None? <==> v.minYear <= value <= MaxYear(v, currentYear)
    ensures e.Some? ==> e.value == YearError(v.code, v.minYear, MaxYear(v, currentYear))
  {
    var maxYear := currentYear + v.maxOffset;
    if value < v.minYear || value > maxYear then Some(YearError(v.code, v.minYear, maxYear))
    else None
  }

  /**
   * A default validator built this year accepts this year and the next
   * ten, and refuses 1999 and the eleventh year from now.
   */
  lemma DefaultValidatorBounds(currentYear: int)
    requires currentYear >= DefaultMinYear
    ensures NewYearValidator(currentYear).Ok?
    ensures var v := NewYearValidator(currentYear).value;
      Check(v, currentYear, DefaultMinYear).None? && Check(v, currentYear, currentYear).None?
      && Check(v, currentYear, currentYear + 10).None?
      && Check(v, currentYear, 1999).Some? && Check(v, currentYear, currentYear + 11).Some?
  {
  }

  /** What `__eq__` compares against: another year validator, or any other object. */
  datatype Other = AnotherYearValidator(v: YearValidator) | NotAYearValidator

  /** `__eq__`: another year validator with the same first year, offset, message and code. */
  predicate Eq(self: YearValidator, other: Other) {
    other.AnotherYearValidator? && self.minYear == other.v.minYear && self.maxOffset == other.v.maxOffset
    && self.message == other.v.message && self.code == other.v.code
  }

  /** `__eq__` is an equivalence on year validators, and agrees with their checks. */
  lemma EqIsEquivalence(a: YearValidator, b: YearValidator, c: YearValidator, currentYear: int, value: int)
    ensures Eq(a, AnotherYearValidator(a))
    ensures Eq(a, AnotherYearValidator(b)) ==> Eq(b, AnotherYearValidator(a))
    ensures Eq(a, AnotherYearValidator(b)) && Eq(b, AnotherYearValidator(c)) ==> Eq(a, AnotherYearValidator(c))
    ensures Eq(a, AnotherYearValidator(b)) ==> Check(a, currentYear, value) == Check(b, currentYear, value)
    ensures !Eq(a, NotAYearValidator)
  {
  }
}

=== FILE: versioning.dfy ===
/**
 * API versions: the configured version list and how a request's version is
 * chosen from the URL, with the default standing in when the URL names none.
 */
module Versioning {

  import opened Python

  /** `API_VERSION_LIST`: (key, URL value) pairs, oldest first. */
  const ApiVersionList: seq<(string, string)> := [("version_1", "v1"), ("version_2", "v2"), ("version_3", "v3")]
  const DefaultVersionKey := "version_1"

  /** Python's `dict(pairs)`: a later pair overrides an earlier one with the same key. */
  function Dict(pairs: seq<(string, string)>): (d: map<string, string>)
    ensures forall k :: 0 <= k < |pairs| ==> pairs[k].0 in d
    ensures forall key :: key in d ==> exists k :: 0 <= k < |pairs| && pairs[k].0 == key && d[key] == pairs[k].1
  {
    if |pairs| == 0 then map[]
    else Dict(pairs[..|pairs| - 1])[pairs[|pairs| - 1].0 := pairs[|pairs| - 1].1]
  }

  /** `API_VERSIONS`. */
  function ApiVersions(): map<string, string> {
    Dict(ApiVersionList)
  }

  /** `API_VERSIONS` with the configured list: one entry per version. */
  lemma ApiVersionsValue()
    ensures ApiVersions() == map["version_1" := "v1", "version_2" := "v2", "version_3" := "v3"]
  {
    var l := ApiVersionList;
    assert l[..2][..1] == l[..1] && l[..3][..2] == l[..2] && l[..1][..0] == [];
    assert l[..3] == l;
    assert Dict(l[..1]) == map["version_1" := "v1"];
    assert Dict(l[..2]) == map["version_1" := "v1", "version_2" := "v2"];
  }

  /** The URL value of `DEFAULT_VERSION`. */
  function DefaultVersion(): string {
    ApiVersionsValue();
    ApiVersions()[DefaultVersionKey]
  }

  /** `ALLOWED_VERSIONS`: every version's URL value. */
  function AllowedVersions(): set<string> {
    ApiVersions().Values
  }

  /** With the configured settings the versions are v1, v2 and v3, and v1 is the default. */
  lemma ConfiguredVersions()
    ensures AllowedVersions() == {"v1", "v2", "v3"}
    ensures DefaultVersion() == "v1"
  {
    ApiVersionsValue();
    var d := ApiVersions();
    assert d["version_1"] == "v1" && d["version_2"] == "v2" && d["version_3"] == "v3";
  }

  /** The URL parameter the version is captured into. */
  const VersionParam := "version"

  /**
   * `is_allowed_version` of the URL-path scheme: the default version, or one
   * of the allowed versions (the allowed list is not empty here).
   */
  predicate IsAllowedVersion(v: string) {
    v == DefaultVersion() || v in AllowedVersions()
  }

  /**
   * `determine_version`: the captured version, or the default when the URL
   * captured none (the parameter is absent, or present but None). A version
   * that is not allowed is NotFound.
   */
  function DetermineVersion(kwargs: map<string, Option<string>>): (r: Result<string>)
    ensures VersionParam !in kwargs ==> r == Ok(DefaultVersion())
    ensures VersionParam in kwargs && kwargs[VersionParam].None? ==> r == Ok(DefaultVersion())
    ensures VersionParam in kwargs && kwargs[VersionParam].Some? ==>
      r == (if kwargs[VersionParam].value in AllowedVersions() then Ok(kwargs[VersionParam].value) else Raise(NotFound))
    ensures r.Ok? ==> r.value in AllowedVersions()
  {
    ConfiguredVersions();
    var version := if VersionParam in kwargs then kwargs[VersionParam] else Some(DefaultVersion());
    var v := if version.None? then DefaultVersion() else version.value;
    if !IsAllowedVersion(v) then Raise(NotFound) else Ok(v)
  }

  /** `LATEST_API_VERSION`: the URL value of the last version in the list. */
  function LatestApiVersion(): string {
    ApiVersionList[|ApiVersionList| - 1].1
  }

  /** The latest version is v3, an allowed version that requests resolve to unchanged. */
  lemma LatestIsAllowed()
    ensures LatestApiVersion() == "v3" && LatestApiVersion() in AllowedVersions()
    ensures DetermineVersion(map[VersionParam := Some(LatestApiVersion())]) == Ok("v3")
  {
    ConfiguredVersions();
  }
}

=== FILE: web.dfy ===
/**
 * The request side of a view: the user making the request and the
 * server-side session that Django keeps for them.
 */
module Web {

  import opened Python

  type UserId = int
  type ProfileId = int

  /**
   * `request.user`. An anonymous requester has no email, no profile and no
   * permissions. `perms` answers `user.has_perm(p)` for the installed user
   * model; `groups` are the names of the user's groups.
   */
  datatype Requester = Requester(
    authenticated: bool,
    id: UserId,
    profile: ProfileId,
    email: string,
    perms: set<string>,
    isSuperuser: bool,
    groups: set<string>)

  /** `user.is_superuser`: False for the anonymous user. */
  predicate IsSuperuser(r: Requester) {
    r.authenticated && r.isSuperuser
  }

  /** The names of `user.groups`: the anonymous user belongs to none. */
  function Groups(r: Requester): set<string> {
    if r.authenticated then r.groups else {}
  }

  /** `user.has_perm(p)`: never for an anonymous requester. */
  predicate HasPerm(r: Requester, p: string) {
    r.authenticated && p in r.perms
  }

  /** An HTTP response: its status code and its body text. */
  datatype Response = Response(status: int, body: string)

  /** Django's session for one browser: a dictionary written in place by the views. */
  class Session {
    var data: map<string, PyVal>

    constructor (initial: map<string, PyVal>)
      ensures data == initial
    {
      data := initial;
    }
  }

  /** `new_state_value`: a fresh random value (`random`) becomes the session's OAuth state. */
  method NewStateValue(session: Session, random: string)
    modifies session
    ensures session.data == old(session.data)["state" := PyStr(random)]
  {
    session.data := session.data["state" := PyStr(random)];
  }

  /** `new_nonce_value`: a fresh random value becomes the session's form nonce. */
  method NewNonceValue(session: Session, random: string)
    modifies session
    ensures session.data == old(session.data)["nonce" := PyStr(random)]
  {
    session.data := session.data["nonce" := PyStr(random)];
  }
}
